=== FILE: README.md ===
# Account, session and todo API: a Dafny model

This project models the core of an Express/Mongoose back end. It covers user
registration with a one-time email code, login, logout, refresh-token
rotation, the access-token guard, the soft-delete plugin, the todo model and
its service, the request validators, and the small helpers: pagination,
cursors, cookie options, the constants table and the final error handler.

Each handler is a pure function. It takes the collections it reads, the
request values, the clock (`now`, in milliseconds) and whatever the
libraries would supply. It returns the response outcome together with the
collections afterwards.

- **Collections.** A collection is a sequence in natural (insertion) order, so
  `findOne` is "the first match" (`Base.FirstIndex`).
- **Failures.** A failure is one of three kinds: the application's `ApiError`
  (`ApiFailure`), the validation library's error (`VineFailure`), or any other
  error, known by its name and message (`OtherFailure`).
- **JavaScript semantics.** The string built-ins the code relies on are
  written out in `Text`:
  - `trim` and its white-space set;
  - `length` in UTF-16 code units;
  - ASCII `toLowerCase`;
  - `replace` of the first occurrence;
  - `toString` of a natural number;
  - `parseInt(x, 10)`.

  JavaScript truthiness of JSON values is `Base.Truthy`.
- **Library parameters.** What belongs to libraries is a parameter:
  - bcrypt is a symbolic digest whose `Compare` accepts exactly the hashed
    plain text;
  - JWT signing is a `Signer` (claims and secret to an optional token);
  - JWT verification is a `Verifier`;
  - `Math.random` is a `Draw` in 0..899999;
  - the validation library's email, letter-or-mark and date rules, and
    JavaScript's `Number` on strings, are fields of `Vine.Lib`.

Modules follow the source files:

| module | source file |
|---|---|
| `Session` | `src/controllers/auth/login.controller.js` |
| `RegistrationController` | `src/controllers/auth/registration.controller.js` |
| `Tokens` | `src/utils/GenerateTokenMethodHelper.js` and the token methods of the user model |
| `UserModel` | `src/models/user.modal.js` |
| `UserValidation` | `src/validations/user.validation.js` |
| `Otp` | `src/utils/helpers.js` |
| `Verification` | `src/models/verification.modal.js` |
| `Constants` | `src/constants.js` |
| `AuthMiddleware` | `src/middlewares/auth.middleware.js` |
| `Cookies` | `src/helper/cookies.options.js` |
| `SoftDelete` | `src/plugins/softDelete.js` |
| `TodoModel` | `src/models/todo.model.js` |
| `TodoService` | `src/services/todo.service.js` |
| `TodoValidation` | `src/validations/todo.validator.js` |
| `Paginate` | `src/utils/paginate.js` |
| `Cursor` | `src/utils/cursor.js` |
| `ErrorHandler` | `src/middlewares/errorHandler.js` |

`Base`, `Text`, `Bcrypt` and `Vine` hold the shared vocabulary.

## Model

| member | source | states |
|---|---|---|
| Session.Login | src/controllers/auth/login.controller.js:25-70 | A login failure is an ApiError and leaves the users unchanged. The identifier is lower-cased and then, as the schema setters do, trimmed for the email match and trimmed and lower-cased for the user-name match. An identifier naming nobody gives 401 "Invalid credentials". Any non-401 failure is the minting failure. When the user found is verified and active and has the password, the login succeeds exactly when the token helper mints a pair. A success returns the minted pair, and the users afterwards are those the token helper produced. |
| Session.LoginFailureOrder | src/controllers/auth/login.controller.js:32-50 | The checks run in a fixed order: an unverified user gets the verify-email message whatever the password; a verified inactive user gets "Account is deactivated"; only then is a wrong password "Invalid credentials". |
| Session.MixedCaseEmailNeverMatches | src/controllers/auth/login.controller.js:25-30 | A stored email with an upper-case letter never equals the lower-cased, trimmed identifier, so such a user cannot log in by email. |
| Session.LoginStoresReturnedToken | src/controllers/auth/login.controller.js:53-70 | After a successful login, the user found by id holds exactly the returned refresh token. The returned user is that user without password and token. The unique indexes still hold. |
| Session.Logout | src/controllers/auth/login.controller.js:75-83 | Logout always succeeds. It clears the refresh token of the user with that id and leaves every other record, and the length, unchanged. An unknown id changes nothing. |
| Session.Refresh | src/controllers/auth/login.controller.js:94-132 | The corrected handler. A failure changes nothing and is "Refresh token is required" or "Invalid refresh token". The first happens exactly when neither cookie nor body carries a truthy value. Success needs a string equal to some user's stored token. When such a holder exists, the refresh succeeds exactly when the token helper mints a pair for it. A success returns the minted pair, and the users afterwards are the minting result for that holder. |
| Session.RefreshStoresReturnedToken | src/controllers/auth/login.controller.js:103-124 | After a successful refresh, the holder found by id stores exactly the refresh token returned to the caller, and the unique indexes still hold. |
| Session.ReplayAfterRotationFails | src/controllers/auth/login.controller.js:103-110 | After a successful rotation to a different token, presenting the old token again fails with "Invalid refresh token" and changes nothing, when it had a single holder. |
| Session.RepeatedTokenKeepsWorking | src/controllers/auth/login.controller.js:103-110 | If the signer mints the very token presented, the rotation leaves the collection as it was, so that token keeps working. |
| Session.RefreshAfterLogoutFails | src/controllers/auth/login.controller.js:79-106 | After the only holder of a token logs out, refreshing with that token fails with "Invalid refresh token". |
| Session.RefreshAsWritten | src/controllers/auth/login.controller.js:95-110 | The handler as written puts the presented JSON value into the query. It succeeds only when the query matches some user, and then rotates that user's tokens. When a truthy value matches some user, it succeeds exactly when the token helper mints a pair for the first match. A failure changes nothing. |
| Session.AsWrittenAgreesOnStrings | src/controllers/auth/login.controller.js:103 | When the presented value is a string, the handler as written and the corrected one give the same outcome. |
| Session.OperatorInjectionCounterexample | src/controllers/auth/login.controller.js:95-106 | A body `{"refreshToken": {"$ne": null}}` makes the handler as written rotate and return a new pair for a user whose token was never presented. The corrected handler answers "Invalid refresh token". |
| Tokens.EnvOr | src/models/user.modal.js:82 | An unset or empty environment variable falls back to the default; a set one is used as it is. |
| Tokens.ClaimsDescribeUser | src/models/user.modal.js:73-98 | The access payload is exactly id, email and user name; the refresh payload is exactly the id. Both name the same user. The lifetimes default to "1d" and "7d". |
| Tokens.GenerateTokens | src/utils/GenerateTokenMethodHelper.js:5-19 | Any failure, an unknown id included, is 500 "Something went wrong" and stores nothing. Success happens exactly when the user exists and both tokens are signed. The pair is the two signed tokens. Only that user's refresh token changes, to the returned one. |
| Tokens.MintedTokenIsStored | src/utils/GenerateTokenMethodHelper.js:7-15 | After minting, `findById` finds the user holding exactly the returned refresh token, with the same password hash. The unique indexes still hold. |
| UserModel.GenderOf | src/models/user.modal.js:32-36 | A gender is accepted exactly when it is male, female or other, and names what was given. |
| UserModel.GenderRoundTrip | src/models/user.modal.js:32-36 | Reading back a gender's name gives the gender. |
| UserModel.SanitizeHidesSecrets | src/controllers/auth/login.controller.js:56 | The client view does not depend on the password hash or the refresh token. |
| UserModel.Build | src/models/user.modal.js:7-67 | A new user is built exactly when the full name, user name and email are non-empty after trimming and the password is non-empty. The user name is stored trimmed and lower-cased, and the email and full name are trimmed. The user is unverified and active, has no refresh token, and stores a hash of the password. A rejection is a ValidationError. |
| UserModel.Save | src/models/user.modal.js:61-67 | A save re-hashes only when a new password is assigned; any other save leaves the user unchanged. |
| UserModel.BuiltPasswordMatches | src/models/user.modal.js:69-71 | The password a user was built with matches, and no other does. |
| UserModel.Insert | src/models/user.modal.js:9-21 | An insert succeeds exactly when no stored user shares the id, user name or email. It appends the user. Otherwise it fails with the duplicate-key error and stores nothing. |
| UserModel.InsertPreservesUniqueKeys | src/models/user.modal.js:12-19 | A successful insert keeps the unique indexes. |
| UserModel.UpdatePreservesUniqueKeys | src/models/user.modal.js:12-19 | Replacing a record by one with the same id, user name and email keeps the unique indexes. |
| UserValidation.CheckUserName | src/validations/user.validation.js:16-33 | A user name is accepted exactly when it is a string of 3 to 30 characters from a-z, 0-9, `_` and `-`, with no separator at either end and no two separators side by side. It is returned unchanged, since the patterns run before lower-casing. |
| UserValidation.PatternsAgreeWithGoodUserName | src/validations/user.validation.js:16-19 | The four patterns together accept exactly the names described by that rule. |
| UserValidation.NoAtRuleIsRedundant | src/validations/user.validation.js:19 | Whatever passes the allowed-characters pattern also passes the no-`@` pattern. |
| UserValidation.MeIsNeverAccepted | src/validations/user.validation.js:17 | The reserved name "me" is rejected by the length rule before the reserved check. |
| UserValidation.OtherReservedNamesPassValidator | src/constants.js:6-9 | Every reserved name except "me" passes the validator, so only the reserved check stops it. |
| UserValidation.GoodUserNameIsNormal | src/models/user.modal.js:9-15 | The setters leave an accepted name as it is: there is nothing to trim or lower-case. |
| UserValidation.CheckFullName | src/validations/user.validation.js:23-27 | The full name is optional. When given, it is accepted exactly when its trimmed form has 1 to 100 UTF-16 units of letters, marks, white space, `'`, `.` and `-`, and that trimmed form is returned. |
| UserValidation.CheckEmail | src/validations/user.validation.js:34 | An email is accepted exactly when it is a string the email rule accepts, and it is kept as given. |
| UserValidation.CheckPassword | src/validations/user.validation.js:35 | A password is accepted exactly when it is a string of 8 to 100 UTF-16 units, untrimmed. |
| UserValidation.CheckGender | src/validations/user.validation.js:36 | A gender is accepted exactly when it is male, female or other. |
| UserValidation.ValidateRegistration | src/validations/user.validation.js:22-39 | The body is accepted exactly when every field is. The result carries the given user name, email and password. The full name is absent exactly when it was missing, and is otherwise the given one trimmed. The gender is the one named. Any rejection reports at least one error. |
| RegistrationController.Register | src/controllers/auth/registration.controller.js:10-19 | A body the validator rejects gives 422 "Validation failed" with its messages and changes nothing. A valid body continues with the validated values. At most one user is added. |
| RegistrationController.ValidRegistrationIsAdmitted | src/controllers/auth/registration.controller.js:23-41 | A validated body with a full name, an unreserved name, a free name and email, and a new id is written, provided the email rule accepts no blank string. The written user has the given full name trimmed and the gender named in the body. |
| RegistrationController.Admit | src/controllers/auth/registration.controller.js:23-41 | A user is written exactly when the name is not reserved, neither the name (trimmed and lower-cased) nor the email (trimmed) is taken, the schema accepts the record and the unique indexes accept the insert. |
| RegistrationController.RegisterValidated | src/controllers/auth/registration.controller.js:23-53 | A reserved name gives 400 and a taken name or email gives 409, both with nothing changed. The taken check compares the name trimmed and lower-cased and the email trimmed, as the schema setters store them. Any failure before the write changes nothing. The request succeeds exactly when the user is written. |
| RegistrationController.IssueForNewUser | src/controllers/auth/registration.controller.js:43-62 | The code is issued for the email as validated, whose trimmed form is the new user's stored email, so the lookup finds the new user. The request succeeds with the user kept. One live register challenge holding the code's hash is appended, and the reply echoes the code and returns the user without secrets. |
| RegistrationController.AdmittedUserIsStoredAsValidated | src/controllers/auth/registration.controller.js:33-41 | A written user has the new id and the validated name unchanged, with the email trimmed. It is unverified and active, has no refresh token, and matches the validated password. |
| RegistrationController.RegisterPreservesUniqueKeys | src/controllers/auth/registration.controller.js:27-41 | Registration keeps the unique indexes on the users collection. |
| Otp.GenerateOtp | src/utils/helpers.js:11-13 | The code is six decimal digits with no leading zero. Its value is 100000 plus the draw, and `parseInt` reads that value back. |
| Otp.GenerateOtpInjective | src/utils/helpers.js:11-13 | Different draws give different codes. |
| Otp.HashOtp | src/utils/helpers.js:16-17 | The stored hash of a code accepts that code. |
| Otp.HashOtpRoundTrip | src/utils/helpers.js:16-17 | A stored code hash accepts the code it was made from and no other. |
| Otp.UserByEmail | src/utils/helpers.js:29 | The lookup applies the email path's trim setter to the query value. It finds the first user whose stored email is the given one trimmed, and finds none only when no user has it. |
| Otp.IssueRegistrationOtp | src/utils/helpers.js:28-55 | An unknown email gives 404 and no challenge. A verified user gets nothing and no challenge. Otherwise exactly one challenge is appended and earlier ones are untouched. The new challenge is live, for that user and the register purpose, by email, with 0 attempts of 3. It carries the given resend count (0 by default), expires ten minutes from now and holds the hash of the returned six-digit code. |
| Otp.ReissueLeavesTwoActive | src/utils/helpers.js:41-50 | Issuing twice within ten minutes leaves two more live register challenges for the user, and both codes are accepted: issuance never retires a challenge. |
| Verification.PurposeOf | src/models/verification.modal.js:6 | The purpose is accepted exactly when it is register or reset_password. |
| Verification.Create | src/models/verification.modal.js:3-14 | A challenge is created exactly when userId, codeHash, expiresAt and a valid purpose are given and the channel is email or absent. Attempts, maxAttempts and resentCount default to 0, 3 and 0, and the challenge is unconsumed. A rejection is a ValidationError. |
| Verification.ActiveFor | src/models/verification.modal.js:19-22 | The live challenges of a user and purpose are exactly the unconsumed, unexpired ones. Nothing limits them to one. |
| Verification.ActiveForAppend | src/models/verification.modal.js:19-22 | Appending a challenge adds it to the live ones of its user and purpose exactly when it is live. |
| Verification.Reap | src/models/verification.modal.js:17 | The expiry index removes exactly the challenges whose expiry time has been reached. |
| Verification.ReapKeepsActive | src/models/verification.modal.js:17 | The reaper never removes a challenge that is live now or later. |
| Verification.ExpiredIsNotActive | src/models/verification.modal.js:17 | A challenge whose expiry has been reached is not live and may be reaped. |
| Constants.OtpExpiryIsTenMinutes | src/constants.js:3 | The code lifetime is 600000 ms. |
| Constants.ReservedNamesAreLowerCase | src/constants.js:6-9 | There are 13 reserved names, none with an upper-case letter. |
| Constants.OneEntryPerRole | src/constants.js:11-38 | The permission table has exactly one key per role. |
| Constants.SuperAdminHasEveryPermission | src/constants.js:25 | SUPER_ADMIN's list is PERMISSIONS. |
| Constants.AdminAndMemberWithinPermissions | src/constants.js:26-33 | The ADMIN and MEMBER lists use declared permissions only. MEMBER's is within ADMIN's, and ADMIN lacks DELETE_USERS. |
| Constants.UserHasUndeclaredPermissions | src/constants.js:34-37 | Apart from EDIT_PROFILE, USER's permissions are not declared. One of them has a leading space. |
| AuthMiddleware.TokenOf | src/middlewares/auth.middleware.js:9 | A non-empty access cookie wins. Otherwise there is a token exactly when there is an Authorization header. The header's first "Bearer ", wherever it occurs, is removed, and a header without one is used as it is. |
| AuthMiddleware.BearerPrefixStripped | src/middlewares/auth.middleware.js:9 | A header "Bearer t" yields exactly t. |
| AuthMiddleware.VerifyJwt | src/middlewares/auth.middleware.js:7-27 | Every failure is 401 with a non-empty message, and no token is "Unauthorized request". A token the library rejects gives its message, or "Invalid access token" when that is empty. A verified payload without an id, or with an id that names no user, gives "Invalid Access Token". A request passes exactly when a non-empty token verifies to the id of an existing user, and it is attributed to that user without secrets. |
| AuthMiddleware.AccessSurvivesLogout | src/middlewares/auth.middleware.js:14-23 | Logout does not change what the guard decides for any token. |
| Cookies.Shared | src/helper/cookies.options.js:1-15 | Both cookies are httpOnly. They are secure exactly in production, and sameSite is none exactly in production. |
| Cookies.AccessOptions | src/helper/cookies.options.js:3-8 | The access cookie lives 86400000 ms. |
| Cookies.RefreshOptions | src/helper/cookies.options.js:10-15 | The refresh cookie lives 604800000 ms. |
| Cookies.MaxAgeSeconds | src/helper/cookies.options.js:7 | The Max-Age attribute is the lifetime in whole seconds, rounded down (section 4.1.2.2 of RFC 6265). |
| Cookies.OptionsAgree | src/helper/cookies.options.js:3-15 | The two option records differ only in lifetime, which is seven times longer for refresh. sameSite none implies secure. |
| Cookies.MaxAgeAttributes | src/helper/cookies.options.js:7-14 | The cookies carry Max-Age 86400 and 604800. |
| SoftDelete.Find | src/plugins/softDelete.js:11-45 | A query returns exactly the matching documents its scope lets through: by default the live ones, with `withDeleted` all, with `onlyDeleted` the deleted ones, with `notDeleted` the live ones. |
| SoftDelete.ScopesPartition | src/plugins/softDelete.js:38-45 | The deleted and the live matches together count all the matches. |
| SoftDelete.DefaultIsNotDeleted | src/plugins/softDelete.js:11-45 | The default scope returns exactly what `notDeleted` returns. |
| SoftDelete.MarkDeleted | src/plugins/softDelete.js:57-62 | Deleting sets the time, actor and reason. It sets isActive false and the refresh token to null where the model has those fields, and keeps the id. |
| SoftDelete.SoftDeleteById | src/plugins/softDelete.js:53-65 | An unknown id gives null and changes nothing. An already deleted document is returned with nothing changed. A live one is marked deleted, saved and returned, and no other document changes. |
| SoftDelete.SoftDeleteIdempotent | src/plugins/softDelete.js:56 | A second delete returns the same document and changes nothing, whatever its time, actor or reason. |
| SoftDelete.MarkRestored | src/plugins/softDelete.js:71-74 | Restoring clears the three delete fields and sets isActive true where present. The refresh token is left as it is. |
| SoftDelete.RestoreById | src/plugins/softDelete.js:67-77 | An unknown id gives null. A live document is returned as it is. A deleted one is restored, saved and returned, and no other document changes. |
| SoftDelete.RestoreAfterDelete | src/plugins/softDelete.js:53-77 | Delete then restore clears the delete fields again. A document with an isActive field comes back active, one with a refresh-token field comes back without its token, and the save hook has run twice. No other document changes. |
| SoftDelete.ForceDeleteById | src/plugins/softDelete.js:79-82 | A hard delete removes the document with that id whether or not it is soft-deleted, and reports how many went. |
| SoftDelete.ForceDeleteRemovesId | src/plugins/softDelete.js:79-82 | Under a unique id, no document with that id remains after a hard delete. |
| TodoModel.PriorityOf | src/models/todo.model.js:37-41 | A priority is accepted exactly when it is low, medium or high. |
| TodoModel.PriorityRoundTrip | src/models/todo.model.js:37-41 | Reading back a priority's name gives the priority. |
| TodoModel.PreSave | src/models/todo.model.js:61-68 | A save sets completedAt to now exactly when completed was modified and is true, and to null otherwise, even on saves unrelated to completion. Nothing else changes. |
| TodoModel.PluginSave | src/models/todo.model.js:61-68 | The plugin's own saves do not modify `completed`, so they reset completedAt. |
| TodoModel.SoftDeleteClearsCompletedAt | src/models/todo.model.js:61-68 | Soft-deleting a completed todo keeps it completed but loses its completion time. |
| TodoModel.Create | src/models/todo.model.js:5-55 | A todo is created exactly when its trimmed title is non-empty and at most 200 units, the description is at most 1000, the priority is in its enum and the owner is given. Defaults are no description, no due date, not completed and medium priority. completedAt is set exactly for a completed one. |
| TodoModel.Toggle | src/models/todo.model.js:71-74 | Toggling flips completed and sets completedAt to now on completion and to null on reopening. |
| TodoModel.ToggleTwice | src/models/todo.model.js:71-74 | Toggling twice restores completed, with the completion time of the second save. |
| TodoModel.SortByDue | src/models/todo.model.js:92 | The sort returns a permutation of its input, ascending by due date. |
| TodoModel.FindOverdue | src/models/todo.model.js:87-93 | The overdue list is exactly the owner's live, incomplete todos due before now, ascending by due date. |
| TodoModel.FindOverdueMatchesIsOverdue | src/models/todo.model.js:76-93 | For a live todo of the owner, being listed as overdue coincides with `isOverdue()`. |
| TodoModel.FindUpcoming | src/models/todo.model.js:99-109 | The upcoming list is exactly the owner's live, incomplete todos due from now to `days` days ahead (7 by default), ascending. |
| TodoModel.OverdueAndUpcomingDisjoint | src/models/todo.model.js:87-109 | No todo is both overdue and upcoming at the same instant. |
| TodoModel.GetUserStats | src/models/todo.model.js:115-121 | The counts are over the owner's live todos, and pending is total minus completed. |
| TodoModel.PendingCountsOpenTodos | src/models/todo.model.js:115-121 | Pending is exactly the number of the owner's live open todos, so it is never negative. |
| TodoService.Classify | src/services/todo.service.js:55-73 | An ApiError is rethrown unchanged. A ValidationError becomes 400 "Invalid todo data" and anything else 500, both carrying the original message. |
| TodoService.OrNull | src/services/todo.service.js:39-40 | A missing or empty value becomes null, and any other is kept. |
| TodoService.DraftOf | src/services/todo.service.js:35-45 | The draft carries the given title and owner, not completed. The description is null when missing or empty, the due date is kept, and a missing priority becomes medium. |
| TodoService.CreateTodo | src/services/todo.service.js:33-74 | A failure stores nothing and is an ApiError. Success happens exactly when the schema accepts the draft and the store writes it, and appends a new live, open todo for the user with the defaults, the trimmed title and, when a non-empty description was given, that description trimmed. A schema rejection is 400, a store error is classified, and a missing document is 500 "Failed to create todo". |
| TodoService.ValidatedInputIsCreated | src/services/todo.service.js:35-45 | Whatever the create validator accepts, the schema accepts too: the todo is created with the validated title unchanged. |
| TodoValidation.ValidateCreate | src/validations/todo.validator.js:8-32 | The create body is accepted exactly when the title's trimmed length is 1..200, the description is absent or at most 1000, the date is absent or parses, and the priority is absent or in the enum. The trimmed title is returned, and absent fields stay absent. A given description comes back trimmed, a given date as the library parses it, and a given priority unchanged. |
| TodoValidation.ValidateUpdate | src/validations/todo.validator.js:39-70 | The update is accepted exactly when each given field passes. Description and due date may be null, which clears them. completed must be a boolean. Title bounds and the priority enum apply when given. Each field is kept exactly when it is absent. Description and due date are cleared exactly when null. A given title or description is set to its trimmed form, a given date to its parsed value, completed to the boolean read, and priority to the given value. |
| TodoValidation.UpdateReadsTheBody | src/validations/todo.validator.js:39-70 | Field by field, an accepted update is read from the body. A missing title, completed or priority is left out. An absent description or date is kept, and a null one is cleared. A given title or description is set trimmed, a given date as parsed, a JSON boolean as itself, and a given priority unchanged. |
| TodoValidation.EmptyUpdateAccepted | src/validations/todo.validator.js:37-70 | An update with no field at all is accepted: the "at least one field" note is not enforced. |
| TodoValidation.NumberIn | src/validations/todo.validator.js:95-104 | A value is accepted exactly when it reads as a finite number, as JavaScript's `Number` reads it, and that number lies within its bounds. The number read is returned. |
| TodoValidation.ValidateQuery | src/validations/todo.validator.js:76-122 | The query is accepted exactly when each given field passes. Page reads as a number of at least 1 and limit as one from 1 to 100. The trimmed search is 2..100. sortBy and order come from their enums. Each field of the result is absent exactly when it was missing, and otherwise is the value its rule accepted: the boolean read, the trimmed search, `Number` of page and limit, and the given enum strings. |
| TodoValidation.QueryNumbersAsJavaScriptReadsThem | src/validations/todo.validator.js:95-104 | A page of "2.5" and a limit of " 10" are accepted and kept as 2.5 and 10. |
| TodoValidation.QueryRejectsOutOfRange | src/validations/todo.validator.js:95-104 | A limit that reads as more than 100, or a page that reads as less than 1, rejects the query. |
| TodoValidation.ValidateId | src/validations/todo.validator.js:128-134 | An id is accepted exactly when it is a string of 24 hexadecimal digits, and it is returned unchanged. |
| TodoValidation.IdRuleIgnoresCase | src/validations/todo.validator.js:132 | Lower-casing a string does not change whether it is a valid id. |
| TodoValidation.ValidateDeleteReason | src/validations/todo.validator.js:140-149 | The reason is optional. When given, it is accepted exactly when its trimmed length is 3..200, and the trimmed form is returned. |
| TodoValidation.ValidateBulk | src/validations/todo.validator.js:155-170 | The body is accepted exactly when it holds 1 to 50 ids, each 24 hexadecimal digits, and an optional reason of at most 200. The ids come back in the given order and unchanged, and the reason is absent when missing and otherwise trimmed. |
| TodoValidation.BulkIdsRoundTrip | src/validations/todo.validator.js:155-170 | An array of 1 to 50 well-formed ids with no reason comes back from the bulk validator exactly as sent. |
| Paginate.EffectivePage | src/utils/paginate.js:11 | The page is at least 1. Absent, unparsable, zero or negative gives 1; otherwise the parsed page. |
| Paginate.DecimalPageIsKept | src/utils/paginate.js:11 | A positive page written in decimal is taken as it is. |
| Paginate.EffectiveLimit | src/utils/paginate.js:12 | The limit is in 1..maxLimit. Absent, unparsable or zero gives 20 before the cap, and negative gives 1. |
| Paginate.PageSlice | src/utils/paginate.js:14 | A page holds at most `l` matches: those starting at (p - 1)·l. |
| Paginate.TotalPages | src/utils/paginate.js:27 | totalPages is at least 1, covers every match, and is the smallest such count. |
| Paginate.Paginate | src/utils/paginate.js:2-34 | The result carries the effective page and limit, that page's slice, and hasPrev exactly when p > 1. With the total: the count, a totalPages that is the smallest number of pages covering every match and at least 1, and hasNext exactly when p·l < total. Without it: no count, page total or hasNext. |
| Paginate.HasNextIffNextPageNonEmpty | src/utils/paginate.js:28 | hasNext holds exactly when the following page has items. |
| Paginate.EveryMatchOnItsPage | src/utils/paginate.js:14-27 | Match i appears on page i / l + 1 at position i mod l, and that page is within totalPages. |
| Cursor.EncodeCursor | src/utils/cursor.js:4-6 | The cursor is 24 lower-case hexadecimal digits, the form an ObjectId's `toString()` gives. |
| Cursor.DecodeCursor | src/utils/cursor.js:8-11 | A missing or falsy cursor gives null, and anything else becomes an `_id` filter on the value unchanged. |
| Cursor.DecodeEncode | src/utils/cursor.js:4-11 | Decoding an encoded id gives the `_id` filter on that id. |
| Cursor.EncodedCursorIsValidId | src/utils/cursor.js:4-6 | An encoded cursor passes the id validator's 24-hex-digit rule. |
| ErrorHandler.ErrorsOrEmpty | src/middlewares/errorHandler.js:13 | Missing errors become an empty list, and given errors are passed on. |
| ErrorHandler.Respond | src/middlewares/errorHandler.js:5-32 | No branch reports success. An ApiError keeps its status and message, with errors defaulting to [] and data to null. A validation error gives 422 "Validation failed" with its messages. Anything else gives 500 with its message, or "Internal Server Error" when that is empty. |
| ErrorHandler.RethrownValidationMatchesDirect | src/middlewares/errorHandler.js:9-25 | A validation error rethrown as an ApiError 422 by a controller gives the same status, message and errors as one reaching the handler directly. |

## Left out

- Cryptography is symbolic. bcrypt is a digest that compares equal exactly with its plain text: no cost factor, no 72-byte truncation. JWT signing and verification are parameters, and so are their clock and expiry handling (RFC 7519).
- Time, randomness and ids are parameters. The clock is `now: int` in milliseconds, `Math.random` is a `Draw`, new ObjectIds are given by the caller, and salts are integers.
- The validation library's email syntax, its date formats and the Unicode `\p{L}\p{M}` class are parameters of `Vine.Lib`. Its message texts are reduced to field and rule names. `Number(value)` on a string is the `parseNumber` parameter.
- Vine.AsNumber: arrays and objects, which `Number` may also turn into numbers, are rejected.
- The code has no OTP verification, attempt counting, resend cooldown or resend ceiling (`MAX_RESENDS_PER_HOUR` is unused), so none is modelled. No "one live challenge per user" invariant holds or is claimed.
- The expiry index's background reaper is modelled as a single pass (`Verification.Reap`), not as a process. Concurrent requests and per-document atomicity are not modelled.
- Session.RefreshAsWritten: the refresh query also receives numbers (cast to strings), arrays (read as `$in`) and other operators such as `$regex` or `$gt`, several of which also match every holder. The model matches only a string, null and `$ne` (`Session.QueryMatches`) and treats every other value as matching nothing, so it shows less of the injection than the code allows.
- Malformed ObjectIds raise a CastError in the store; that error is not modelled.
- Soft-delete query helpers are modelled one scope per query, not chained. Mongoose's `'isActive' in doc` is modelled as whether the model declares the path (`SoftDelete.Field`).
- TodoModel.FindUpcoming: `setDate(getDate() + days)` is approximated as `days` × 86400000 ms, which differs across daylight-saving changes.
- Timestamps (createdAt, updatedAt), the text indexes, `select` projections other than the password/token one, and sort keys other than the due date are left out.
- Paginate.Paginate: requires maxLimit ≥ 1. With a smaller cap the limit can be 0 or negative, and JavaScript's division by it yields Infinity or NaN, which is not modelled. Page and limit are taken in their string form, as `parseInt` sees them.
- Text.ParseInt: returns an unbounded integer, whereas JavaScript's `parseInt` returns a double. Decimal strings above 2^53 are rounded in the source ("9007199254740993" reads as 9007199254740992) but kept exact here, and a digit run too long for a double gives Infinity in the source, which then reaches `.skip((p - 1) * l)`, while the model just returns an empty page. Paginate.Paginate inherits both differences for its page and limit.
- Text.ToLower maps only ASCII letters; non-ASCII case mapping is left out.
- Express plumbing is left out: routes and app wiring, cookie setting and clearing, `asyncHandler`, the validation-schema middleware, the todo controller, and `sendOtpEmail` (which only logs).
- Source defects kept visible but outside the model:
  - `src/utils/GenerateTokenMethodHelper.js:1` imports `user.model.js` while the file is `user.modal.js`.
  - The login controller imports a `userLoginValidation` that `src/validations/user.validation.js` does not export, so login inputs are taken as unconstrained strings.
  - The registration handler is not wrapped in `asyncHandler`. The model assumes that its thrown ApiErrors and a failing `save()` reach `errorHandler`, as Express 5 forwards a rejected handler promise. That is how `RegistrationController.RegisterValidated` gets its 400, 409 and 500 replies. Under Express 4 the promise would be rejected with nobody handling it: no response is sent, and Node's default mode for unhandled rejections ends the process. The Express version is not part of this model.
- The 404 of the code lookup and the "Failed to issue OTP" and "User creation failed" branches of registration cannot be reached. The user was just written, unverified, with the trimmed email the lookup searches for. They are kept in `RegistrationController.IssueForNewUser` as written.
- Mongoose ValidationError messages ("Todo validation failed: title: …") are reduced to a fixed `"<Model> validation failed"` text. TodoService.CreateTodo carries that text as the errors of its 400.
- The constructor of `ApiError` (`src/utils/ApiError.js`) is not part of this model. Its third argument is taken to be `errors` and its fourth `data`.
- A validated full name is optional, but the user schema requires it. A registration without one fails in `UserModel.Build` with a ValidationError after the checks.

## Findings

| source | as written | input that shows it | evidently intended | confidence | as-written member | corrected member |
|---|---|---|---|---|---|---|
| src/controllers/auth/login.controller.js:95-103 | The refresh handler passes the presented cookie or body value, whatever its JSON type, straight into `User.findOne({ refreshToken: value })`. | A body `{"refreshToken": {"$ne": null}}` with no cookie: the query matches the first user holding any refresh token, whose session is then rotated and returned to the caller. | Only a string token equal to a stored one rotates a session; anything else is "Invalid refresh token". | not executed | Session.RefreshAsWritten, Session.OperatorInjectionCounterexample | Session.Refresh, Session.AsWrittenAgreesOnStrings |

=== FILE: auth_middleware.dfy ===
/** The access-token guard: where the token is read from, how a rejected
    token is reported, and which user the request is attributed to. Token
    verification belongs to the signing library and is a parameter. */
module AuthMiddleware {
  import opened Base
  import opened Text
  import opened UserModel
  import Session

  /** What the library's verification yields: the payload's `_id`, if the
      payload has one, or the message of the error it throws (bad signature,
      expiry, malformed token, missing secret). */
  datatype Verdict = Verified(id: Option<Id>) | Rejected(message: string)

  type Verifier = (string, Option<string>) -> Verdict

  const UNAUTHORIZED_REQUEST := "Unauthorized request"
  const INVALID_ACCESS_TOKEN_USER := "Invalid Access Token"
  const INVALID_ACCESS_TOKEN := "Invalid access token"

  /** `req.cookies?.accessToken || req.header("Authorization")?.replace("Bearer ", "")`:
      a non-empty cookie wins; otherwise the header with its first "Bearer "
      removed, wherever it occurs. */
  function TokenOf(cookie: Option<string>, authorization: Option<string>): (r: Option<string>)
    ensures cookie.Some? && cookie.value != "" ==> r == cookie
    ensures (cookie.None? || cookie.value == "") ==>
              (r.Some? <==> authorization.Some?)
    ensures (cookie.None? || cookie.value == "") && authorization.Some? && IndexOf(authorization.value, "Bearer ").None? ==>
              r == authorization
    ensures (cookie.None? || cookie.value == "") && authorization.Some? && IndexOf(authorization.value, "Bearer ").Some? ==>
              var h := authorization.value;
              var k := IndexOf(h, "Bearer ").value;
              r == Some(h[..k] + h[k + |"Bearer "|..])
  {
    if cookie.Some? && cookie.value != "" then cookie
    else match authorization
      case None => None
      case Some(h) =>
        var r := ReplaceFirst(h, "Bearer ", "");
        assert IndexOf(h, "Bearer ").Some? ==>
                 var k := IndexOf(h, "Bearer ").value;
                 r == h[..k] + "" + h[k + |"Bearer "|..] == h[..k] + h[k + |"Bearer "|..];
        Some(r)
  }

  /** A header of the form "Bearer <t>" yields exactly `t`. */
  lemma BearerPrefixStripped(t: string)
    ensures TokenOf(None, Some("Bearer " + t)) == Some(t)
  {
    var h := "Bearer " + t;
    assert h[0..|"Bearer "|] == "Bearer ";
    assert OccursAt(h, "Bearer ", 0);
    assert IndexOf(h, "Bearer ") == Some(0);
    assert h[|"Bearer "|..] == t;
    assert ReplaceFirst(h, "Bearer ", "") == h[..0] + "" + h[|"Bearer "|..];
    assert h[..0] + "" + h[|"Bearer "|..] == t;
  }

  /** `verifyJWT`: every failure, thrown inside the guard or by the library,
      is re-thrown as 401 with the error's message, or "Invalid access
      token" when that message is empty. The request passes exactly when a
      non-empty token verifies to the id of an existing user, and it is
      attributed to that user without password or refresh token. */
  function VerifyJwt(s: Store, cookie: Option<string>, authorization: Option<string>,
                     secret: Option<string>, verify: Verifier): (r: Result<PublicUser>)
    ensures r.Err? ==> r.failure.ApiFailure? && r.failure.status == UNAUTHORIZED && r.failure.message != ""
    ensures r.Ok? <==>
              var t := TokenOf(cookie, authorization);
              && t.Some? && t.value != ""
              && verify(t.value, secret).Verified?
              && verify(t.value, secret).id.Some?
              && FindById(s, verify(t.value, secret).id.value).Some?
    ensures r.Ok? ==>
              var id := verify(TokenOf(cookie, authorization).value, secret).id.value;
              r.value == Sanitize(FindById(s, id).value)
    ensures TokenOf(cookie, authorization).None? || TokenOf(cookie, authorization).value == "" ==>
              r == Err(Api(UNAUTHORIZED, UNAUTHORIZED_REQUEST))
    ensures var t := TokenOf(cookie, authorization);
            t.Some? && t.value != "" && verify(t.value, secret).Rejected? ==>
              var msg := verify(t.value, secret).message;
              r == Err(Api(UNAUTHORIZED, if msg == "" then INVALID_ACCESS_TOKEN else msg))
    ensures var t := TokenOf(cookie, authorization);
            t.Some? && t.value != "" && verify(t.value, secret).Verified?
            && (verify(t.value, secret).id.None? || FindById(s, verify(t.value, secret).id.value).None?) ==>
              r == Err(Api(UNAUTHORIZED, INVALID_ACCESS_TOKEN_USER))
  {
    var t := TokenOf(cookie, authorization);
    if t.None? || t.value == "" then Err(Api(UNAUTHORIZED, UNAUTHORIZED_REQUEST))
    else match verify(t.value, secret)
      case Rejected(msg) => Err(Api(UNAUTHORIZED, if msg == "" then INVALID_ACCESS_TOKEN else msg))
      case Verified(id) =>
        var u := if id.Some? then FindById(s, id.value) else None;
        match u
        case None => Err(Api(UNAUTHORIZED, INVALID_ACCESS_TOKEN_USER))
        case Some(v) => Ok(Sanitize(v))
  }

  /** Logging out removes only the refresh token, which the guard never
      consults: an access token admitted before a logout is admitted after
      it, attributed to the same user, until it expires. */
  lemma AccessSurvivesLogout(s: Store, userId: Id, cookie: Option<string>, authorization: Option<string>,
                             secret: Option<string>, verify: Verifier)
    ensures VerifyJwt(Session.Logout(s, userId).users, cookie, authorization, secret, verify)
            == VerifyJwt(s, cookie, authorization, secret, verify)
  {
    var s2 := Session.Logout(s, userId).users;
    var t := TokenOf(cookie, authorization);
    if t.Some? && t.value != "" && verify(t.value, secret).Verified? && verify(t.value, secret).id.Some? {
      var id := verify(t.value, secret).id.value;
      IndexByIdStable(s, s2, id);
      if IndexById(s, id).Some? {
        var i := IndexById(s, id).value;
        assert Sanitize(s2[i]) == Sanitize(s[i]);
      }
    }
  }
}

=== FILE: base.dfy ===
/** Shared vocabulary of the model: optional values, JSON request values,
    the three kinds of failure a handler can raise, and a first-match search
    that stands for a document store's `findOne` in natural order. */
module Base {

  /** A value that the source leaves `null` or `undefined`. */
  datatype Option<T> = None | Some(value: T)

  /** A JSON value as delivered by the body or cookie parser. */
  datatype Value =
    | VNull
    | VBool(b: bool)
    | VNum(n: real)
    | VStr(s: string)
    | VArr(items: seq<Value>)
    | VObj(fields: seq<(string, Value)>)

  /** JavaScript truthiness of a JSON value (`||`, `if (!x)`). */
  predicate Truthy(v: Value)
  {
    match v
    case VNull => false
    case VBool(b) => b
    case VNum(n) => n != 0.0
    case VStr(s) => s != ""
    case _ => true
  }

  /** One rule a request validator reported as failed, by field and rule name. */
  datatype FieldError = FieldError(field: string, rule: string)

  /** The `errors` payload an ApiError may carry. */
  datatype Detail = Messages(list: seq<FieldError>) | Text(text: string)

  /** What a handler can throw: the application's own ApiError, the
      validation library's E_VALIDATION_ERROR, or any other error (identified
      by its `name` and `message`). */
  datatype Failure =
    | ApiFailure(status: int, message: string, errors: Option<Detail>, data: Option<string>)
    | VineFailure(messages: seq<FieldError>)
    | OtherFailure(name: string, message: string)

  datatype Result<T> = Ok(value: T) | Err(failure: Failure)

  // HTTP status codes used by the handlers.
  const OK: int := 200
  const CREATED: int := 201
  const BAD_REQUEST: int := 400
  const UNAUTHORIZED: int := 401
  const NOT_FOUND: int := 404
  const CONFLICT: int := 409
  const UNPROCESSABLE_ENTITY: int := 422
  const INTERNAL_SERVER_ERROR: int := 500

  /** `new ApiError(status, message)`. */
  function Api(status: int, message: string): Failure
  {
    ApiFailure(status, message, None, None)
  }

  /** `new ApiError(422, "Validation failed", error.messages)`, as the
      controllers rethrow a validation error. */
  function ValidationFailed(messages: seq<FieldError>): Failure
  {
    ApiFailure(UNPROCESSABLE_ENTITY, "Validation failed", Some(Messages(messages)), None)
  }

  /** Index of the first element satisfying `p`: a `findOne` in natural order. */
  function FirstIndex<T>(s: seq<T>, p: T -> bool): (r: Option<nat>)
    ensures r.Some? ==> r.value < |s| && p(s[r.value])
    ensures r.Some? ==> forall j :: 0 <= j < r.value ==> !p(s[j])
    ensures r.None? <==> forall j :: 0 <= j < |s| ==> !p(s[j])
  {
    if |s| == 0 then None
    else if p(s[0]) then Some(0)
    else
      match FirstIndex(s[1..], p)
      case None => None
      case Some(k) => Some(k + 1)
  }

  /** The elements of `s` satisfying `p`, in order: a `find` without sort. */
  function Filter<T(!new)>(s: seq<T>, p: T -> bool): (r: seq<T>)
    ensures |r| <= |s|
    ensures forall x :: x in r <==> x in s && p(x)
  {
    if |s| == 0 then []
    else if p(s[0]) then [s[0]] + Filter(s[1..], p)
    else Filter(s[1..], p)
  }

  /** Splitting a filter by a second predicate partitions it: the count of
      `p` equals the count of `p && q` plus the count of `p && !q`. */
  lemma {:induction false} FilterSplit<T(!new)>(s: seq<T>, p: T -> bool, q: T -> bool)
    ensures |Filter(s, p)| == |Filter(s, x => p(x) && q(x))| + |Filter(s, x => p(x) && !q(x))|
  {
    if |s| > 0 {
      FilterSplit(s[1..], p, q);
    }
  }

  /** Filtering distributes over concatenation: matches of a longer
      collection are the earlier matches followed by the new ones. */
  lemma {:induction false} FilterAppend<T(!new)>(s: seq<T>, t: seq<T>, p: T -> bool)
    ensures Filter(s + t, p) == Filter(s, p) + Filter(t, p)
  {
    if |s| == 0 {
      assert s + t == t;
    } else {
      assert (s + t)[0] == s[0];
      assert (s + t)[1..] == s[1..] + t;
      FilterAppend(s[1..], t, p);
    }
  }
}

=== FILE: bcrypt.dfy ===
/** The password and code hash, kept symbolic. A digest records the salt it
    was drawn with and the string it was computed from; only `Compare` looks
    inside it, so the model relies on nothing beyond the hash's contract:
    a string matches the digest computed from it, and no other string does. */
module Bcrypt {

  datatype Digest = Digest(salt: int, preimage: string)

  /** `bcrypt.hash(plain, salt)`. */
  function Hash(plain: string, salt: int): (d: Digest)
    ensures Compare(plain, d)
    ensures forall other :: Compare(other, d) ==> other == plain
  {
    Digest(salt, plain)
  }

  /** `bcrypt.compare(plain, digest)`. */
  predicate Compare(plain: string, d: Digest)
  {
    d.preimage == plain
  }
}

=== FILE: constants.dfy ===
/** Application constants: the OTP lifetime, the reserved user names and
    the role/permission table. */
module Constants {

  /** Lifetime of a verification code, in milliseconds. */
  const OTP_EXPIRY_TIME: int := 10 * 60 * 1000

  /** Declared next to the OTP lifetime; no handler reads it. */
  const MAX_RESENDS_PER_HOUR: int := 3

  const RESERVED_USERNAMES: seq<string> := [
    "admin", "administrator", "system", "root", "owner", "support",
    "moderator", "staff", "api", "null", "undefined", "me", "you"
  ]

  const ROLES: seq<string> := ["SUPER_ADMIN", "ADMIN", "USER", "MEMBER"]

  const PERMISSIONS: seq<string> := [
    "READ_USERS", "CREATE_USERS", "UPDATE_USERS", "DELETE_USERS",
    "READ_ROLES", "CREATE_ROLES", "UPDATE_ROLES", "DELETE_ROLES",
    "READ_PERMISSIONS", "ASSIGN_PERMISSIONS", "REVOKE_PERMISSIONS",
    "VIEW_DASHBOARD", "EDIT_PROFILE", "MANAGE_SETTINGS",
    "ACCESS_REPORTS", "EXPORT_DATA", "IMPORT_DATA"
  ]

  const ROLE_PERMISSIONS: map<string, seq<string>> := map[
    "SUPER_ADMIN" := PERMISSIONS,
    "ADMIN" := [
      "READ_USERS", "CREATE_USERS", "UPDATE_USERS",
      "READ_ROLES", "READ_PERMISSIONS",
      "VIEW_DASHBOARD", "EDIT_PROFILE", "MANAGE_SETTINGS"
    ],
    "MEMBER" := ["VIEW_DASHBOARD", "EDIT_PROFILE"],
    "USER" := [
      "EDIT_PROFILE",
      "POST_SHIPMENTS", "VIEW_USER_DASHBOARD", "CREATE_TICKETS", " TRACK_COURIERS_STATUS"
    ]
  ]

  /** Ten minutes. */
  lemma OtpExpiryIsTenMinutes()
    ensures OTP_EXPIRY_TIME == 600_000
  {
  }

  /** Thirteen names, none with an upper-case letter, so comparing them with
      an already lower-cased name is a case-insensitive check. */
  lemma ReservedNamesAreLowerCase()
    ensures |RESERVED_USERNAMES| == 13
    ensures forall i, k :: 0 <= i < |RESERVED_USERNAMES| && 0 <= k < |RESERVED_USERNAMES[i]| ==>
              !('A' <= RESERVED_USERNAMES[i][k] <= 'Z')
  {
  }

  /** The table has exactly one entry per role. */
  lemma OneEntryPerRole()
    ensures ROLE_PERMISSIONS.Keys == set r | r in ROLES
  {
  }

  /** SUPER_ADMIN is granted exactly the declared permissions, in order. */
  lemma SuperAdminHasEveryPermission()
    ensures ROLE_PERMISSIONS["SUPER_ADMIN"] == PERMISSIONS
  {
  }

  /** ADMIN and MEMBER are granted only declared permissions, and each of
      them strictly fewer than SUPER_ADMIN. */
  lemma AdminAndMemberWithinPermissions()
    ensures forall p :: p in ROLE_PERMISSIONS["ADMIN"] ==> p in PERMISSIONS
    ensures forall p :: p in ROLE_PERMISSIONS["MEMBER"] ==> p in PERMISSIONS
    ensures forall p :: p in ROLE_PERMISSIONS["MEMBER"] ==> p in ROLE_PERMISSIONS["ADMIN"]
    ensures "DELETE_USERS" in PERMISSIONS && "DELETE_USERS" !in ROLE_PERMISSIONS["ADMIN"]
  {
  }

  /** USER is granted four names that are not declared permissions, one of
      them with a leading space. */
  lemma UserHasUndeclaredPermissions()
    ensures "EDIT_PROFILE" in ROLE_PERMISSIONS["USER"] && "EDIT_PROFILE" in PERMISSIONS
    ensures forall p :: p in ROLE_PERMISSIONS["USER"] && p != "EDIT_PROFILE" ==> p !in PERMISSIONS
    ensures " TRACK_COURIERS_STATUS" in ROLE_PERMISSIONS["USER"]
    ensures "TRACK_COURIERS_STATUS" !in ROLE_PERMISSIONS["USER"]
  {
  }
}

=== FILE: cookies.dfy ===
/** The options the session cookies are set with, as functions of whether the
    process runs in production. Lifetimes are in milliseconds, as the web
    framework takes them; the `Max-Age` attribute it writes is in seconds
    (section 4.1.2.2 of RFC 6265). */
module Cookies {
  import opened Base

  /** The `SameSite` attribute: `Lax`, or `None` (sent cross-site). */
  datatype SameSite = Lax | CrossSite

  datatype CookieOptions = CookieOptions(httpOnly: bool, secure: bool, sameSite: SameSite, maxAge: nat)

  const DAY_MS: nat := 1000 * 60 * 60 * 24

  /** `process.env.NODE_ENV === "production"`. */
  predicate IsProduction(nodeEnv: Option<string>)
  {
    nodeEnv == Some("production")
  }

  /** The record both cookies share apart from the lifetime. */
  function Shared(nodeEnv: Option<string>, maxAge: nat): (o: CookieOptions)
    ensures o.httpOnly && o.maxAge == maxAge
    ensures o.secure <==> IsProduction(nodeEnv)
    ensures o.sameSite == CrossSite <==> IsProduction(nodeEnv)
  {
    var prod := IsProduction(nodeEnv);
    CookieOptions(true, prod, if prod then CrossSite else Lax, maxAge)
  }

  /** `accessTokenCookieOptions`: one day. */
  function AccessOptions(nodeEnv: Option<string>): (o: CookieOptions)
    ensures o.maxAge == 86_400_000
  {
    Shared(nodeEnv, DAY_MS)
  }

  /** `refreshTokenCookieOptions`: seven days. */
  function RefreshOptions(nodeEnv: Option<string>): (o: CookieOptions)
    ensures o.maxAge == 604_800_000
  {
    Shared(nodeEnv, DAY_MS * 7)
  }

  /** The `Max-Age` attribute written for a lifetime given in milliseconds:
      the lifetime in whole seconds. */
  function MaxAgeSeconds(ms: nat): (secs: nat)
    ensures secs * 1000 <= ms < (secs + 1) * 1000
  {
    ms / 1000
  }

  /** Both cookies are http-only; they are sent cross-site only in
      production, and then only over secure connections; the refresh cookie
      lives seven times as long as the access cookie, and the two records
      differ in nothing else. */
  lemma OptionsAgree(nodeEnv: Option<string>)
    ensures AccessOptions(nodeEnv).httpOnly && RefreshOptions(nodeEnv).httpOnly
    ensures AccessOptions(nodeEnv).sameSite == CrossSite ==> AccessOptions(nodeEnv).secure
    ensures RefreshOptions(nodeEnv).sameSite == CrossSite ==> RefreshOptions(nodeEnv).secure
    ensures RefreshOptions(nodeEnv).maxAge == 7 * AccessOptions(nodeEnv).maxAge
    ensures RefreshOptions(nodeEnv) == AccessOptions(nodeEnv).(maxAge := RefreshOptions(nodeEnv).maxAge)
    ensures !IsProduction(nodeEnv) ==> !AccessOptions(nodeEnv).secure && AccessOptions(nodeEnv).sameSite == Lax
  {
  }

  /** The attributes written: one day and one week in seconds. */
  lemma MaxAgeAttributes(nodeEnv: Option<string>)
    ensures MaxAgeSeconds(AccessOptions(nodeEnv).maxAge) == 86_400
    ensures MaxAgeSeconds(RefreshOptions(nodeEnv).maxAge) == 604_800
  {
  }
}

=== FILE: cursor.dfy ===
/** The short cursor: an ObjectId written as its hexadecimal string, read
    back into an `_id` filter. */
module Cursor {
  import opened Base
  import TodoValidation

  predicate IsLowerHexDigit(c: char)
  {
    ('0' <= c <= '9') || ('a' <= c <= 'f')
  }

  /** An ObjectId, known by the form `toString()` gives it: 24 lower-case
      hexadecimal digits. */
  type ObjectId = s: string | |s| == 24 && forall k :: 0 <= k < |s| ==> IsLowerHexDigit(s[k])
    witness "000000000000000000000000"

  /** The filter `{ _id: cursor }` holding the cursor value as given. */
  datatype IdFilter = IdFilter(id: Value)

  /** `encodeCursor(id)`: `id.toString()`, the hexadecimal form. */
  function EncodeCursor(id: ObjectId): (c: string)
    ensures |c| == 24 && forall k :: 0 <= k < |c| ==> IsLowerHexDigit(c[k])
  {
    id
  }

  /** `decodeCursor(cursor)`: a missing or falsy cursor (null, undefined,
      "", 0, false) gives null; any other value becomes an `_id` filter
      unchanged. */
  function DecodeCursor(cursor: Option<Value>): (r: Option<IdFilter>)
    ensures r.None? <==> cursor.None? || !Truthy(cursor.value)
    ensures r.Some? ==> r.value.id == cursor.value
  {
    if cursor.None? || !Truthy(cursor.value) then None
    else Some(IdFilter(cursor.value))
  }

  /** Reading back an encoded cursor gives the filter on the same id. */
  lemma DecodeEncode(id: ObjectId)
    ensures DecodeCursor(Some(VStr(EncodeCursor(id)))) == Some(IdFilter(VStr(id)))
  {
  }

  /** An encoded cursor is a well-formed id for the request validators. */
  lemma EncodedCursorIsValidId(id: ObjectId)
    ensures TodoValidation.IsObjectIdText(EncodeCursor(id))
  {
  }
}

=== FILE: error_handler.dfy ===
/** The final error middleware: the status and JSON body sent for each
    kind of failure a handler can raise. */
module ErrorHandler {
  import opened Base

  /** The `errors` field of a response body: absent, a message list, or the
      text an ApiError was given. */
  datatype ErrorsField = NoErrors | List(list: seq<FieldError>) | Raw(text: string)

  /** The JSON body and status sent; `data` is `None` where the body has no
      such key and `Some(None)` where it is `null`. */
  datatype Response = Response(
    status: int,
    success: bool,
    message: string,
    errors: ErrorsField,
    data: Option<Option<string>>)

  /** `err.errors ?? []`. */
  function ErrorsOrEmpty(e: Option<Detail>): (r: ErrorsField)
    ensures e.None? ==> r == List([])
    ensures e.Some? && e.value.Messages? ==> r == List(e.value.list)
    ensures e.Some? && e.value.Text? ==> r == Raw(e.value.text)
  {
    match e
    case None => List([])
    case Some(Messages(l)) => List(l)
    case Some(Text(t)) => Raw(t)
  }

  /** `errorHandler(err)`: an ApiError keeps its status and message, with
      errors defaulting to `[]` and data to `null`; a validation error from
      the request validator gives 422 "Validation failed" with its messages
      and no data key; anything else gives 500 with its message, or
      "Internal Server Error" when that is empty, and neither errors nor
      data. No branch reports success. */
  function Respond(f: Failure): (r: Response)
    ensures !r.success
    ensures f.ApiFailure? ==>
              && r.status == f.status && r.message == f.message
              && r.errors == ErrorsOrEmpty(f.errors)
              && r.data == Some(f.data)
    ensures f.VineFailure? ==>
              r == Response(UNPROCESSABLE_ENTITY, false, "Validation failed", List(f.messages), None)
    ensures f.OtherFailure? ==>
              && r.status == INTERNAL_SERVER_ERROR && r.errors == NoErrors && r.data.None?
              && (f.message != "" ==> r.message == f.message)
              && (f.message == "" ==> r.message == "Internal Server Error")
    ensures r.message != "" || (f.ApiFailure? && f.message == "")
  {
    match f
    case ApiFailure(status, message, errors, data) =>
      Response(status, false, message, ErrorsOrEmpty(errors), Some(data))
    case VineFailure(messages) =>
      Response(UNPROCESSABLE_ENTITY, false, "Validation failed", List(messages), None)
    case OtherFailure(_, message) =>
      Response(INTERNAL_SERVER_ERROR, false, if message != "" then message else "Internal Server Error", NoErrors, None)
  }

  /** A controller that rethrows a validation error as
      `ApiError(422, "Validation failed", messages)` produces the same
      status, message and list as letting the error reach the handler
      directly; only the `data: null` key differs. */
  lemma RethrownValidationMatchesDirect(messages: seq<FieldError>)
    ensures var direct := Respond(VineFailure(messages));
            var rethrown := Respond(ValidationFailed(messages));
            && rethrown.status == direct.status && rethrown.message == direct.message
            && rethrown.errors == direct.errors
            && direct.data.None? && rethrown.data == Some(None)
  {
  }
}

=== FILE: otp.dfy ===
/** The one-time code helpers: drawing a six-digit code, hashing and
    comparing it, and issuing a registration challenge for a user's email.
    The random draw, the hash salt and the clock are parameters. */
module Otp {
  import opened Base
  import opened Text
  import opened UserModel
  import opened Verification
  import Bcrypt
  import Constants

  /** `Math.floor(Math.random() * 900000)`: the random part of a code. */
  type Draw = r: int | 0 <= r < 900000

  /** `generateOtp()`: `Math.floor(100000 + Math.random() * 900000).toString()`,
      a decimal string of exactly six digits whose value is 100000 plus the
      draw, so never with a leading zero; reading it back gives the number. */
  function GenerateOtp(r: Draw): (otp: string)
    ensures |otp| == 6 && AllDigits(otp) && otp[0] != '0'
    ensures DecimalValue(otp) == 100000 + r
    ensures ParseInt(otp) == Some(100000 + r)
  {
    var n: nat := 100000 + r;
    assert Pow10(5) == 100000 && Pow10(6) == 1000000;
    DecimalLength(n, 5);
    ParseIntOfDecimal(n);
    NatToDecimal(n)
  }

  /** Different draws give different codes. */
  lemma GenerateOtpInjective(r1: Draw, r2: Draw)
    requires r1 != r2
    ensures GenerateOtp(r1) != GenerateOtp(r2)
  {
    assert DecimalValue(GenerateOtp(r1)) != DecimalValue(GenerateOtp(r2));
  }

  /** `hashOtp(otp)`. */
  function HashOtp(otp: string, salt: int): (h: Bcrypt.Digest)
    ensures CompareOtp(otp, h)
  {
    Bcrypt.Hash(otp, salt)
  }

  /** `compareOtp(otp, hash)`. */
  predicate CompareOtp(otp: string, h: Bcrypt.Digest)
  {
    Bcrypt.Compare(otp, h)
  }

  /** A stored code hash accepts the code it was made from and no other. */
  lemma HashOtpRoundTrip(otp: string, other: string, salt: int)
    ensures CompareOtp(other, HashOtp(otp, salt)) <==> other == otp
  {
  }

  const EMAIL_NOT_FOUND: Failure := Api(NOT_FOUND, "User email not found")

  /** The result of issuing, and the challenges collection afterwards. */
  datatype Issued = Issued(result: Result<Option<string>>, challenges: seq<Challenge>)

  /** `User.findOne({email})`: the query value goes through the email
      path's `trim` setter, so this is the first user whose stored email is
      the given one trimmed. */
  function UserByEmail(s: Store, email: string): (r: Option<nat>)
    ensures r.Some? ==> r.value < |s| && s[r.value].email == Trim(email)
    ensures r.Some? ==> forall j :: 0 <= j < r.value ==> s[j].email != Trim(email)
    ensures r.None? <==> forall j :: 0 <= j < |s| ==> s[j].email != Trim(email)
  {
    FirstIndex(s, (u: User) => u.email == Trim(email))
  }

  /** The challenge a registration issuance asks to create. */
  function RegistrationDraft(u: User, otp: string, resentCount: Option<int>, salt: int, now: int): ChallengeDraft
  {
    ChallengeDraft(Some(u.id), None, Some("register"), Some(HashOtp(otp, salt)), Some(0), Some(3),
                   resentCount, Some(now + Constants.OTP_EXPIRY_TIME))
  }

  /** `issueRegistrationOtp(email, resentCount)`: an unknown email fails with
      404 and creates nothing; an already verified user gets nothing and no
      challenge; otherwise exactly one challenge is appended, for that user
      and the register purpose, unconsumed, with no attempts, three allowed,
      the given resend count (0 when none is given), expiring ten minutes
      from now and holding the hash of the returned six-digit code. Earlier
      challenges are left as they are. */
  function IssueRegistrationOtp(users: Store, cs: seq<Challenge>, email: string, resentCount: Option<int>,
                                draw: Draw, salt: int, now: int): (o: Issued)
    ensures UserByEmail(users, email).None? ==> o == Issued(Err(EMAIL_NOT_FOUND), cs)
    ensures UserByEmail(users, email).Some? && users[UserByEmail(users, email).value].emailVerifiedAt.Some? ==>
              o == Issued(Ok(None), cs)
    ensures UserByEmail(users, email).Some? && users[UserByEmail(users, email).value].emailVerifiedAt.None? ==>
              var u := users[UserByEmail(users, email).value];
              && o.result.Ok? && o.result.value.Some?
              && var otp := o.result.value.value;
              && |otp| == 6 && AllDigits(otp)
              && |o.challenges| == |cs| + 1 && o.challenges[..|cs|] == cs
              && var c := o.challenges[|cs|];
              && c.userId == u.id && c.purpose == Register && c.channel == Email
              && c.attempts == 0 && c.maxAttempts == 3
              && c.resentCount == (if resentCount.Some? then resentCount.value else 0)
              && c.expiresAt == now + 600_000 && c.consumedAt.None?
              && CompareOtp(otp, c.codeHash)
              && Active(c, now)
  {
    match UserByEmail(users, email)
    case None => Issued(Err(EMAIL_NOT_FOUND), cs)
    case Some(i) =>
      var u := users[i];
      if u.emailVerifiedAt.Some? then Issued(Ok(None), cs)
      else
        var otp := GenerateOtp(draw);
        match Create(RegistrationDraft(u, otp, resentCount, salt, now))
        case Err(f) => Issued(Err(f), cs)
        case Ok(c) => Issued(Ok(Some(otp)), cs + [c])
  }

  /** Issuing again does not retire the earlier challenge: two issuances for
      the same unverified user within ten minutes leave two live register
      challenges for that user, and both codes are accepted. */
  lemma ReissueLeavesTwoActive(users: Store, cs: seq<Challenge>, email: string,
                               d1: Draw, d2: Draw, salt1: int, salt2: int, t1: int, t2: int)
    requires UserByEmail(users, email).Some?
    requires users[UserByEmail(users, email).value].emailVerifiedAt.None?
    requires t1 <= t2 < t1 + Constants.OTP_EXPIRY_TIME
    ensures var first := IssueRegistrationOtp(users, cs, email, None, d1, salt1, t1);
            var second := IssueRegistrationOtp(users, first.challenges, email, None, d2, salt2, t2);
            var id := users[UserByEmail(users, email).value].id;
            && |ActiveFor(second.challenges, id, Register, t2)| == |ActiveFor(cs, id, Register, t2)| + 2
            && CompareOtp(first.result.value.value, second.challenges[|cs|].codeHash)
            && CompareOtp(second.result.value.value, second.challenges[|cs| + 1].codeHash)
  {
    var first := IssueRegistrationOtp(users, cs, email, None, d1, salt1, t1);
    var second := IssueRegistrationOtp(users, first.challenges, email, None, d2, salt2, t2);
    var id := users[UserByEmail(users, email).value].id;
    var c1 := first.challenges[|cs|];
    var c2 := second.challenges[|cs| + 1];
    assert first.challenges == cs + [c1] by {
      assert first.challenges[..|cs|] == cs;
    }
    assert second.challenges == first.challenges + [c2] by {
      assert second.challenges[..|cs| + 1] == first.challenges;
    }
    ActiveForAppend(cs, c1, id, Register, t2);
    ActiveForAppend(first.challenges, c2, id, Register, t2);
  }
}

=== FILE: paginate.dfy ===
/** The offset paginator: how it clamps the requested page and limit, which
    slice of the sorted matches it returns, and the paging summary. The
    query, sort and projection are the store's business; here the matches
    arrive already filtered and sorted. */
module Paginate {
  import opened Base
  import opened Text

  /** `parseInt(x, 10) || d`: NaN and 0 are both falsy, so either gives the
      default. */
  function ParsedOr(s: string, d: int): (r: int)
    ensures ParseInt(s).Some? && ParseInt(s).value != 0 ==> r == ParseInt(s).value
    ensures ParseInt(s).None? || ParseInt(s).value == 0 ==> r == d
  {
    match ParseInt(s)
    case None => d
    case Some(n) => if n == 0 then d else n
  }

  /** The page as given (its string form); absent means the default 1. */
  function EffectivePage(page: Option<string>): (p: int)
    ensures p >= 1
    ensures page.None? ==> p == 1
    ensures page.Some? && ParseInt(page.value).None? ==> p == 1
    ensures page.Some? && ParseInt(page.value).Some? ==>
              p == (if ParseInt(page.value).value >= 1 then ParseInt(page.value).value else 1)
  {
    if page.None? then 1
    else
      var n := ParsedOr(page.value, 1);
      if n >= 1 then n else 1
  }

  /** `Math.min(Math.max(parseInt(limit, 10) || 20, 1), maxLimit)`. */
  function EffectiveLimit(limit: Option<string>, maxLimit: int): (l: int)
    ensures maxLimit >= 1 ==> 1 <= l <= maxLimit
    ensures l <= maxLimit
    ensures (limit.None? || ParseInt(limit.value).None? || ParseInt(limit.value) == Some(0)) ==>
              l == Min(20, maxLimit)
    ensures limit.Some? && ParseInt(limit.value).Some? && ParseInt(limit.value).value < 0 ==> l == Min(1, maxLimit)
    ensures limit.Some? && ParseInt(limit.value).Some? && ParseInt(limit.value).value > 0 ==>
              l == Min(ParseInt(limit.value).value, maxLimit)
  {
    var n := if limit.None? then 20 else ParsedOr(limit.value, 20);
    Min(if n >= 1 then n else 1, maxLimit)
  }

  function Min(a: int, b: int): int
  {
    if a <= b then a else b
  }

  /** `Math.ceil(total / l)` for a positive limit. */
  function CeilDiv(total: nat, l: nat): (q: nat)
    requires l >= 1
    ensures q * l >= total && (q == 0 || (q - 1) * l < total)
  {
    var q := (total + l - 1) / l;
    assert q * l + (total + l - 1) % l == total + l - 1;
    q
  }

  /** `(p - 1) * l`: how many matches come before page `p`. */
  function Skip(p: nat, l: nat): (k: nat)
    requires p >= 1
  {
    (p - 1) * l
  }

  /** `.skip((p - 1) * l).limit(l)` on the sorted matches. */
  function PageSlice<T>(matches: seq<T>, p: nat, l: nat): (items: seq<T>)
    requires p >= 1 && l >= 1
    ensures |items| <= l
    ensures Skip(p, l) >= |matches| ==> items == []
    ensures Skip(p, l) < |matches| ==> items == matches[Skip(p, l)..Min(Skip(p, l) + l, |matches|)]
  {
    var from := Skip(p, l);
    if from >= |matches| then []
    else matches[from..Min(from + l, |matches|)]
  }

  /** The paging summary; `total`, `totalPages` and `hasNext` are only
      present when the total was counted. */
  datatype Paging = Paging(page: int, limit: int, total: Option<nat>, totalPages: Option<int>,
                           hasNext: Option<bool>, hasPrev: bool)

  datatype Page<T> = Page(items: seq<T>, paging: Paging)

  /** `paginate(Model, {page, limit, maxLimit, includeTotal})` over the
      matches of the query in sort order. */
  function Paginate<T>(matches: seq<T>, page: Option<string>, limit: Option<string>, maxLimit: int,
                       includeTotal: bool): (r: Page<T>)
    requires maxLimit >= 1
    ensures var p := EffectivePage(page);
            var l := EffectiveLimit(limit, maxLimit);
            && r.paging.page == p && r.paging.limit == l
            && r.items == PageSlice(matches, p, l)
            && (r.paging.hasPrev <==> p > 1)
    ensures includeTotal ==>
              && r.paging.total == Some(|matches|)
              && r.paging.totalPages.Some? && r.paging.totalPages.value >= 1
              && r.paging.totalPages.value * r.paging.limit >= |matches|
              && (r.paging.totalPages.value == 1 || (r.paging.totalPages.value - 1) * r.paging.limit < |matches|)
              && r.paging.hasNext == Some(r.paging.page * r.paging.limit < |matches|)
    ensures !includeTotal ==> r.paging.total.None? && r.paging.totalPages.None? && r.paging.hasNext.None?
  {
    var p := EffectivePage(page);
    var l := EffectiveLimit(limit, maxLimit);
    var items := PageSlice(matches, p, l);
    if includeTotal then
      Page(items, Paging(p, l, Some(|matches|), Some(TotalPages(|matches|, l)), Some(p * l < |matches|), p > 1))
    else Page(items, Paging(p, l, None, None, None, p > 1))
  }

  /** `Math.max(Math.ceil(total / l), 1)`: enough pages for every match,
      and at least one even when nothing matches. */
  function TotalPages(total: nat, l: nat): (n: nat)
    requires l >= 1
    ensures n >= 1 && n * l >= total
    ensures n == 1 || (n - 1) * l < total
  {
    var q := CeilDiv(total, l);
    if q >= 1 then q else 1
  }

  /** `hasNext` tells exactly whether the following page has items. */
  lemma HasNextIffNextPageNonEmpty<T>(matches: seq<T>, p: nat, l: nat)
    requires p >= 1 && l >= 1
    ensures p * l < |matches| <==> PageSlice(matches, p + 1, l) != []
  {
    assert Skip(p + 1, l) == p * l;
  }

  /** Every match appears on exactly one page, at position `i / l + 1`, and
      that page is within `totalPages`. */
  lemma {:induction false} EveryMatchOnItsPage<T>(matches: seq<T>, l: nat, i: nat)
    requires l >= 1 && i < |matches|
    ensures var p := i / l + 1;
            && p <= CeilDiv(|matches|, l)
            && i % l < |PageSlice(matches, p, l)|
            && PageSlice(matches, p, l)[i % l] == matches[i]
  {
    var d, m := i / l, i % l;
    DivMod(i, l);
    PageWithinTotal(d, l, i, |matches|);
    SkipNext(d, l);
    SliceAt(matches, d + 1, l, m);
  }

  lemma DivMod(i: nat, l: nat)
    requires l >= 1
    ensures (i / l) * l + i % l == i && i % l < l
  {
  }

  lemma SkipNext(d: nat, l: nat)
    ensures Skip(d + 1, l) == d * l
  {
  }

  /** A match at index `i >= d * l` lies on a page no later than the last. */
  lemma PageWithinTotal(d: nat, l: nat, i: nat, total: nat)
    requires l >= 1 && d * l <= i < total
    ensures d + 1 <= CeilDiv(total, l)
  {
    MulLtCancel(d, CeilDiv(total, l), l);
  }

  /** Position `m` of page `p` is match `Skip(p, l) + m`. */
  lemma SliceAt<T>(matches: seq<T>, p: nat, l: nat, m: nat)
    requires p >= 1 && l >= 1 && m < l && Skip(p, l) + m < |matches|
    ensures m < |PageSlice(matches, p, l)| && PageSlice(matches, p, l)[m] == matches[Skip(p, l) + m]
  {
  }

  lemma MulLtCancel(a: nat, b: nat, l: nat)
    requires l >= 1 && a * l < b * l
    ensures a < b
  {
    if b <= a {
      MulMono(b, a, l);
    }
  }

  lemma MulMono(a: nat, b: nat, l: nat)
    requires a <= b
    ensures a * l <= b * l
  {
    assert b * l == a * l + (b - a) * l;
  }

  /** A page number written in decimal is taken as it is. */
  lemma DecimalPageIsKept(k: nat)
    requires k >= 1
    ensures EffectivePage(Some(NatToDecimal(k))) == k
  {
    ParseIntOfDecimal(k);
  }
}

=== FILE: registration.dfy ===
/** The registration handler as a step on both collections: validation,
    the reserved-name and duplicate checks, user creation, then issuing the
    registration code. */
module RegistrationController {
  import opened Base
  import opened Text
  import opened Vine
  import opened UserModel
  import opened UserValidation
  import opened Verification
  import opened Otp
  import Constants

  /** The users and challenges collections. */
  datatype World = World(users: Store, challenges: seq<Challenge>)

  /** The 201 response body: its message and the created user. */
  datatype Registered = Registered(message: string, user: PublicUser)

  datatype Outcome = Outcome(result: Result<Registered>, world: World)

  const RESERVED: Failure := Api(BAD_REQUEST, "Username is reserved, please choose another one")
  const IN_USE: Failure := Api(CONFLICT, "Username or Email already in use")
  const OTP_NOT_ISSUED: Failure := Api(INTERNAL_SERVER_ERROR, "Failed to issue OTP")
  const CREATION_FAILED: Failure := Api(INTERNAL_SERVER_ERROR, "User creation failed")

  /** `User.findOne({$or: [{userName}, {email}]})` with the validated values,
      which go through the paths' setters as the stored values did: is the
      name (trimmed, lower-cased) or the email (trimmed) already stored? */
  predicate Taken(s: Store, userName: string, email: string)
  {
    exists j :: 0 <= j < |s| && (s[j].userName == ToLower(Trim(userName)) || s[j].email == Trim(email))
  }

  /** The record handed to `new User({...})`. */
  function NewUserOf(v: Registration): NewUser
  {
    NewUser(v.userName, v.email, v.fullName, v.password, v.gender)
  }

  function SuccessMessage(email: string, otp: string): string
  {
    "User registered successfully. OTP sent to " + email + " " + otp
  }

  /** The user a validated request writes, if it gets that far: the name is
      not reserved, neither name nor email is taken, the schema accepts the
      record and the unique indexes accept the insert. */
  function Admit(users: Store, v: Registration, newId: Id, salt: int): (r: Option<User>)
    ensures r.Some? <==>
              && v.userName !in Constants.RESERVED_USERNAMES
              && !Taken(users, v.userName, v.email)
              && Build(NewUserOf(v), newId, salt).Ok?
              && Insert(users, Build(NewUserOf(v), newId, salt).value).Ok?
    ensures r.Some? ==> r == Some(Build(NewUserOf(v), newId, salt).value)
  {
    if v.userName in Constants.RESERVED_USERNAMES || Taken(users, v.userName, v.email) then None
    else match Build(NewUserOf(v), newId, salt)
      case Err(_) => None
      case Ok(u) => if Insert(users, u).Ok? then Some(u) else None
  }

  /** A validated registration that carries a full name, whose name is not
      reserved, whose name and email are free and whose id is new is
      admitted, provided the email rule never accepts a blank string. The
      admitted user has the validated full name and gender. */
  lemma {:induction false} ValidRegistrationIsAdmitted(users: Store, b: RegistrationBody, lib: Lib, newId: Id, salt: int)
    requires forall e :: lib.isEmail(e) ==> Trim(e) != ""
    requires ValidateRegistration(b, lib).Valid? && !Missing(b.fullName)
    requires ValidateRegistration(b, lib).value.userName !in Constants.RESERVED_USERNAMES
    requires !Taken(users, ValidateRegistration(b, lib).value.userName, ValidateRegistration(b, lib).value.email)
    requires forall j :: 0 <= j < |users| ==> users[j].id != newId
    ensures var v := ValidateRegistration(b, lib).value;
            var r := Admit(users, v, newId, salt);
            && r.Some?
            && r.value.fullName == Trim(b.fullName.value.s)
            && GenderName(r.value.gender) == b.gender.value.s
  {
    var v := ValidateRegistration(b, lib).value;
    TrimIdempotent(b.fullName.value.s);
    assert Trim(v.fullName.value) != "";
    assert v.password != "" by { assert JsLength(v.password) >= 8; }
    FreshRecordIsAdmitted(users, v, newId, salt);
  }

  /** The record-level half: a good, unreserved, free name, a non-blank
      email, full name and password, and a new id get past every gate. */
  lemma FreshRecordIsAdmitted(users: Store, v: Registration, newId: Id, salt: int)
    requires GoodUserName(v.userName) && v.userName !in Constants.RESERVED_USERNAMES
    requires v.fullName.Some? && Trim(v.fullName.value) != ""
    requires Trim(v.email) != "" && v.password != ""
    requires !Taken(users, v.userName, v.email)
    requires forall j :: 0 <= j < |users| ==> users[j].id != newId
    ensures Admit(users, v, newId, salt).Some?
    ensures Admit(users, v, newId, salt).value.fullName == Trim(v.fullName.value)
    ensures Admit(users, v, newId, salt).value.gender == v.gender
  {
    GoodUserNameIsNormal(v.userName);
    var u := Build(NewUserOf(v), newId, salt);
    assert u.Ok?;
    FreeUserInserts(users, v, u.value);
  }

  /** A user built from a record whose name and email are free, under an id
      no stored user has, passes the unique indexes. */
  lemma FreeUserInserts(users: Store, v: Registration, u: User)
    requires !Taken(users, v.userName, v.email)
    requires u.userName == ToLower(Trim(v.userName)) && u.email == Trim(v.email)
    requires forall j :: 0 <= j < |users| ==> users[j].id != u.id
    ensures Insert(users, u).Ok?
  {
    forall j | 0 <= j < |users|
      ensures users[j].id != u.id && users[j].userName != u.userName && users[j].email != u.email
    {
      assert !(users[j].userName == ToLower(Trim(v.userName)) || users[j].email == Trim(v.email));
    }
  }

  /** The steps after the new user `u` is inserted: issue the code for the
      email as validated, then read the user back. `u` was just built from
      that email, so it is stored trimmed, unverified and under a new id; the
      code lookup (which trims too) finds it, so a code is always issued and
      the user is always read back. */
  function IssueForNewUser(w: World, u: User, email: string, draw: Draw, otpSalt: int, now: int): (o: Outcome)
    requires forall j :: 0 <= j < |w.users| ==> w.users[j].id != u.id && w.users[j].email != Trim(email)
    requires u.email == Trim(email) && u.emailVerifiedAt.None?
    ensures o.world.users == w.users + [u]
    ensures o.result.Ok?
    ensures o.result.Ok? ==>
              && |o.world.challenges| == |w.challenges| + 1
              && o.world.challenges[..|w.challenges|] == w.challenges
              && var c := o.world.challenges[|w.challenges|];
              && c.userId == u.id && c.purpose.Register? && Active(c, now)
              && o.result.value.message == SuccessMessage(email, GenerateOtp(draw))
              && CompareOtp(GenerateOtp(draw), c.codeHash)
              && o.result.value.user == Sanitize(u)
  {
    var users := w.users + [u];
    AppendedUserLookups(w.users, u, email);
    var issued := IssueRegistrationOtp(users, w.challenges, email, None, draw, otpSalt, now);
    var w2 := World(users, issued.challenges);
    match issued.result
    case Err(f) => Outcome(Err(f), w2)
    case Ok(None) => Outcome(Err(OTP_NOT_ISSUED), w2)
    case Ok(Some(otp)) =>
      match FindById(users, u.id)
      case None => Outcome(Err(CREATION_FAILED), w2)
      case Some(saved) => Outcome(Ok(Registered(SuccessMessage(email, otp), Sanitize(saved))), w2)
  }

  /** After appending a user whose id and the looked-up email are new, the
      email finds that user if it is theirs and nobody otherwise, and the id
      finds the user at the end. */
  lemma AppendedUserLookups(users: Store, u: User, email: string)
    requires forall j :: 0 <= j < |users| ==> users[j].id != u.id && users[j].email != Trim(email)
    ensures UserByEmail(users + [u], email) == (if u.email == Trim(email) then Some(|users|) else None)
    ensures IndexById(users + [u], u.id) == Some(|users|)
    ensures FindById(users + [u], u.id) == Some(u)
  {
    AppendedEmailLookup(users, u, email);
    AppendedIdLookup(users, u);
  }

  lemma AppendedEmailLookup(users: Store, u: User, email: string)
    requires forall j :: 0 <= j < |users| ==> users[j].email != Trim(email)
    ensures UserByEmail(users + [u], email) == (if u.email == Trim(email) then Some(|users|) else None)
  {
    var t := users + [u];
    assert forall j :: 0 <= j < |users| ==> t[j] == users[j];
    var r := UserByEmail(t, email);
    if u.email == Trim(email) {
      assert t[|users|].email == Trim(email);
      assert r.Some?;
      assert r.value == |users|;
    } else {
      assert forall j :: 0 <= j < |t| ==> t[j].email != Trim(email);
    }
  }

  lemma AppendedIdLookup(users: Store, u: User)
    requires forall j :: 0 <= j < |users| ==> users[j].id != u.id
    ensures IndexById(users + [u], u.id) == Some(|users|)
    ensures FindById(users + [u], u.id) == Some(u)
  {
    var t := users + [u];
    assert forall j :: 0 <= j < |users| ==> t[j] == users[j];
    assert t[|users|].id == u.id;
    var r := IndexById(t, u.id);
    assert r.Some?;
    assert r.value == |users|;
  }

  /** The decision chain after validation. The failures before the user is
      written (400, 409, a schema or unique-index rejection) change nothing;
      once the user is written the request succeeds with a code issued. The
      404 of the code lookup and the two 500 branches cannot be reached. */
  function RegisterValidated(w: World, v: Registration, newId: Id, salt: int,
                             draw: Draw, otpSalt: int, now: int): (o: Outcome)
    ensures v.userName in Constants.RESERVED_USERNAMES ==> o == Outcome(Err(RESERVED), w)
    ensures v.userName !in Constants.RESERVED_USERNAMES && Taken(w.users, v.userName, v.email) ==>
              o == Outcome(Err(IN_USE), w)
    ensures Admit(w.users, v, newId, salt).None? ==> o.result.Err? && o.world == w
    ensures Admit(w.users, v, newId, salt).Some? ==>
              o == IssueForNewUser(w, Admit(w.users, v, newId, salt).value, v.email, draw, otpSalt, now)
    ensures o.result.Ok? <==> Admit(w.users, v, newId, salt).Some?
  {
    if v.userName in Constants.RESERVED_USERNAMES then Outcome(Err(RESERVED), w)
    else if Taken(w.users, v.userName, v.email) then Outcome(Err(IN_USE), w)
    else match Build(NewUserOf(v), newId, salt)
      case Err(f) => Outcome(Err(f), w)
      case Ok(u) =>
        match Insert(w.users, u)
        case Err(f) => Outcome(Err(f), w)
        case Ok(_) => IssueForNewUser(w, u, v.email, draw, otpSalt, now)
  }

  /** `userRegistration`: a body the validator rejects gives 422 with the
      validator's messages and changes nothing; a valid body continues with
      the validated values, never the raw ones. */
  function Register(w: World, body: RegistrationBody, lib: Lib, newId: Id, salt: int,
                    draw: Draw, otpSalt: int, now: int): (o: Outcome)
    ensures ValidateRegistration(body, lib).Invalid? ==>
              o == Outcome(Err(ValidationFailed(ValidateRegistration(body, lib).errors)), w)
    ensures ValidateRegistration(body, lib).Valid? ==>
              o == RegisterValidated(w, ValidateRegistration(body, lib).value, newId, salt, draw, otpSalt, now)
    ensures o.world == w || |o.world.users| == |w.users| + 1
  {
    match ValidateRegistration(body, lib)
    case Invalid(e) => Outcome(Err(ValidationFailed(e)), w)
    case Valid(v) => RegisterValidated(w, v, newId, salt, draw, otpSalt, now)
  }

  /** A written user is stored under the validated name unchanged (a name
      the validator accepts is already trimmed and lower case), with the
      email trimmed, unverified, active, without refresh token, and with a
      hash of the validated password. */
  lemma AdmittedUserIsStoredAsValidated(users: Store, v: Registration, newId: Id, salt: int)
    requires GoodUserName(v.userName)
    requires Admit(users, v, newId, salt).Some?
    ensures var u := Admit(users, v, newId, salt).value;
            && u.id == newId && u.userName == v.userName && u.email == Trim(v.email)
            && u.emailVerifiedAt.None? && u.isActive && u.refreshToken.None?
            && IsPasswordMatched(u, v.password)
  {
    GoodUserNameIsNormal(v.userName);
  }

  /** Registration keeps the unique indexes on the users collection. */
  lemma RegisterPreservesUniqueKeys(w: World, body: RegistrationBody, lib: Lib, newId: Id, salt: int,
                                    draw: Draw, otpSalt: int, now: int)
    requires UniqueKeys(w.users)
    ensures UniqueKeys(Register(w, body, lib, newId, salt, draw, otpSalt, now).world.users)
  {
    var o := Register(w, body, lib, newId, salt, draw, otpSalt, now);
    if o.world != w {
      var v := ValidateRegistration(body, lib).value;
      InsertPreservesUniqueKeys(w.users, Admit(w.users, v, newId, salt).value);
    }
  }
}

=== FILE: session.dfy ===
/** The session handlers as steps on the users collection: login, logout and
    refresh-token rotation. Each returns the response outcome together with
    the collection after the request. */
module Session {
  import opened Base
  import opened Text
  import opened UserModel
  import opened Tokens

  datatype Outcome<T> = Outcome(result: Result<T>, users: Store)

  /** The data of a successful login or refresh. */
  datatype SessionOk = SessionOk(user: Option<PublicUser>, accessToken: string, refreshToken: string)

  const INVALID_CREDENTIALS: Failure := Api(UNAUTHORIZED, "Invalid credentials")
  const VERIFY_FIRST: Failure := Api(UNAUTHORIZED, "Please verify your email before logging in")
  const DEACTIVATED: Failure := Api(UNAUTHORIZED, "Account is deactivated")
  const TOKEN_REQUIRED: Failure := Api(UNAUTHORIZED, "Refresh token is required")
  const INVALID_REFRESH: Failure := Api(UNAUTHORIZED, "Invalid refresh token")

  /** The login lookup: the identifier is lower-cased by the handler, then
      each branch of the `$or` passes it through its path's setters, as the
      stored values were: `trim` for the email, `trim` then `lowercase` for
      the user name. */
  predicate IdentifiedBy(u: User, identifier: string)
  {
    var q := ToLower(identifier);
    u.email == Trim(q) || u.userName == ToLower(Trim(q))
  }

  /** `User.findOne({$or: [...]})`: the first user the identifier names. */
  function LoginCandidate(s: Store, identifier: string): (r: Option<nat>)
    ensures r.Some? ==> r.value < |s| && IdentifiedBy(s[r.value], identifier)
    ensures r.Some? ==> forall j :: 0 <= j < r.value ==> !IdentifiedBy(s[j], identifier)
    ensures r.None? <==> forall j :: 0 <= j < |s| ==> !IdentifiedBy(s[j], identifier)
  {
    FirstIndex(s, (u: User) => IdentifiedBy(u, identifier))
  }

  /** A login that passes every check. */
  predicate AdmitsLogin(u: User, password: string)
  {
    u.emailVerifiedAt.Some? && u.isActive && IsPasswordMatched(u, password)
  }

  /** `userLogin`: the checks run in a fixed order (no user, unverified,
      inactive, wrong password), each failing with 401 and leaving the
      collection unchanged; on success a new pair is minted, the refresh
      token stored replaces any earlier one, and the returned user carries
      neither password nor refresh token. */
  function Login(s: Store, identifier: string, password: string, now: int, env: Env, sign: Signer)
    : (o: Outcome<SessionOk>)
    ensures o.result.Err? ==> o.users == s
    ensures o.result.Err? ==> o.result.failure.ApiFailure?
    ensures o.result.Err? && o.result.failure.status != UNAUTHORIZED ==> o.result.failure == TOKEN_FAILURE
    ensures LoginCandidate(s, identifier).None? ==> o.result == Err(INVALID_CREDENTIALS)
    ensures o.result.Ok? ==>
              var i := LoginCandidate(s, identifier).value;
              var m := GenerateTokens(s, s[i].id, now, env, sign);
              && AdmitsLogin(s[i], password)
              && m.result.Ok? && o.users == m.users
              && o.result.value.accessToken == m.result.value.accessToken
              && o.result.value.refreshToken == m.result.value.refreshToken
    ensures LoginCandidate(s, identifier).Some? && AdmitsLogin(s[LoginCandidate(s, identifier).value], password) ==>
              (o.result.Ok? <==> GenerateTokens(s, s[LoginCandidate(s, identifier).value].id, now, env, sign).result.Ok?)
  {
    match LoginCandidate(s, identifier)
    case None => Outcome(Err(INVALID_CREDENTIALS), s)
    case Some(i) =>
      var u := s[i];
      if u.emailVerifiedAt.None? then Outcome(Err(VERIFY_FIRST), s)
      else if !u.isActive then Outcome(Err(DEACTIVATED), s)
      else if !IsPasswordMatched(u, password) then Outcome(Err(INVALID_CREDENTIALS), s)
      else
        var m := GenerateTokens(s, u.id, now, env, sign);
        match m.result
        case Err(f) => Outcome(Err(f), s)
        case Ok(pair) =>
          var shown := match FindById(m.users, u.id) case Some(v) => Some(Sanitize(v)) case None => None;
          Outcome(Ok(SessionOk(shown, pair.accessToken, pair.refreshToken)), m.users)
  }

  /** The failure order: an unverified user is told to verify whatever the
      password, an inactive verified user is told the account is
      deactivated whatever the password, and only then is the password
      compared. */
  lemma LoginFailureOrder(s: Store, identifier: string, p: string, q: string, now: int, env: Env, sign: Signer)
    requires LoginCandidate(s, identifier).Some?
    ensures var u := s[LoginCandidate(s, identifier).value];
            && (u.emailVerifiedAt.None? ==>
                  Login(s, identifier, p, now, env, sign).result == Err(VERIFY_FIRST)
                  && Login(s, identifier, q, now, env, sign).result == Err(VERIFY_FIRST))
            && (u.emailVerifiedAt.Some? && !u.isActive ==>
                  Login(s, identifier, p, now, env, sign).result == Err(DEACTIVATED))
            && (u.emailVerifiedAt.Some? && u.isActive && !IsPasswordMatched(u, p) ==>
                  Login(s, identifier, p, now, env, sign).result == Err(INVALID_CREDENTIALS))
  {
  }

  /** Emails are stored as typed and only the identifier is lower-cased, so
      a user whose stored email has an upper-case letter cannot log in with
      the email, whatever its case. */
  lemma MixedCaseEmailNeverMatches(u: User, identifier: string)
    requires exists k :: 0 <= k < |u.email| && IsUpperAscii(u.email[k])
    ensures u.email != ToLower(identifier)
  {
  }

  /** A successful login leaves the user found by id holding exactly the
      returned refresh token; the returned user is that user sanitised. */
  lemma LoginStoresReturnedToken(s: Store, identifier: string, password: string, now: int, env: Env, sign: Signer)
    requires UniqueKeys(s)
    requires Login(s, identifier, password, now, env, sign).result.Ok?
    ensures var o := Login(s, identifier, password, now, env, sign);
            var u := s[LoginCandidate(s, identifier).value];
            && FindById(o.users, u.id).Some?
            && FindById(o.users, u.id).value.refreshToken == Some(o.result.value.refreshToken)
            && o.result.value.user == Some(Sanitize(u))
            && UniqueKeys(o.users)
  {
    var i := LoginCandidate(s, identifier).value;
    var u := s[i];
    IndexOfUniqueId(s, i);
    MintedTokenIsStored(s, u.id, now, env, sign);
  }

  /** `userLogout`: `findByIdAndUpdate(id, {$unset: {refreshToken: 1}})`,
      which clears the refresh token of the first user with that id and
      touches no other record; an unknown id changes nothing and the logout
      still succeeds. */
  function Logout(s: Store, userId: Id): (o: Outcome<()>)
    ensures o.result == Ok(())
    ensures |o.users| == |s|
    ensures IndexById(s, userId).None? ==> o.users == s
    ensures IndexById(s, userId).Some? ==>
              var i := IndexById(s, userId).value;
              o.users[i] == s[i].(refreshToken := None)
              && forall j :: 0 <= j < |s| && j != i ==> o.users[j] == s[j]
  {
    match IndexById(s, userId)
    case None => Outcome(Ok(()), s)
    case Some(i) => Outcome(Ok(()), s[i := s[i].(refreshToken := None)])
  }

  /** The first user holding exactly the presented token. */
  function TokenHolder(s: Store, t: string): (r: Option<nat>)
    ensures r.Some? ==> r.value < |s| && s[r.value].refreshToken == Some(t)
    ensures r.None? <==> forall j :: 0 <= j < |s| ==> s[j].refreshToken != Some(t)
  {
    FirstIndex(s, (u: User) => u.refreshToken == Some(t))
  }

  /** `req.cookies.refreshToken || req.body.refreshToken`. */
  function Presented(cookie: Option<Value>, body: Option<Value>): (r: Option<Value>)
    ensures cookie.Some? && Truthy(cookie.value) ==> r == cookie
    ensures !(cookie.Some? && Truthy(cookie.value)) ==> r == body
  {
    if cookie.Some? && Truthy(cookie.value) then cookie else body
  }

  /** Rotation once the holder is known: mint a new pair for the holder; a
      minting failure is reported as an invalid refresh token. */
  function Rotate(s: Store, i: nat, now: int, env: Env, sign: Signer): (o: Outcome<SessionOk>)
    requires i < |s|
    ensures o.result.Err? ==> o == Outcome(Err(INVALID_REFRESH), s)
    ensures o.result.Ok? <==> GenerateTokens(s, s[i].id, now, env, sign).result.Ok?
    ensures o.result.Ok? ==>
              var m := GenerateTokens(s, s[i].id, now, env, sign);
              && o.users == m.users
              && o.result.value.accessToken == m.result.value.accessToken
              && o.result.value.refreshToken == m.result.value.refreshToken
  {
    var m := GenerateTokens(s, s[i].id, now, env, sign);
    match m.result
    case Err(_) => Outcome(Err(INVALID_REFRESH), s)
    case Ok(pair) =>
      var shown := match FindById(m.users, s[i].id) case Some(v) => Some(Sanitize(v)) case None => None;
      Outcome(Ok(SessionOk(shown, pair.accessToken, pair.refreshToken)), m.users)
  }

  /** `refreshAccessToken` with the token compared as a string: the cookie
      is read first, then the body; nothing truthy gives 401 "Refresh token
      is required"; otherwise only a string equal to some user's stored
      token succeeds (no signature, verification or active check), and every
      other failure is 401 "Invalid refresh token" with nothing changed. */
  function Refresh(s: Store, cookie: Option<Value>, body: Option<Value>, now: int, env: Env, sign: Signer)
    : (o: Outcome<SessionOk>)
    ensures o.result.Err? ==> o.users == s
    ensures o.result.Err? ==> o.result.failure == TOKEN_REQUIRED || o.result.failure == INVALID_REFRESH
    ensures o.result == Err(TOKEN_REQUIRED) <==>
              Presented(cookie, body).None? || !Truthy(Presented(cookie, body).value)
    ensures o.result.Ok? ==>
              var v := Presented(cookie, body).value;
              && v.VStr?
              && TokenHolder(s, v.s).Some?
              && var m := GenerateTokens(s, s[TokenHolder(s, v.s).value].id, now, env, sign);
              && m.result.Ok? && o.users == m.users
              && o.result.value.accessToken == m.result.value.accessToken
              && o.result.value.refreshToken == m.result.value.refreshToken
    ensures var v := Presented(cookie, body);
            v.Some? && v.value.VStr? && v.value.s != "" && TokenHolder(s, v.value.s).Some? ==>
              (o.result.Ok? <==> GenerateTokens(s, s[TokenHolder(s, v.value.s).value].id, now, env, sign).result.Ok?)
  {
    var v := Presented(cookie, body);
    if v.None? || !Truthy(v.value) then Outcome(Err(TOKEN_REQUIRED), s)
    else if !v.value.VStr? then Outcome(Err(INVALID_REFRESH), s)
    else
      match TokenHolder(s, v.value.s)
      case None => Outcome(Err(INVALID_REFRESH), s)
      case Some(i) => Rotate(s, i, now, env, sign)
  }

  /** After a successful refresh the holder, found by id, stores exactly the
      refresh token returned to the caller, and the unique indexes still
      hold. */
  lemma RefreshStoresReturnedToken(s: Store, cookie: Option<Value>, body: Option<Value>, now: int, env: Env, sign: Signer)
    requires UniqueKeys(s)
    requires Refresh(s, cookie, body, now, env, sign).result.Ok?
    ensures var o := Refresh(s, cookie, body, now, env, sign);
            var id := s[TokenHolder(s, Presented(cookie, body).value.s).value].id;
            && FindById(o.users, id).Some?
            && FindById(o.users, id).value.refreshToken == Some(o.result.value.refreshToken)
            && UniqueKeys(o.users)
  {
    var i := TokenHolder(s, Presented(cookie, body).value.s).value;
    MintedTokenIsStored(s, s[i].id, now, env, sign);
  }

  /** After a successful refresh the holder keeps only the new token, so
      replaying the old one fails, provided the new token differs from the
      old and no other user held the old one. */
  lemma ReplayAfterRotationFails(s: Store, t: string, now: int, env: Env, sign: Signer, later: int)
    requires UniqueKeys(s)
    requires forall j, k :: 0 <= j < k < |s| ==> !(s[j].refreshToken == Some(t) && s[k].refreshToken == Some(t))
    requires Refresh(s, Some(VStr(t)), None, now, env, sign).result.Ok?
    requires Refresh(s, Some(VStr(t)), None, now, env, sign).result.value.refreshToken != t
    ensures var s2 := Refresh(s, Some(VStr(t)), None, now, env, sign).users;
            Refresh(s2, Some(VStr(t)), None, later, env, sign) == Outcome(Err(INVALID_REFRESH), s2)
  {
    var i := TokenHolder(s, t).value;
    IndexOfUniqueId(s, i);
    var m := GenerateTokens(s, s[i].id, now, env, sign);
    var s2 := m.users;
    forall j | 0 <= j < |s2| ensures s2[j].refreshToken != Some(t) {
      if j != i {
        assert s2[j] == s[j];
      }
    }
  }

  /** When the signer happens to mint the very token presented (same user,
      same second), the refresh changes nothing, so that token keeps
      working. */
  lemma RepeatedTokenKeepsWorking(s: Store, t: string, now: int, env: Env, sign: Signer)
    requires UniqueKeys(s)
    requires Refresh(s, Some(VStr(t)), None, now, env, sign).result.Ok?
    requires Refresh(s, Some(VStr(t)), None, now, env, sign).result.value.refreshToken == t
    ensures Refresh(s, Some(VStr(t)), None, now, env, sign).users == s
  {
    var i := TokenHolder(s, t).value;
    IndexOfUniqueId(s, i);
    var m := GenerateTokens(s, s[i].id, now, env, sign);
    assert m.users[i] == s[i];
    assert m.users == s;
  }

  /** Logging out clears the caller's token, so a later refresh with it
      fails when the caller was its only holder. */
  lemma RefreshAfterLogoutFails(s: Store, userId: Id, t: string, now: int, env: Env, sign: Signer)
    requires t != ""
    requires IndexById(s, userId).Some?
    requires forall j :: 0 <= j < |s| && s[j].refreshToken == Some(t) ==> j == IndexById(s, userId).value
    ensures var s2 := Logout(s, userId).users;
            Refresh(s2, Some(VStr(t)), None, now, env, sign) == Outcome(Err(INVALID_REFRESH), s2)
  {
    var s2 := Logout(s, userId).users;
    var i := IndexById(s, userId).value;
    forall j | 0 <= j < |s2| ensures s2[j].refreshToken != Some(t) {
      if j != i {
        assert s2[j] == s[j];
      }
    }
    assert TokenHolder(s2, t).None?;
  }

  // ---- The handler as written: the presented value goes into the query ----

  /** How the document store matches a stored refresh token against the
      value placed in `{refreshToken: v}`: a string by equality, `null`
      by absence, and `{"$ne": x}` by the negation. Other operators are
      treated as matching nothing. */
  predicate QueryMatches(field: Option<string>, q: Value)
    decreases q
  {
    match q
    case VStr(t) => field == Some(t)
    case VNull => field.None?
    case VObj(ops) =>
      |ops| == 1 && ops[0].0 == "$ne" && !QueryMatches(field, ops[0].1)
    case _ => false
  }

  /** `refreshAccessToken` as written: the presented cookie or body value,
      whatever its JSON type, is placed in `User.findOne({refreshToken: v})`. */
  function RefreshAsWritten(s: Store, cookie: Option<Value>, body: Option<Value>, now: int, env: Env, sign: Signer)
    : (o: Outcome<SessionOk>)
    ensures o.result.Err? ==> o.users == s
    ensures o.result.Ok? ==>
              var v := Presented(cookie, body);
              && v.Some?
              && var i := FirstIndex(s, (u: User) => QueryMatches(u.refreshToken, v.value));
              i.Some? && o.users == GenerateTokens(s, s[i.value].id, now, env, sign).users
    ensures var v := Presented(cookie, body);
            v.Some? && Truthy(v.value) && FirstIndex(s, (u: User) => QueryMatches(u.refreshToken, v.value)).Some? ==>
              var i := FirstIndex(s, (u: User) => QueryMatches(u.refreshToken, v.value)).value;
              (o.result.Ok? <==> GenerateTokens(s, s[i].id, now, env, sign).result.Ok?)
  {
    var v := Presented(cookie, body);
    if v.None? || !Truthy(v.value) then Outcome(Err(TOKEN_REQUIRED), s)
    else
      match FirstIndex(s, (u: User) => QueryMatches(u.refreshToken, v.value))
      case None => Outcome(Err(INVALID_REFRESH), s)
      case Some(i) => Rotate(s, i, now, env, sign)
  }

  /** When the presented value is a string the two handlers agree. */
  lemma AsWrittenAgreesOnStrings(s: Store, cookie: Option<Value>, body: Option<Value>, now: int, env: Env, sign: Signer)
    requires Presented(cookie, body).Some? && Presented(cookie, body).value.VStr?
    ensures RefreshAsWritten(s, cookie, body, now, env, sign) == Refresh(s, cookie, body, now, env, sign)
  {
    var t := Presented(cookie, body).value.s;
    var p := (u: User) => QueryMatches(u.refreshToken, VStr(t));
    var q := (u: User) => u.refreshToken == Some(t);
    FirstIndexSame(s, p, q);
    assert FirstIndex(s, p) == TokenHolder(s, t);
  }

  lemma {:induction false} FirstIndexSame(s: Store, p: User -> bool, q: User -> bool)
    requires forall u :: p(u) == q(u)
    ensures FirstIndex(s, p) == FirstIndex(s, q)
  {
    if |s| > 0 {
      FirstIndexSame(s[1..], p, q);
    }
  }

  /** The as-written handler lets a body of `{"refreshToken": {"$ne": null}}`
      rotate the session of a user whose token the caller never knew; the
      corrected handler refuses it. */
  lemma OperatorInjectionCounterexample()
    ensures var u := User("650000000000000000000001", "alice", "alice@example.com", "Alice",
                          Bcrypt.Hash("Password1!", 0), Male, Some(0), Some("secret-token"), true);
            var body := Some(VObj([("$ne", VNull)]));
            var env := Env(Some("a"), Some("r"), None, None);
            var sign: Signer := (c: Claims, k: Option<string>) => Some("minted");
            && RefreshAsWritten([u], None, body, 1000, env, sign).result.Ok?
            && RefreshAsWritten([u], None, body, 1000, env, sign).result.value.refreshToken == "minted"
            && Refresh([u], None, body, 1000, env, sign).result == Err(INVALID_REFRESH)
  {
    var u := User("650000000000000000000001", "alice", "alice@example.com", "Alice",
                  Bcrypt.Hash("Password1!", 0), Male, Some(0), Some("secret-token"), true);
    var body := Some(VObj([("$ne", VNull)]));
    assert QueryMatches(u.refreshToken, body.value);
  }
}

=== FILE: soft_delete.dfy ===
/** The soft-delete plugin, generic in the document body: the three delete
    fields it adds, the default filter its query hooks apply, the query
    helpers, and the delete, restore and hard-delete statics. A collection
    is a sequence of documents in natural order. */
module SoftDelete {
  import opened Base

  type Id = string

  /** A schema path that a given model may or may not declare:
      `'isActive' in doc` holds exactly when the path is declared. */
  datatype Field<T> = Absent | Present(value: T)

  datatype Doc<T> = Doc(
    id: Id,
    body: T,
    deletedAt: Option<int>,
    deletedBy: Option<Id>,
    deleteReason: Option<string>,
    isActive: Field<bool>,
    refreshToken: Field<Option<string>>)

  /** `isDeleted()`: `!!this.deletedAt`. */
  predicate IsDeleted<T>(d: Doc<T>)
  {
    d.deletedAt.Some?
  }

  /** How a query treats deleted documents: by default (the pre hooks on
      find, findOne, count, countDocuments, findOneAnd* and aggregate) they
      are hidden; `withDeleted()` shows them; `onlyDeleted()` shows only
      them; `notDeleted()` hides them. */
  datatype Scope = Default | WithDeleted | OnlyDeleted | NotDeleted

  predicate Visible<T>(d: Doc<T>, scope: Scope)
  {
    match scope
    case Default => !IsDeleted(d)
    case WithDeleted => true
    case OnlyDeleted => IsDeleted(d)
    case NotDeleted => !IsDeleted(d)
  }

  /** `find(filter)` under a scope, in natural order. */
  function Find<T(!new)>(docs: seq<Doc<T>>, scope: Scope, filter: Doc<T> -> bool): (r: seq<Doc<T>>)
    ensures |r| <= |docs|
    ensures forall d :: d in r <==> d in docs && Visible(d, scope) && filter(d)
  {
    Filter(docs, (d: Doc<T>) => Visible(d, scope) && filter(d))
  }

  /** `countDocuments(filter)` under a scope. */
  function Count<T(!new)>(docs: seq<Doc<T>>, scope: Scope, filter: Doc<T> -> bool): (n: nat)
    ensures n <= |docs|
  {
    |Find(docs, scope, filter)|
  }

  /** The deleted and the live documents matching a filter split all the
      matching ones between them. */
  lemma {:induction false} ScopesPartition<T(!new)>(docs: seq<Doc<T>>, filter: Doc<T> -> bool)
    ensures Count(docs, OnlyDeleted, filter) + Count(docs, NotDeleted, filter) == Count(docs, WithDeleted, filter)
  {
    if |docs| > 0 {
      ScopesPartition(docs[1..], filter);
    }
  }

  /** The default scope sees exactly what `notDeleted()` sees. */
  lemma {:induction false} DefaultIsNotDeleted<T(!new)>(docs: seq<Doc<T>>, filter: Doc<T> -> bool)
    ensures Find(docs, Default, filter) == Find(docs, NotDeleted, filter)
  {
    if |docs| > 0 {
      DefaultIsNotDeleted(docs[1..], filter);
    }
  }

  /** `findById(id).withDeleted()`: the document with that id, deleted or not. */
  function IndexById<T>(docs: seq<Doc<T>>, id: Id): (r: Option<nat>)
    ensures r.Some? ==> r.value < |docs| && docs[r.value].id == id
    ensures r.None? <==> forall j :: 0 <= j < |docs| ==> docs[j].id != id
  {
    FirstIndex(docs, (d: Doc<T>) => d.id == id)
  }

  /** A static's result and the collection afterwards. */
  datatype Step<T> = Step(result: Option<Doc<T>>, docs: seq<Doc<T>>)

  /** What the model's own pre-save hooks do to the body on a save that
      changes only the plugin's fields. */
  type SaveHook<!T> = T -> T

  /** The changes `softDeleteById` makes to a live document before saving. */
  function MarkDeleted<T>(d: Doc<T>, now: int, actor: Option<Id>, reason: Option<string>, onSave: SaveHook<T>): (e: Doc<T>)
    ensures e.id == d.id && e.body == onSave(d.body)
    ensures e.deletedAt == Some(now) && e.deletedBy == actor && e.deleteReason == reason
    ensures d.isActive.Present? <==> e.isActive.Present?
    ensures e.isActive.Present? ==> !e.isActive.value
    ensures d.refreshToken.Present? <==> e.refreshToken.Present?
    ensures e.refreshToken.Present? ==> e.refreshToken.value.None?
  {
    Doc(d.id, onSave(d.body), Some(now), actor, reason,
        if d.isActive.Present? then Present(false) else Absent,
        if d.refreshToken.Present? then Present(None) else Absent)
  }

  /** `softDeleteById({id, actorId, reason})`: an unknown id gives null and
      changes nothing; an already deleted document is returned as it is
      (the call is idempotent); a live one is marked deleted now by the
      actor for the reason, deactivated and signed out where it has those
      fields, saved and returned. No other document changes. */
  function SoftDeleteById<T>(docs: seq<Doc<T>>, id: Id, now: int, actor: Option<Id>, reason: Option<string>,
                             onSave: SaveHook<T>): (st: Step<T>)
    ensures IndexById(docs, id).None? ==> st == Step(None, docs)
    ensures IndexById(docs, id).Some? && IsDeleted(docs[IndexById(docs, id).value]) ==>
              st == Step(Some(docs[IndexById(docs, id).value]), docs)
    ensures IndexById(docs, id).Some? && !IsDeleted(docs[IndexById(docs, id).value]) ==>
              var i := IndexById(docs, id).value;
              && st.result == Some(MarkDeleted(docs[i], now, actor, reason, onSave))
              && |st.docs| == |docs|
              && st.docs[i] == st.result.value
              && forall j :: 0 <= j < |docs| && j != i ==> st.docs[j] == docs[j]
    ensures st.result.Some? ==> IsDeleted(st.result.value)
  {
    match IndexById(docs, id)
    case None => Step(None, docs)
    case Some(i) =>
      if IsDeleted(docs[i]) then Step(Some(docs[i]), docs)
      else
        var e := MarkDeleted(docs[i], now, actor, reason, onSave);
        Step(Some(e), docs[i := e])
  }

  /** Deleting twice is deleting once: the second call finds the document
      deleted and changes nothing, whatever its time, actor or reason. */
  lemma SoftDeleteIdempotent<T>(docs: seq<Doc<T>>, id: Id, t1: int, a1: Option<Id>, r1: Option<string>,
                                t2: int, a2: Option<Id>, r2: Option<string>, onSave: SaveHook<T>)
    ensures var once := SoftDeleteById(docs, id, t1, a1, r1, onSave);
            var twice := SoftDeleteById(once.docs, id, t2, a2, r2, onSave);
            twice == Step(once.result, once.docs)
  {
    var once := SoftDeleteById(docs, id, t1, a1, r1, onSave);
    if IndexById(docs, id).Some? {
      var i := IndexById(docs, id).value;
      IndexStable(docs, once.docs, id);
    }
  }

  /** Replacing documents without changing ids keeps `findById` pointing at
      the same positions. */
  lemma {:induction false} IndexStable<T>(s: seq<Doc<T>>, t: seq<Doc<T>>, id: Id)
    requires |s| == |t|
    requires forall j :: 0 <= j < |s| ==> s[j].id == t[j].id
    ensures IndexById(s, id) == IndexById(t, id)
  {
    if |s| > 0 {
      IndexStable(s[1..], t[1..], id);
      assert FirstIndex(s, (d: Doc<T>) => d.id == id) == IndexById(s, id);
    }
  }

  /** The changes `restoreById` makes to a deleted document before saving. */
  function MarkRestored<T>(d: Doc<T>, onSave: SaveHook<T>): (e: Doc<T>)
    ensures e.id == d.id && e.body == onSave(d.body)
    ensures !IsDeleted(e) && e.deletedBy.None? && e.deleteReason.None?
    ensures d.isActive.Present? <==> e.isActive.Present?
    ensures e.isActive.Present? ==> e.isActive.value
    ensures e.refreshToken == d.refreshToken
  {
    d.(body := onSave(d.body), deletedAt := None, deletedBy := None, deleteReason := None,
       isActive := if d.isActive.Present? then Present(true) else Absent)
  }

  /** `restoreById({id})`: an unknown id gives null; a live document is
      returned as it is; a deleted one has its three delete fields cleared
      and is reactivated where it has the field, but its refresh token is
      not given back. No other document changes. */
  function RestoreById<T>(docs: seq<Doc<T>>, id: Id, onSave: SaveHook<T>): (st: Step<T>)
    ensures IndexById(docs, id).None? ==> st == Step(None, docs)
    ensures IndexById(docs, id).Some? && !IsDeleted(docs[IndexById(docs, id).value]) ==>
              st == Step(Some(docs[IndexById(docs, id).value]), docs)
    ensures IndexById(docs, id).Some? && IsDeleted(docs[IndexById(docs, id).value]) ==>
              var i := IndexById(docs, id).value;
              && st.result == Some(MarkRestored(docs[i], onSave))
              && |st.docs| == |docs|
              && st.docs[i] == st.result.value
              && forall j :: 0 <= j < |docs| && j != i ==> st.docs[j] == docs[j]
    ensures st.result.Some? ==> !IsDeleted(st.result.value)
  {
    match IndexById(docs, id)
    case None => Step(None, docs)
    case Some(i) =>
      if !IsDeleted(docs[i]) then Step(Some(docs[i]), docs)
      else
        var e := MarkRestored(docs[i], onSave);
        Step(Some(e), docs[i := e])
  }

  /** Restoring undoes a delete in the delete fields, but not completely:
      the document comes back active even if it was inactive before, its
      refresh token stays cleared, and the save hooks ran twice. */
  lemma RestoreAfterDelete<T>(docs: seq<Doc<T>>, id: Id, now: int, actor: Option<Id>, reason: Option<string>,
                              onSave: SaveHook<T>)
    requires IndexById(docs, id).Some? && !IsDeleted(docs[IndexById(docs, id).value])
    ensures var i := IndexById(docs, id).value;
            var d := docs[i];
            var back := RestoreById(SoftDeleteById(docs, id, now, actor, reason, onSave).docs, id, onSave);
            && back.result == Some(d.(body := onSave(onSave(d.body)), deletedBy := None, deleteReason := None,
                                      isActive := if d.isActive.Present? then Present(true) else Absent,
                                      refreshToken := if d.refreshToken.Present? then Present(None) else Absent))
            && back.docs == docs[i := back.result.value]
  {
    var i := IndexById(docs, id).value;
    var del := SoftDeleteById(docs, id, now, actor, reason, onSave);
    IndexStable(docs, del.docs, id);
    var back := RestoreById(del.docs, id, onSave);
    assert back.docs == docs[i := back.result.value];
  }

  /** `forceDeleteById({id})`: `deleteOne({_id: id})`, which no hook
      filters, so the document goes whether or not it was soft-deleted; the
      number removed is returned. */
  function ForceDeleteById<T>(docs: seq<Doc<T>>, id: Id): (r: (nat, seq<Doc<T>>))
    ensures IndexById(docs, id).None? ==> r == (0, docs)
    ensures IndexById(docs, id).Some? ==>
              var i := IndexById(docs, id).value;
              r.0 == 1 && r.1 == docs[..i] + docs[i + 1..]
  {
    match IndexById(docs, id)
    case None => (0, docs)
    case Some(i) => (1, docs[..i] + docs[i + 1..])
  }

  /** Under a unique `_id`, a hard delete leaves no document with that id. */
  lemma ForceDeleteRemovesId<T>(docs: seq<Doc<T>>, id: Id)
    requires forall j, k :: 0 <= j < k < |docs| ==> docs[j].id != docs[k].id
    ensures var r := ForceDeleteById(docs, id);
            && |r.1| == |docs| - r.0
            && forall j :: 0 <= j < |r.1| ==> r.1[j].id != id
  {
    var r := ForceDeleteById(docs, id);
    if IndexById(docs, id).Some? {
      var i := IndexById(docs, id).value;
      forall j | 0 <= j < |r.1| ensures r.1[j].id != id {
        if j < i {
          assert r.1[j] == docs[j];
        } else {
          assert r.1[j] == docs[j + 1];
        }
      }
    }
  }
}

=== FILE: text.dfy ===
/** The JavaScript string built-ins the handlers and validators rely on:
    `trim`, `length` (UTF-16 code units), ASCII case mapping, `indexOf` and
    `replace` with a string pattern, `Number.prototype.toString` on
    non-negative integers, and `parseInt(x, 10)`. */
module Text {
  import opened Base

  /** The ECMAScript WhiteSpace and LineTerminator code points: what `trim()`
      strips and what the regular-expression class `\s` matches. */
  predicate IsJsWhite(c: char)
  {
    var n := c as int;
    n == 0x09 || n == 0x0A || n == 0x0B || n == 0x0C || n == 0x0D || n == 0x20
    || n == 0xA0 || n == 0x1680 || (0x2000 <= n <= 0x200A) || n == 0x2028
    || n == 0x2029 || n == 0x202F || n == 0x205F || n == 0x3000 || n == 0xFEFF
  }

  /** The code points a regular-expression `.` does not match. */
  predicate IsLineTerminator(c: char)
  {
    var n := c as int;
    n == 0x0A || n == 0x0D || n == 0x2028 || n == 0x2029
  }

  /** `trimStart()`: drops the leading white space and nothing else. */
  function TrimStart(s: string): (r: string)
    ensures |r| <= |s| && r == s[|s| - |r|..]
    ensures r == [] || !IsJsWhite(r[0])
    ensures forall i :: 0 <= i < |s| - |r| ==> IsJsWhite(s[i])
  {
    if |s| > 0 && IsJsWhite(s[0]) then TrimStart(s[1..]) else s
  }

  /** `trimEnd()`: drops the trailing white space and nothing else. */
  function TrimEnd(s: string): (r: string)
    ensures |r| <= |s| && r == s[..|r|]
    ensures r == [] || !IsJsWhite(r[|r| - 1])
    ensures forall i :: |r| <= i < |s| ==> IsJsWhite(s[i])
  {
    if |s| > 0 && IsJsWhite(s[|s| - 1]) then TrimEnd(s[..|s| - 1]) else s
  }

  /** How many characters `trim()` cuts from the front of `s`. */
  function TrimOffset(s: string): (k: nat)
    ensures k <= |s|
  {
    |s| - |TrimStart(s)|
  }

  /** `trim()`: the slice of `s` starting at `TrimOffset(s)` that neither
      starts nor ends with white space, everything cut away on either side
      being white space. */
  function Trim(s: string): (r: string)
    ensures |r| <= |s| - TrimOffset(s)
    ensures r == s[TrimOffset(s)..TrimOffset(s) + |r|]
    ensures r == [] || (!IsJsWhite(r[0]) && !IsJsWhite(r[|r| - 1]))
    ensures forall i :: 0 <= i < TrimOffset(s) ==> IsJsWhite(s[i])
    ensures forall i :: TrimOffset(s) + |r| <= i < |s| ==> IsJsWhite(s[i])
  {
    var a := TrimStart(s);
    var r := TrimEnd(a);
    TrimParts(s, a, r, |s| - |a|);
    r
  }

  /** What `trimStart` and `trimEnd` promise, composed: `r`, cut from the
      suffix `a` of `s`, is the slice of `s` that `Trim` promises. */
  lemma TrimParts(s: string, a: string, r: string, k: nat)
    requires |a| <= |s| && a == s[|s| - |a|..] && k == |s| - |a|
    requires a == [] || !IsJsWhite(a[0])
    requires forall i :: 0 <= i < k ==> IsJsWhite(s[i])
    requires |r| <= |a| && r == a[..|r|]
    requires r == [] || !IsJsWhite(r[|r| - 1])
    requires forall i :: |r| <= i < |a| ==> IsJsWhite(a[i])
    ensures |r| <= |s| - k && r == s[k..k + |r|]
    ensures r == [] || (!IsJsWhite(r[0]) && !IsJsWhite(r[|r| - 1]))
    ensures forall i :: k + |r| <= i < |s| ==> IsJsWhite(s[i])
  {
    TrimSlice(s, a, r, k);
    TrimEndsNotWhite(a, r);
    TrailingWhite(s, k, r);
  }

  lemma TrimSlice(s: string, a: string, r: string, k: nat)
    requires |a| <= |s| && a == s[|s| - |a|..] && k == |s| - |a|
    requires |r| <= |a| && r == a[..|r|]
    ensures |r| <= |s| - k && r == s[k..k + |r|]
  {
  }

  lemma TrimEndsNotWhite(a: string, r: string)
    requires a == [] || !IsJsWhite(a[0])
    requires |r| <= |a| && r == a[..|r|]
    requires r == [] || !IsJsWhite(r[|r| - 1])
    ensures r == [] || (!IsJsWhite(r[0]) && !IsJsWhite(r[|r| - 1]))
  {
    if |r| > 0 {
      assert r[0] == a[0];
    }
  }

  /** What `trimEnd` cuts from the suffix of `s` at `k` is white space of `s`. */
  lemma TrailingWhite(s: string, k: nat, r: string)
    requires k <= |s| && |r| <= |s| - k
    requires forall i :: |r| <= i < |s[k..]| ==> IsJsWhite(s[k..][i])
    ensures forall i :: k + |r| <= i < |s| ==> IsJsWhite(s[i])
  {
    forall i | k + |r| <= i < |s| ensures IsJsWhite(s[i]) {
      assert s[i] == s[k..][i - k];
    }
  }

  /** A string with no white space at either end is its own trim, so `trim`
      is idempotent. */
  lemma TrimFixed(s: string)
    requires s == [] || (!IsJsWhite(s[0]) && !IsJsWhite(s[|s| - 1]))
    ensures Trim(s) == s
  {
  }

  lemma TrimIdempotent(s: string)
    ensures Trim(Trim(s)) == Trim(s)
  {
    TrimFixed(Trim(s));
  }

  /** Number of UTF-16 code units of one code point. */
  function Utf16Units(c: char): nat
  {
    if c as int > 0xFFFF then 2 else 1
  }

  /** `s.length`: UTF-16 code units, so a code point outside the Basic
      Multilingual Plane counts twice. */
  function JsLength(s: string): (n: nat)
    ensures |s| <= n <= 2 * |s|
    ensures (forall i :: 0 <= i < |s| ==> s[i] as int <= 0xFFFF) ==> n == |s|
  {
    if |s| == 0 then 0 else Utf16Units(s[0]) + JsLength(s[1..])
  }

  predicate IsUpperAscii(c: char)
  {
    'A' <= c <= 'Z'
  }

  function LowerChar(c: char): char
  {
    if IsUpperAscii(c) then (c as int + 32) as char else c
  }

  /** `toLowerCase()` restricted to the ASCII letters. */
  function ToLower(s: string): (r: string)
    ensures |r| == |s|
    ensures forall i :: 0 <= i < |r| ==> !IsUpperAscii(r[i])
    ensures forall i :: 0 <= i < |s| && !IsUpperAscii(s[i]) ==> r[i] == s[i]
    ensures forall i :: 0 <= i < |s| && IsUpperAscii(s[i]) ==> r[i] as int == s[i] as int + 32
  {
    seq(|s|, i requires 0 <= i < |s| => LowerChar(s[i]))
  }

  /** A string without upper-case ASCII letters is unchanged by `toLowerCase()`. */
  lemma ToLowerFixed(s: string)
    requires forall i :: 0 <= i < |s| ==> !IsUpperAscii(s[i])
    ensures ToLower(s) == s
  {
  }

  predicate OccursAt(s: string, pat: string, j: int)
  {
    0 <= j && j + |pat| <= |s| && s[j..j + |pat|] == pat
  }

  function IndexFrom(s: string, pat: string, k: nat): (r: Option<nat>)
    requires k <= |s|
    ensures r.Some? ==> k <= r.value && OccursAt(s, pat, r.value)
    ensures r.Some? ==> forall j :: k <= j < r.value ==> !OccursAt(s, pat, j)
    ensures r.None? ==> forall j :: k <= j ==> !OccursAt(s, pat, j)
    decreases |s| - k
  {
    if k + |pat| > |s| then None
    else if s[k..k + |pat|] == pat then Some(k)
    else IndexFrom(s, pat, k + 1)
  }

  /** `s.indexOf(pat)`: the first position where `pat` occurs. */
  function IndexOf(s: string, pat: string): (r: Option<nat>)
    ensures r.Some? ==> OccursAt(s, pat, r.value)
    ensures r.Some? ==> forall j :: 0 <= j < r.value ==> !OccursAt(s, pat, j)
    ensures r.None? ==> forall j :: !OccursAt(s, pat, j)
  {
    IndexFrom(s, pat, 0)
  }

  /** `s.replace(pat, rep)` with a string pattern: only the first occurrence
      is replaced, wherever it is. */
  function ReplaceFirst(s: string, pat: string, rep: string): (r: string)
    ensures IndexOf(s, pat).None? ==> r == s
    ensures IndexOf(s, pat).Some? ==>
              var i := IndexOf(s, pat).value;
              r == s[..i] + rep + s[i + |pat|..]
  {
    match IndexOf(s, pat)
    case None => s
    case Some(i) => s[..i] + rep + s[i + |pat|..]
  }

  predicate IsDigit(c: char)
  {
    '0' <= c <= '9'
  }

  predicate AllDigits(s: string)
  {
    forall i :: 0 <= i < |s| ==> IsDigit(s[i])
  }

  function DigitChar(d: nat): (c: char)
    requires d < 10
    ensures IsDigit(c) && c as int - '0' as int == d
  {
    ('0' as int + d) as char
  }

  /** The value of a string of decimal digits. */
  function DecimalValue(s: string): nat
    requires AllDigits(s)
  {
    if |s| == 0 then 0
    else 10 * DecimalValue(s[..|s| - 1]) + (s[|s| - 1] as int - '0' as int)
  }

  /** `n.toString()` for a non-negative integer: decimal digits without a
      leading zero, whose value is `n`. */
  function NatToDecimal(n: nat): (s: string)
    ensures |s| >= 1 && AllDigits(s)
    ensures DecimalValue(s) == n
    ensures s[0] == '0' ==> n == 0
  {
    if n < 10 then [DigitChar(n)]
    else
      var p := NatToDecimal(n / 10);
      var s := p + [DigitChar(n % 10)];
      assert s[..|s| - 1] == p;
      s
  }

  function Pow10(k: nat): (p: nat)
    ensures p >= 1
  {
    if k == 0 then 1 else 10 * Pow10(k - 1)
  }

  /** A number with `k + 1` digits prints as `k + 1` characters. */
  lemma {:induction false} DecimalLength(n: nat, k: nat)
    requires Pow10(k) <= n < Pow10(k + 1)
    ensures |NatToDecimal(n)| == k + 1
  {
    if k > 0 {
      assert Pow10(k) == 10 * Pow10(k - 1);
      assert Pow10(k + 1) == 10 * Pow10(k);
      assert Pow10(k - 1) <= n / 10 < Pow10(k);
      DecimalLength(n / 10, k - 1);
    }
  }

  /** The longest prefix of `s` made of decimal digits. */
  function LeadingDigits(s: string): (r: string)
    ensures AllDigits(r) && |r| <= |s| && r == s[..|r|]
    ensures |r| == |s| || !IsDigit(s[|r|])
  {
    if |s| > 0 && IsDigit(s[0]) then
      var t := LeadingDigits(s[1..]);
      assert [s[0]] + t == s[..|t| + 1];
      [s[0]] + t
    else []
  }

  /** `parseInt(s, 10)`: leading white space, an optional sign, then the
      longest run of digits; `None` stands for `NaN` (no digit at all). */
  function ParseInt(s: string): (r: Option<int>)
    ensures r.None? <==>
              var t := TrimStart(s);
              var u := if |t| > 0 && (t[0] == '-' || t[0] == '+') then t[1..] else t;
              u == [] || !IsDigit(u[0])
  {
    var t := TrimStart(s);
    var negative := |t| > 0 && t[0] == '-';
    var u := if |t| > 0 && (t[0] == '-' || t[0] == '+') then t[1..] else t;
    var d := LeadingDigits(u);
    var v: int := if |d| == 0 then 0 else DecimalValue(d);
    if |d| == 0 then None
    else if negative then Some(-v)
    else Some(v)
  }

  /** `parseInt` reads back what `toString` printed. */
  lemma ParseIntOfDecimal(n: nat)
    ensures ParseInt(NatToDecimal(n)) == Some(n)
  {
    var s := NatToDecimal(n);
    assert IsDigit(s[0]);
    assert !IsJsWhite(s[0]) && s[0] != '-' && s[0] != '+';
    assert TrimStart(s) == s;
    assert LeadingDigits(s) == s;
  }
}

=== FILE: todo_model.dfy ===
/** The todo record: its defaults and schema checks, the pre-save rule for
    `completedAt`, the instance methods and the owner queries. Todos carry
    the soft-delete fields, so every query here sees live todos only. */
module TodoModel {
  import opened Base
  import opened Text
  import opened SoftDelete

  datatype Priority = Low | Medium | High

  function PriorityName(p: Priority): string
  {
    match p
    case Low => "low"
    case Medium => "medium"
    case High => "high"
  }

  /** The schema's `enum: ["low", "medium", "high"]`. */
  function PriorityOf(s: string): (r: Option<Priority>)
    ensures r.Some? <==> s in ["low", "medium", "high"]
    ensures r.Some? ==> PriorityName(r.value) == s
  {
    if s == "low" then Some(Low)
    else if s == "medium" then Some(Medium)
    else if s == "high" then Some(High)
    else None
  }

  lemma PriorityRoundTrip(p: Priority)
    ensures PriorityOf(PriorityName(p)) == Some(p)
  {
  }

  datatype Todo = Todo(
    title: string,
    description: Option<string>,
    dueDate: Option<int>,
    completed: bool,
    completedAt: Option<int>,
    priority: Priority,
    owner: Id)

  type TodoDoc = Doc<Todo>

  /** The pre-save hook: when `completed` was modified, `completedAt` is now
      if the todo is completed and null if not; on any other save it is
      reset to null. Nothing else changes. */
  function PreSave(t: Todo, completedModified: bool, now: int): (r: Todo)
    ensures r == t.(completedAt := r.completedAt)
    ensures r.completedAt.Some? <==> completedModified && t.completed
    ensures r.completedAt.Some? ==> r.completedAt.value == now
  {
    if completedModified then t.(completedAt := if t.completed then Some(now) else None)
    else t.(completedAt := None)
  }

  /** The hook as it runs on the plugin's own saves, which never modify
      `completed`. */
  function PluginSave(t: Todo): (r: Todo)
    ensures forall now :: r == PreSave(t, false, now)
  {
    t.(completedAt := None)
  }

  /** A soft delete, and a restore, of a completed todo lose its completion
      time while it stays completed. */
  lemma SoftDeleteClearsCompletedAt(docs: seq<TodoDoc>, id: Id, now: int, actor: Option<Id>, reason: Option<string>)
    requires IndexById(docs, id).Some? && !IsDeleted(docs[IndexById(docs, id).value])
    ensures var d := SoftDeleteById(docs, id, now, actor, reason, PluginSave).result.value;
            && d.body.completed == docs[IndexById(docs, id).value].body.completed
            && d.body.completedAt.None?
  {
  }

  /** What `Todo.create({...})` receives; `undefined` is `None`. */
  datatype TodoDraft = TodoDraft(
    title: Option<string>,
    description: Option<string>,
    dueDate: Option<int>,
    completed: Option<bool>,
    priority: Option<string>,
    owner: Option<Id>)

  const TODO_VALIDATION_ERROR: Failure := OtherFailure("ValidationError", "Todo validation failed")

  /** The schema's checks on a new todo, after its setters trim title and
      description: the title is required (so not empty) and at most 200
      UTF-16 units, the description at most 1000, the priority in its enum,
      the owner present. */
  predicate Acceptable(d: TodoDraft)
  {
    && d.title.Some? && Trim(d.title.value) != "" && JsLength(Trim(d.title.value)) <= 200
    && (d.description.Some? ==> JsLength(Trim(d.description.value)) <= 1000)
    && (d.priority.Some? ==> PriorityOf(d.priority.value).Some?)
    && d.owner.Some?
  }

  /** `Todo.create(draft)`: a rejected draft fails with a validation error
      and nothing is stored; an accepted one becomes a live todo with the
      trimmed texts, the defaults (no description, no due date, not
      completed, medium priority) for what was not given, and the completion
      time the pre-save hook sets (a new document's given fields count as
      modified). */
  function Create(d: TodoDraft, id: Id, now: int): (r: Result<TodoDoc>)
    ensures r.Ok? <==> Acceptable(d)
    ensures r.Err? ==> r.failure == TODO_VALIDATION_ERROR
    ensures r.Ok? ==>
              var t := r.value.body;
              && r.value.id == id && !IsDeleted(r.value)
              && r.value.deletedBy.None? && r.value.deleteReason.None?
              && t.title == Trim(d.title.value)
              && (d.description.None? ==> t.description.None?)
              && (d.description.Some? ==> t.description == Some(Trim(d.description.value)))
              && t.dueDate == d.dueDate
              && t.completed == (d.completed == Some(true))
              && (t.completedAt.Some? <==> t.completed)
              && (t.completedAt.Some? ==> t.completedAt.value == now)
              && (d.priority.None? ==> t.priority == Medium)
              && (d.priority.Some? ==> PriorityName(t.priority) == d.priority.value)
              && Some(t.owner) == d.owner
  {
    if !Acceptable(d) then Err(TODO_VALIDATION_ERROR)
    else
      var t := Todo(Trim(d.title.value),
                    if d.description.Some? then Some(Trim(d.description.value)) else None,
                    d.dueDate,
                    d.completed == Some(true),
                    None,
                    if d.priority.Some? then PriorityOf(d.priority.value).value else Medium,
                    d.owner.value);
      Ok(Doc(id, PreSave(t, d.completed.Some?, now), None, None, None, Absent, Absent))
  }

  /** `toggleComplete()`: flips `completed` and saves, which always modifies
      it: the completion time becomes now when the todo becomes completed
      and null when it is reopened. Nothing else changes. */
  function Toggle(d: TodoDoc, now: int): (e: TodoDoc)
    ensures e.body.completed == !d.body.completed
    ensures e.body.completedAt == (if e.body.completed then Some(now) else None)
    ensures e == d.(body := e.body)
    ensures e.body == d.body.(completed := e.body.completed, completedAt := e.body.completedAt)
  {
    d.(body := PreSave(d.body.(completed := !d.body.completed), true, now))
  }

  /** Toggling twice restores `completed` but not the completion time. */
  lemma ToggleTwice(d: TodoDoc, t1: int, t2: int)
    ensures Toggle(Toggle(d, t1), t2).body.completed == d.body.completed
    ensures Toggle(Toggle(d, t1), t2) == d.(body := d.body.(completedAt := if d.body.completed then Some(t2) else None))
  {
  }

  /** `isOverdue()`: false without a due date or once completed; otherwise
      whether now is strictly after the due date. */
  predicate IsOverdue(t: Todo, now: int)
  {
    if t.dueDate.None? || t.completed then false else now > t.dueDate.value
  }

  // ---- Ordering by due date ----

  /** Ascending by due date, a missing date first. */
  predicate DueLe(a: TodoDoc, b: TodoDoc)
  {
    a.body.dueDate.None? || (b.body.dueDate.Some? && a.body.dueDate.value <= b.body.dueDate.value)
  }

  predicate SortedByDue(s: seq<TodoDoc>)
  {
    forall i, j :: 0 <= i < j < |s| ==> DueLe(s[i], s[j])
  }

  /** Inserting into an ascending sequence before the first element not
      preceding `x`. */
  function InsertByDue(x: TodoDoc, s: seq<TodoDoc>): (r: seq<TodoDoc>)
    requires SortedByDue(s)
    ensures multiset(r) == multiset(s) + multiset{x}
    ensures SortedByDue(r)
  {
    if |s| == 0 then [x]
    else if DueLe(x, s[0]) then
      ConsSorted(x, s);
      [x] + s
    else
      var rest := InsertByDue(x, s[1..]);
      assert s == [s[0]] + s[1..];
      HeadPrecedesInsert(x, s, rest);
      ConsSorted(s[0], rest);
      [s[0]] + rest
  }

  /** An element preceding every element of an ascending sequence can be
      put in front of it. */
  lemma ConsSorted(h: TodoDoc, s: seq<TodoDoc>)
    requires SortedByDue(s)
    requires |s| == 0 || DueLe(h, s[0]) || forall k :: 0 <= k < |s| ==> DueLe(h, s[k])
    ensures SortedByDue([h] + s)
  {
    var r := [h] + s;
    forall i, j | 0 <= i < j < |r| ensures DueLe(r[i], r[j]) {
      assert r[j] == s[j - 1];
      if i > 0 {
        assert r[i] == s[i - 1];
      } else if |s| > 0 && DueLe(h, s[0]) {
        assert DueLe(s[0], s[j - 1]) || j - 1 == 0;
      }
    }
  }

  /** The head of an ascending sequence precedes everything inserting a
      later element into its tail produces. */
  lemma HeadPrecedesInsert(x: TodoDoc, s: seq<TodoDoc>, rest: seq<TodoDoc>)
    requires |s| > 0 && SortedByDue(s) && !DueLe(x, s[0])
    requires multiset(rest) == multiset(s[1..]) + multiset{x}
    ensures forall k :: 0 <= k < |rest| ==> DueLe(s[0], rest[k])
  {
    forall k | 0 <= k < |rest| ensures DueLe(s[0], rest[k]) {
      assert rest[k] in multiset(rest);
      if rest[k] != x {
        assert rest[k] in multiset(s[1..]);
        var m :| 0 <= m < |s[1..]| && s[1..][m] == rest[k];
        assert s[m + 1] == rest[k];
      }
    }
  }

  /** `.sort({dueDate: 1})`: an ascending rearrangement of the matches. The
      store leaves the order of equal due dates open; this one keeps natural
      order. */
  function SortByDue(s: seq<TodoDoc>): (r: seq<TodoDoc>)
    ensures SortedByDue(r)
    ensures multiset(r) == multiset(s)
    ensures forall d :: d in r <==> d in s
  {
    if |s| == 0 then []
    else
      assert s == [s[0]] + s[1..];
      var r := InsertByDue(s[0], SortByDue(s[1..]));
      assert forall d :: d in r <==> d in multiset(r);
      r
  }

  // ---- Owner queries ----

  predicate OverdueMatch(d: TodoDoc, owner: Id, now: int)
  {
    d.body.owner == owner && !d.body.completed && d.body.dueDate.Some? && d.body.dueDate.value < now
  }

  /** `findOverdue(userId)`: the owner's live, incomplete todos due before
      now, oldest first. */
  function FindOverdue(docs: seq<TodoDoc>, owner: Id, now: int): (r: seq<TodoDoc>)
    ensures SortedByDue(r)
    ensures forall d :: d in r <==> d in docs && !IsDeleted(d) && OverdueMatch(d, owner, now)
    ensures multiset(r) == multiset(Find(docs, Default, (d: TodoDoc) => OverdueMatch(d, owner, now)))
  {
    SortByDue(Find(docs, Default, (d: TodoDoc) => OverdueMatch(d, owner, now)))
  }

  /** The query and the instance method agree: a live todo of the owner is
      listed as overdue exactly when `isOverdue()` holds for it. */
  lemma FindOverdueMatchesIsOverdue(docs: seq<TodoDoc>, owner: Id, now: int, d: TodoDoc)
    requires d in docs && !IsDeleted(d) && d.body.owner == owner
    ensures d in FindOverdue(docs, owner, now) <==> IsOverdue(d.body, now)
  {
  }

  const DAY_MS: int := 24 * 60 * 60 * 1000

  predicate UpcomingMatch(d: TodoDoc, owner: Id, now: int, future: int)
  {
    d.body.owner == owner && !d.body.completed && d.body.dueDate.Some?
    && now <= d.body.dueDate.value <= future
  }

  /** `findUpcoming(userId, days = 7)`: the owner's live, incomplete todos
      due from now up to `days` days ahead, soonest first. */
  function FindUpcoming(docs: seq<TodoDoc>, owner: Id, days: Option<int>, now: int): (r: seq<TodoDoc>)
    ensures SortedByDue(r)
    ensures var future := now + (if days.Some? then days.value else 7) * DAY_MS;
            forall d :: d in r <==> d in docs && !IsDeleted(d) && UpcomingMatch(d, owner, now, future)
  {
    var future := now + (if days.Some? then days.value else 7) * DAY_MS;
    SortByDue(Find(docs, Default, (d: TodoDoc) => UpcomingMatch(d, owner, now, future)))
  }

  /** An upcoming todo is never overdue at the same instant, and an overdue
      one is never upcoming. */
  lemma OverdueAndUpcomingDisjoint(docs: seq<TodoDoc>, owner: Id, days: Option<int>, now: int, d: TodoDoc)
    ensures !(d in FindOverdue(docs, owner, now) && d in FindUpcoming(docs, owner, days, now))
  {
  }

  datatype Stats = Stats(total: int, completed: int, pending: int)

  /** `getUserStats(userId)`: counts over the owner's live todos. */
  function GetUserStats(docs: seq<TodoDoc>, owner: Id): (r: Stats)
    ensures r.total == Count(docs, Default, (d: TodoDoc) => d.body.owner == owner)
    ensures r.completed == Count(docs, Default, (d: TodoDoc) => d.body.owner == owner && d.body.completed)
    ensures r.pending == r.total - r.completed
  {
    var total := Count(docs, Default, (d: TodoDoc) => d.body.owner == owner);
    var completed := Count(docs, Default, (d: TodoDoc) => d.body.owner == owner && d.body.completed);
    Stats(total, completed, total - completed)
  }

  /** The pending count is never negative: it is exactly the number of the
      owner's live todos not completed. */
  lemma {:induction false} PendingCountsOpenTodos(docs: seq<TodoDoc>, owner: Id)
    ensures GetUserStats(docs, owner).pending
            == Count(docs, Default, (d: TodoDoc) => d.body.owner == owner && !d.body.completed)
    ensures GetUserStats(docs, owner).pending >= 0
  {
    if |docs| > 0 {
      PendingCountsOpenTodos(docs[1..], owner);
    }
  }
}

=== FILE: todo_service.dfy ===
/** The todo service's `createTodo`: the defaults it fills in before
    `Todo.create`, and how it turns whatever is thrown into an ApiError. */
module TodoService {
  import opened Base
  import opened Text
  import opened Vine
  import opened SoftDelete
  import opened TodoModel
  import opened TodoValidation

  /** How the database driver answers an insert the schema accepted: it
      writes the document, throws an error of the given name and message,
      or (never in practice) resolves to nothing. */
  datatype StoreReply = Written | Thrown(name: string, message: string) | NoDocument

  const CREATE_FAILED: Failure := Api(INTERNAL_SERVER_ERROR, "Failed to create todo. Please try again.")

  /** The `catch` block: an ApiError is rethrown as it is, a Mongoose
      ValidationError becomes 400 "Invalid todo data" and anything else 500,
      both carrying the original message as their errors. */
  function Classify(f: Failure): (r: Failure)
    ensures f.ApiFailure? ==> r == f
    ensures !f.ApiFailure? ==> r.ApiFailure? && r.data.None?
    ensures f.OtherFailure? ==>
              && r.errors == Some(Text(f.message))
              && (r.status == BAD_REQUEST <==> f.name == "ValidationError")
              && (r.status == BAD_REQUEST || r.status == INTERNAL_SERVER_ERROR)
  {
    match f
    case ApiFailure(_, _, _, _) => f
    case OtherFailure(name, message) =>
      if name == "ValidationError" then ApiFailure(BAD_REQUEST, "Invalid todo data", Some(Text(message)), None)
      else ApiFailure(INTERNAL_SERVER_ERROR, "An error occurred while creating the todo", Some(Text(message)), None)
    case VineFailure(_) =>
      ApiFailure(INTERNAL_SERVER_ERROR, "An error occurred while creating the todo", Some(Text("Validation failure")), None)
  }

  /** `x || null` on an optional string: missing and empty both become null. */
  function OrNull(s: Option<string>): (r: Option<string>)
    ensures r.Some? <==> s.Some? && s.value != ""
    ensures r.Some? ==> r == s
  {
    if s.Some? && s.value != "" then s else None
  }

  /** The record handed to `Todo.create`. */
  function DraftOf(input: TodoInput, userId: Id): (d: TodoDraft)
    ensures d.title == Some(input.title) && d.owner == Some(userId) && d.completed == Some(false)
    ensures d.description == OrNull(input.description) && d.dueDate == input.dueDate
    ensures d.priority.Some?
    ensures OrNull(input.priority).None? ==> d.priority == Some("medium")
    ensures OrNull(input.priority).Some? ==> d.priority == input.priority
  {
    TodoDraft(Some(input.title), OrNull(input.description), input.dueDate, Some(false),
              if OrNull(input.priority).Some? then input.priority else Some("medium"),
              Some(userId))
  }

  datatype Created = Created(result: Result<TodoDoc>, todos: seq<TodoDoc>)

  /** `createTodo(todoData, userId)`: the schema checks the defaulted
      record, the driver stores it, and every failure leaves the collection
      as it was and surfaces as an ApiError. */
  function CreateTodo(todos: seq<TodoDoc>, input: TodoInput, userId: Id, id: Id, now: int,
                      reply: StoreReply): (c: Created)
    ensures c.result.Err? ==> c.todos == todos && c.result.failure.ApiFailure?
    ensures c.result.Ok? <==> Acceptable(DraftOf(input, userId)) && reply.Written?
    ensures !Acceptable(DraftOf(input, userId)) ==>
              c.result == Err(ApiFailure(BAD_REQUEST, "Invalid todo data", Some(Text(TODO_VALIDATION_ERROR.message)), None))
    ensures Acceptable(DraftOf(input, userId)) && reply.NoDocument? ==> c.result == Err(CREATE_FAILED)
    ensures Acceptable(DraftOf(input, userId)) && reply.Thrown? ==>
              c.result == Err(Classify(OtherFailure(reply.name, reply.message)))
    ensures c.result.Ok? ==>
              var t := c.result.value.body;
              && c.todos == todos + [c.result.value]
              && c.result.value.id == id && !IsDeleted(c.result.value)
              && t.owner == userId && !t.completed && t.completedAt.None?
              && t.dueDate == input.dueDate
              && t.title == Trim(input.title)
              && (t.description.Some? <==> OrNull(input.description).Some?)
              && (t.description.Some? ==> t.description.value == Trim(OrNull(input.description).value))
              && (OrNull(input.priority).None? ==> t.priority == Medium)
              && (OrNull(input.priority).Some? ==> PriorityName(t.priority) == input.priority.value)
  {
    match Create(DraftOf(input, userId), id, now)
    case Err(f) => Created(Err(Classify(f)), todos)
    case Ok(doc) =>
      match reply
      case Written => Created(Ok(doc), todos + [doc])
      case Thrown(name, message) => Created(Err(Classify(OtherFailure(name, message))), todos)
      case NoDocument => Created(Err(Classify(CREATE_FAILED)), todos)
  }

  /** Whatever the create validator accepts, the schema accepts too: with a
      driver that writes, a validated request always creates its todo, and
      the stored title and description are the validated ones unchanged. */
  lemma ValidatedInputIsCreated(todos: seq<TodoDoc>, b: CreateBody, lib: Lib, userId: Id, id: Id, now: int)
    requires ValidateCreate(b, lib).Valid?
    ensures var input := ValidateCreate(b, lib).value;
            var c := CreateTodo(todos, input, userId, id, now, Written);
            && c.result.Ok?
            && c.result.value.body.title == input.title
            && c.result.value.body.description == OrNull(input.description)
  {
    var input := ValidateCreate(b, lib).value;
    TrimIdempotent(b.title.value.s);
    assert |input.title| > 0;
    if input.description.Some? {
      TrimIdempotent(b.description.value.s);
    }
    TrimmedInputIsAcceptable(input, userId);
  }

  /** A validated input (trimmed texts within their lengths, a known
      priority) yields a draft the schema accepts. */
  lemma TrimmedInputIsAcceptable(input: TodoInput, userId: Id)
    requires Trim(input.title) == input.title && 1 <= JsLength(input.title) <= 200
    requires input.description.Some? ==>
               Trim(input.description.value) == input.description.value && JsLength(input.description.value) <= 1000
    requires input.priority.Some? ==> input.priority.value in PRIORITIES
    ensures Acceptable(DraftOf(input, userId))
  {
    assert |input.title| > 0;
  }
}

=== FILE: todo_validation.dfy ===
/** The todo request validators: create, update, list query, id, delete
    reason and bulk ids. */
module TodoValidation {
  import opened Base
  import opened Text
  import opened Vine

  const PRIORITIES: seq<string> := ["low", "medium", "high"]

  // ---- Create ----

  datatype CreateBody = CreateBody(
    title: Option<Value>,
    description: Option<Value>,
    dueDate: Option<Value>,
    priority: Option<Value>)

  /** The validated create payload; absent optional fields are `None`. */
  datatype TodoInput = TodoInput(
    title: string,
    description: Option<string>,
    dueDate: Option<int>,
    priority: Option<string>)

  /** `createTodoValidation`: a trimmed title of 1 to 200 UTF-16 units, an
      optional trimmed description of at most 1000, an optional date the
      library parses, an optional priority from the enum. */
  function ValidateCreate(b: CreateBody, lib: Lib): (r: Checked<TodoInput>)
    ensures r.Valid? <==>
              && TrimmedString("title", b.title, 1, 200).Valid?
              && Optional(b.description, TrimmedString("description", b.description, 0, 1000)).Valid?
              && Optional(b.dueDate, AsDate("dueDate", b.dueDate, lib)).Valid?
              && Optional(b.priority, Enum("priority", b.priority, PRIORITIES)).Valid?
    ensures r.Valid? ==>
              && b.title.Some? && b.title.value.VStr? && r.value.title == Trim(b.title.value.s)
              && 1 <= JsLength(r.value.title) <= 200
              && (r.value.description.Some? ==> JsLength(r.value.description.value) <= 1000)
              && (r.value.description.None? <==> Missing(b.description))
              && (r.value.priority.Some? ==> r.value.priority.value in PRIORITIES)
              && (r.value.priority.None? <==> Missing(b.priority))
              && (r.value.dueDate.None? <==> Missing(b.dueDate))
    ensures r.Valid? && !Missing(b.description) ==>
              b.description.value.VStr? && r.value.description == Some(Trim(b.description.value.s))
    ensures r.Valid? && !Missing(b.dueDate) ==>
              b.dueDate.value.VStr? && r.value.dueDate == lib.parseDate(b.dueDate.value.s)
    ensures r.Valid? && !Missing(b.priority) ==>
              b.priority.value.VStr? && r.value.priority == Some(b.priority.value.s)
    ensures r.Invalid? ==> |r.errors| >= 1
  {
    var t := TrimmedString("title", b.title, 1, 200);
    var d := Optional(b.description, TrimmedString("description", b.description, 0, 1000));
    var due := Optional(b.dueDate, AsDate("dueDate", b.dueDate, lib));
    var p := Optional(b.priority, Enum("priority", b.priority, PRIORITIES));
    if t.Valid? && d.Valid? && due.Valid? && p.Valid? then Valid(TodoInput(t.value, d.value, due.value, p.value))
    else Invalid(Errors(t) + Errors(d) + Errors(due) + Errors(p))
  }

  // ---- Update ----

  datatype UpdateBody = UpdateBody(
    title: Option<Value>,
    description: Option<Value>,
    dueDate: Option<Value>,
    completed: Option<Value>,
    priority: Option<Value>)

  /** The validated update payload: each field kept, or set; description and
      due date may also be cleared. */
  datatype TodoPatch = TodoPatch(
    title: Option<string>,
    description: Patch<string>,
    dueDate: Patch<int>,
    completed: Option<bool>,
    priority: Option<string>)

  /** `updateTodoValidation`: every field optional, description and due date
      also nullable. */
  function ValidateUpdate(b: UpdateBody, lib: Lib): (r: Checked<TodoPatch>)
    ensures r.Valid? <==>
              && Optional(b.title, TrimmedString("title", b.title, 1, 200)).Valid?
              && OptionalNullable(b.description, TrimmedString("description", b.description, 0, 1000)).Valid?
              && OptionalNullable(b.dueDate, AsDate("dueDate", b.dueDate, lib)).Valid?
              && Optional(b.completed, AsBoolean("completed", b.completed)).Valid?
              && Optional(b.priority, Enum("priority", b.priority, PRIORITIES)).Valid?
    ensures r.Valid? && r.value.title.Some? ==> 1 <= JsLength(r.value.title.value) <= 200
    ensures r.Valid? && r.value.priority.Some? ==> r.value.priority.value in PRIORITIES
    ensures r.Valid? ==> (r.value.description == Clear <==> b.description == Some(VNull))
    ensures r.Valid? ==> (r.value.dueDate == Clear <==> b.dueDate == Some(VNull))
    ensures r.Valid? ==>
              && Given(b.title, TrimmedString("title", b.title, 1, 200), r.value.title)
              && GivenPatch(b.description, TrimmedString("description", b.description, 0, 1000), r.value.description)
              && GivenPatch(b.dueDate, AsDate("dueDate", b.dueDate, lib), r.value.dueDate)
              && Given(b.completed, AsBoolean("completed", b.completed), r.value.completed)
              && Given(b.priority, Enum("priority", b.priority, PRIORITIES), r.value.priority)
  {
    var t := Optional(b.title, TrimmedString("title", b.title, 1, 200));
    var d := OptionalNullable(b.description, TrimmedString("description", b.description, 0, 1000));
    var due := OptionalNullable(b.dueDate, AsDate("dueDate", b.dueDate, lib));
    var c := Optional(b.completed, AsBoolean("completed", b.completed));
    var p := Optional(b.priority, Enum("priority", b.priority, PRIORITIES));
    if t.Valid? && d.Valid? && due.Valid? && c.Valid? && p.Valid?
    then Valid(TodoPatch(t.value, d.value, due.value, c.value, p.value))
    else Invalid(Errors(t) + Errors(d) + Errors(due) + Errors(c) + Errors(p))
  }

  /** What an accepted update carries, field by field, in terms of the
      body: a missing title, completed or priority stays out of the patch;
      an absent description or date is kept and a null one cleared; a given
      text is trimmed, a given date parsed and a given priority kept. */
  lemma UpdateReadsTheBody(b: UpdateBody, lib: Lib)
    requires ValidateUpdate(b, lib).Valid?
    ensures var p := ValidateUpdate(b, lib).value;
            && (p.title.None? <==> Missing(b.title))
            && (!Missing(b.title) ==> b.title.value.VStr? && p.title == Some(Trim(b.title.value.s)))
            && (p.description == Keep <==> b.description.None?)
            && (!Missing(b.description) ==> b.description.value.VStr? && p.description == Set(Trim(b.description.value.s)))
            && (p.dueDate == Keep <==> b.dueDate.None?)
            && (!Missing(b.dueDate) ==>
                  b.dueDate.value.VStr? && p.dueDate == Set(lib.parseDate(b.dueDate.value.s).value))
            && (p.completed.None? <==> Missing(b.completed))
            && (b.completed.Some? && b.completed.value.VBool? ==> p.completed == Some(b.completed.value.b))
            && (p.priority.None? <==> Missing(b.priority))
            && (!Missing(b.priority) ==> b.priority.value.VStr? && p.priority == Some(b.priority.value.s))
  {
    var p := ValidateUpdate(b, lib).value;
    assert Given(b.title, TrimmedString("title", b.title, 1, 200), p.title);
    assert GivenPatch(b.description, TrimmedString("description", b.description, 0, 1000), p.description);
    assert GivenPatch(b.dueDate, AsDate("dueDate", b.dueDate, lib), p.dueDate);
    assert Given(b.completed, AsBoolean("completed", b.completed), p.completed);
    assert Given(b.priority, Enum("priority", b.priority, PRIORITIES), p.priority);
  }

  /** The comment asks for at least one field, but the validator accepts an
      empty update. */
  lemma EmptyUpdateAccepted(lib: Lib)
    ensures ValidateUpdate(UpdateBody(None, None, None, None, None), lib) == Valid(TodoPatch(None, Keep, Keep, None, None))
  {
  }

  // ---- Query ----

  datatype QueryBody = QueryBody(
    completed: Option<Value>,
    priority: Option<Value>,
    search: Option<Value>,
    page: Option<Value>,
    limit: Option<Value>,
    sortBy: Option<Value>,
    order: Option<Value>)

  datatype TodoQuery = TodoQuery(
    completed: Option<bool>,
    priority: Option<string>,
    search: Option<string>,
    page: Option<real>,
    limit: Option<real>,
    sortBy: Option<string>,
    order: Option<string>)

  const SORT_FIELDS: seq<string> := ["createdAt", "updatedAt", "dueDate", "priority", "title", "completed"]
  const ORDERS: seq<string> := ["asc", "desc"]

  /** `vine.number().min(lo).max(hi)`; `hi` absent means no maximum. */
  function NumberIn(field: string, v: Option<Value>, lo: real, hi: Option<real>, lib: Lib): (r: Checked<real>)
    ensures r.Valid? <==> AsNumber(field, v, lib).Valid? && lo <= AsNumber(field, v, lib).value
                          && (hi.Some? ==> AsNumber(field, v, lib).value <= hi.value)
    ensures r.Valid? ==> r.value == AsNumber(field, v, lib).value
  {
    match AsNumber(field, v, lib)
    case Invalid(e) => Invalid(e)
    case Valid(n) =>
      if n < lo then Fail(field, "min")
      else if hi.Some? && n > hi.value then Fail(field, "max")
      else Valid(n)
  }

  /** `todoQueryValidation`: page at least 1, limit from 1 to 100, search
      of 2 to 100 units after trimming, sort field and order from their
      enums; every field optional. */
  function ValidateQuery(b: QueryBody, lib: Lib): (r: Checked<TodoQuery>)
    ensures r.Valid? <==>
              && Optional(b.completed, AsBoolean("completed", b.completed)).Valid?
              && Optional(b.priority, Enum("priority", b.priority, PRIORITIES)).Valid?
              && Optional(b.search, TrimmedString("search", b.search, 2, 100)).Valid?
              && Optional(b.page, NumberIn("page", b.page, 1.0, None, lib)).Valid?
              && Optional(b.limit, NumberIn("limit", b.limit, 1.0, Some(100.0), lib)).Valid?
              && Optional(b.sortBy, Enum("sortBy", b.sortBy, SORT_FIELDS)).Valid?
              && Optional(b.order, Enum("order", b.order, ORDERS)).Valid?
    ensures r.Valid? ==>
              && (r.value.page.Some? ==> r.value.page.value >= 1.0)
              && (r.value.limit.Some? ==> 1.0 <= r.value.limit.value <= 100.0)
              && (r.value.search.Some? ==> 2 <= JsLength(r.value.search.value) <= 100)
              && (r.value.sortBy.Some? ==> r.value.sortBy.value in SORT_FIELDS)
              && (r.value.order.Some? ==> r.value.order.value in ORDERS)
    ensures r.Valid? ==>
              && Given(b.completed, AsBoolean("completed", b.completed), r.value.completed)
              && Given(b.priority, Enum("priority", b.priority, PRIORITIES), r.value.priority)
              && Given(b.search, TrimmedString("search", b.search, 2, 100), r.value.search)
              && Given(b.page, NumberIn("page", b.page, 1.0, None, lib), r.value.page)
              && Given(b.limit, NumberIn("limit", b.limit, 1.0, Some(100.0), lib), r.value.limit)
              && Given(b.sortBy, Enum("sortBy", b.sortBy, SORT_FIELDS), r.value.sortBy)
              && Given(b.order, Enum("order", b.order, ORDERS), r.value.order)
  {
    var c := Optional(b.completed, AsBoolean("completed", b.completed));
    var p := Optional(b.priority, Enum("priority", b.priority, PRIORITIES));
    var s := Optional(b.search, TrimmedString("search", b.search, 2, 100));
    var pg := Optional(b.page, NumberIn("page", b.page, 1.0, None, lib));
    var l := Optional(b.limit, NumberIn("limit", b.limit, 1.0, Some(100.0), lib));
    var sb := Optional(b.sortBy, Enum("sortBy", b.sortBy, SORT_FIELDS));
    var o := Optional(b.order, Enum("order", b.order, ORDERS));
    if c.Valid? && p.Valid? && s.Valid? && pg.Valid? && l.Valid? && sb.Valid? && o.Valid?
    then Valid(TodoQuery(c.value, p.value, s.value, pg.value, l.value, sb.value, o.value))
    else Invalid(Errors(c) + Errors(p) + Errors(s) + Errors(pg) + Errors(l) + Errors(sb) + Errors(o))
  }

  /** Page and limit are read as JavaScript reads numbers: a fractional
      page or a padded limit passes, and the value kept is the number read. */
  lemma QueryNumbersAsJavaScriptReadsThem(lib: Lib)
    requires lib.parseNumber("2.5") == Some(2.5) && lib.parseNumber(" 10") == Some(10.0)
    ensures var r := ValidateQuery(QueryBody(None, None, None, Some(VStr("2.5")), Some(VStr(" 10")), None, None), lib);
            r.Valid? && r.value.page == Some(2.5) && r.value.limit == Some(10.0)
  {
  }

  /** A query whose limit reads as more than 100, or whose page reads as
      less than 1, is rejected. */
  lemma QueryRejectsOutOfRange(b: QueryBody, lib: Lib)
    requires (b.limit.Some? && AsNumber("limit", b.limit, lib).Valid? && AsNumber("limit", b.limit, lib).value > 100.0)
             || (b.page.Some? && AsNumber("page", b.page, lib).Valid? && AsNumber("page", b.page, lib).value < 1.0)
    ensures ValidateQuery(b, lib).Invalid?
  {
  }

  // ---- Ids ----

  predicate IsHexDigit(c: char)
  {
    ('0' <= c <= '9') || ('a' <= c <= 'f') || ('A' <= c <= 'F')
  }

  /** `^[0-9a-fA-F]{24}$`. */
  predicate IsObjectIdText(s: string)
  {
    |s| == 24 && forall i :: 0 <= i < |s| ==> IsHexDigit(s[i])
  }

  /** `todoIdValidation`: a string of exactly 24 hexadecimal digits. */
  function ValidateId(v: Option<Value>): (r: Checked<string>)
    ensures r.Valid? <==> v.Some? && v.value.VStr? && IsObjectIdText(v.value.s)
    ensures r.Valid? ==> r.value == v.value.s
  {
    match AsString("id", v)
    case Invalid(e) => Invalid(e)
    case Valid(s) => if IsObjectIdText(s) then Valid(s) else Fail("id", "regex")
  }

  /** Letter case does not matter to the id rule. */
  lemma IdRuleIgnoresCase(s: string)
    ensures IsObjectIdText(ToLower(s)) <==> IsObjectIdText(s)
  {
    if IsObjectIdText(s) {
      forall i | 0 <= i < |s| ensures IsHexDigit(ToLower(s)[i]) {
        assert IsHexDigit(s[i]);
      }
    }
    if IsObjectIdText(ToLower(s)) {
      forall i | 0 <= i < |s| ensures IsHexDigit(s[i]) {
        assert IsHexDigit(ToLower(s)[i]);
      }
    }
  }

  // ---- Delete and bulk ----

  /** `deleteTodoValidation`: an optional reason of 3 to 200 units after
      trimming. */
  function ValidateDeleteReason(reason: Option<Value>): (r: Checked<Option<string>>)
    ensures Missing(reason) ==> r == Valid(None)
    ensures !Missing(reason) ==>
              (r.Valid? <==> reason.value.VStr? && 3 <= JsLength(Trim(reason.value.s)) <= 200)
    ensures r.Valid? && r.value.Some? ==> r.value.value == Trim(reason.value.s)
  {
    Optional(reason, TrimmedString("reason", reason, 3, 200))
  }

  datatype BulkIds = BulkIds(todoIds: seq<string>, reason: Option<string>)

  predicate AllIds(items: seq<Value>)
  {
    forall k :: 0 <= k < |items| ==> items[k].VStr? && IsObjectIdText(items[k].s)
  }

  /** The strings of an array of string values. */
  function Strings(items: seq<Value>): (r: seq<string>)
    requires forall k :: 0 <= k < |items| ==> items[k].VStr?
    ensures |r| == |items| && forall k :: 0 <= k < |items| ==> r[k] == items[k].s
  {
    seq(|items|, k requires 0 <= k < |items| => items[k].s)
  }

  /** The string at position `k` of an array, if it is one. */
  function StringAt(items: seq<Value>, k: nat): Option<string>
  {
    if k < |items| && items[k].VStr? then Some(items[k].s) else None
  }

  /** `bulkTodoIdsValidation`: an array of 1 to 50 ids, each 24 hexadecimal
      digits, and an optional reason of at most 200 units after trimming. */
  function ValidateBulk(todoIds: Option<Value>, reason: Option<Value>): (r: Checked<BulkIds>)
    ensures r.Valid? <==>
              && todoIds.Some? && todoIds.value.VArr?
              && 1 <= |todoIds.value.items| <= 50 && AllIds(todoIds.value.items)
              && Optional(reason, TrimmedString("reason", reason, 0, 200)).Valid?
    ensures r.Valid? ==>
              && 1 <= |r.value.todoIds| <= 50
              && forall k :: 0 <= k < |r.value.todoIds| ==> IsObjectIdText(r.value.todoIds[k])
    ensures r.Valid? ==>
              && todoIds.Some? && todoIds.value.VArr? && |r.value.todoIds| == |todoIds.value.items|
              && forall k :: 0 <= k < |r.value.todoIds| ==> Some(r.value.todoIds[k]) == StringAt(todoIds.value.items, k)
    ensures r.Valid? && Missing(reason) ==> r.value.reason.None?
    ensures r.Valid? && !Missing(reason) ==> reason.value.VStr? && r.value.reason == Some(Trim(reason.value.s))
  {
    var ids: Checked<seq<string>> :=
      if Missing(todoIds) then Fail("todoIds", "required")
      else if !todoIds.value.VArr? then Fail("todoIds", "array")
      else if !AllIds(todoIds.value.items) then Fail("todoIds", "regex")
      else if |todoIds.value.items| < 1 then Fail("todoIds", "minLength")
      else if |todoIds.value.items| > 50 then Fail("todoIds", "maxLength")
      else Valid(Strings(todoIds.value.items));
    var why := Optional(reason, TrimmedString("reason", reason, 0, 200));
    if ids.Valid? && why.Valid? then Valid(BulkIds(ids.value, why.value))
    else Invalid(Errors(ids) + Errors(why))
  }

  /** The array of the given strings, as JSON delivers a list of ids. */
  function StringArray(ids: seq<string>): (v: Value)
    ensures v.VArr? && |v.items| == |ids|
    ensures forall k :: 0 <= k < |ids| ==> v.items[k] == VStr(ids[k])
  {
    VArr(seq(|ids|, k requires 0 <= k < |ids| => VStr(ids[k])))
  }

  /** A list of 1 to 50 well-formed ids, sent as an array with no reason,
      comes back from the bulk validator exactly as it was sent. */
  lemma BulkIdsRoundTrip(ids: seq<string>)
    requires 1 <= |ids| <= 50
    requires forall k :: 0 <= k < |ids| ==> IsObjectIdText(ids[k])
    ensures ValidateBulk(Some(StringArray(ids)), None) == Valid(BulkIds(ids, None))
  {
    var r := ValidateBulk(Some(StringArray(ids)), None);
    assert r.Valid?;
    assert r.value.todoIds == ids by {
      forall k | 0 <= k < |ids| ensures r.value.todoIds[k] == ids[k] {
        assert Some(r.value.todoIds[k]) == StringAt(StringArray(ids).items, k);
      }
    }
  }
}

=== FILE: tokens.dfy ===
/** Token minting: the access and refresh token payloads a user signs, and
    the helper that mints a pair and stores the refresh token on the user.
    Signing is a parameter: given the claims and the secret, it yields the
    token, or nothing when the signing library throws (a missing secret, an
    unreadable lifetime). */
module Tokens {
  import opened Base
  import opened UserModel

  /** The process environment the token code reads. */
  datatype Env = Env(
    accessSecret: Option<string>,
    refreshSecret: Option<string>,
    accessExp: Option<string>,
    refreshExp: Option<string>)

  /** A signed payload, with the issue time (whole seconds) and lifetime the
      signer adds. */
  datatype Claims =
    | AccessClaims(id: Id, email: string, userName: string, issuedAt: int, expiresIn: string)
    | RefreshClaims(id: Id, issuedAt: int, expiresIn: string)

  type Signer = (Claims, Option<string>) -> Option<string>

  /** `process.env.X || fallback`: an unset or empty variable falls back. */
  function EnvOr(v: Option<string>, fallback: string): (r: string)
    ensures v.Some? && v.value != "" ==> r == v.value
    ensures v.None? || v.value == "" ==> r == fallback
  {
    if v.Some? && v.value != "" then v.value else fallback
  }

  /** The issue time the signer records: the current time in whole seconds. */
  function IssuedAt(now: int): int
  {
    now / 1000
  }

  /** `generateAccessToken()`: payload {_id, email, userName}, lifetime
      ACCESS_TOKEN_EXP or one day, signed with the ACCESS_TOKEN secret. */
  function AccessClaimsOf(u: User, now: int, env: Env): Claims
  {
    AccessClaims(u.id, u.email, u.userName, IssuedAt(now), EnvOr(env.accessExp, "1d"))
  }

  /** `generateRefreshToken()`: payload {_id}, lifetime REFRESH_TOKEN_EXP or
      seven days, signed with the REFRESH_TOKEN secret. */
  function RefreshClaimsOf(u: User, now: int, env: Env): Claims
  {
    RefreshClaims(u.id, IssuedAt(now), EnvOr(env.refreshExp, "7d"))
  }

  function GenerateAccessToken(u: User, now: int, env: Env, sign: Signer): Option<string>
  {
    sign(AccessClaimsOf(u, now, env), env.accessSecret)
  }

  function GenerateRefreshToken(u: User, now: int, env: Env, sign: Signer): Option<string>
  {
    sign(RefreshClaimsOf(u, now, env), env.refreshSecret)
  }

  /** Both payloads name the same user; the access payload carries exactly
      the id, email and user name, the refresh payload only the id; with the
      variables unset the lifetimes are one and seven days. */
  lemma ClaimsDescribeUser(u: User, now: int, env: Env)
    ensures AccessClaimsOf(u, now, env).id == RefreshClaimsOf(u, now, env).id == u.id
    ensures AccessClaimsOf(u, now, env) ==
            AccessClaims(u.id, u.email, u.userName, now / 1000, AccessClaimsOf(u, now, env).expiresIn)
    ensures RefreshClaimsOf(u, now, env) == RefreshClaims(u.id, now / 1000, RefreshClaimsOf(u, now, env).expiresIn)
    ensures env.accessExp.None? ==> AccessClaimsOf(u, now, env).expiresIn == "1d"
    ensures env.refreshExp.None? ==> RefreshClaimsOf(u, now, env).expiresIn == "7d"
  {
  }

  datatype TokenPair = TokenPair(accessToken: string, refreshToken: string)

  /** The result of a step on the users collection. */
  datatype Minted = Minted(result: Result<TokenPair>, users: Store)

  const TOKEN_FAILURE: Failure := Api(INTERNAL_SERVER_ERROR, "Something went wrong")

  /** `generateAcesssAndRefreshToken(userId)`: find the user, sign both
      tokens, store the refresh token on the user and save (the password is
      not modified, so it is not re-hashed). Any failure, an unknown id
      included, becomes 500 "Something went wrong" and nothing is stored. */
  function GenerateTokens(s: Store, userId: Id, now: int, env: Env, sign: Signer): (m: Minted)
    ensures m.result.Err? ==> m.users == s && m.result.failure == TOKEN_FAILURE
    ensures m.result.Ok? <==>
              IndexById(s, userId).Some?
              && GenerateAccessToken(s[IndexById(s, userId).value], now, env, sign).Some?
              && GenerateRefreshToken(s[IndexById(s, userId).value], now, env, sign).Some?
    ensures m.result.Ok? ==>
              var i := IndexById(s, userId).value;
              var pair := m.result.value;
              && Some(pair.accessToken) == GenerateAccessToken(s[i], now, env, sign)
              && Some(pair.refreshToken) == GenerateRefreshToken(s[i], now, env, sign)
              && |m.users| == |s|
              && m.users[i] == s[i].(refreshToken := Some(pair.refreshToken))
              && (forall j :: 0 <= j < |s| && j != i ==> m.users[j] == s[j])
  {
    match IndexById(s, userId)
    case None => Minted(Err(TOKEN_FAILURE), s)
    case Some(i) =>
      var u := s[i];
      match (GenerateAccessToken(u, now, env, sign), GenerateRefreshToken(u, now, env, sign))
      case (Some(access), Some(refresh)) =>
        Minted(Ok(TokenPair(access, refresh)), s[i := Save(u.(refreshToken := Some(refresh)), None)])
      case _ => Minted(Err(TOKEN_FAILURE), s)
  }

  /** After minting, `findById` finds the user holding exactly the returned
      refresh token (any earlier one is gone), with the same password hash;
      the unique indexes still hold. */
  lemma MintedTokenIsStored(s: Store, userId: Id, now: int, env: Env, sign: Signer)
    requires UniqueKeys(s)
    requires GenerateTokens(s, userId, now, env, sign).result.Ok?
    ensures var m := GenerateTokens(s, userId, now, env, sign);
            var u := FindById(m.users, userId);
            && u.Some?
            && u.value.refreshToken == Some(m.result.value.refreshToken)
            && u.value.password == FindById(s, userId).value.password
            && UniqueKeys(m.users)
  {
    var m := GenerateTokens(s, userId, now, env, sign);
    var i := IndexById(s, userId).value;
    IndexByIdStable(s, m.users, userId);
    UpdatePreservesUniqueKeys(s, i, m.users[i]);
    assert m.users == s[i := m.users[i]];
  }
}

=== FILE: user_model.dfy ===
/** The user record: its fields and defaults, the setters and required
    checks the schema applies when a user is built, the pre-save password
    rule, password comparison, the sanitised projection handed to clients,
    and the collection as a sequence in natural order. */
module UserModel {
  import opened Base
  import opened Text
  import Bcrypt

  type Id = string

  datatype Gender = Male | Female | Other

  function GenderName(g: Gender): string
  {
    match g
    case Male => "male"
    case Female => "female"
    case Other => "other"
  }

  /** The schema's `enum: ["male", "female", "other"]`. */
  function GenderOf(s: string): (r: Option<Gender>)
    ensures r.Some? <==> s in ["male", "female", "other"]
    ensures r.Some? ==> GenderName(r.value) == s
  {
    if s == "male" then Some(Male)
    else if s == "female" then Some(Female)
    else if s == "other" then Some(Other)
    else None
  }

  lemma GenderRoundTrip(g: Gender)
    ensures GenderOf(GenderName(g)) == Some(g)
  {
  }

  datatype User = User(
    id: Id,
    userName: string,
    email: string,
    fullName: string,
    password: Bcrypt.Digest,
    gender: Gender,
    emailVerifiedAt: Option<int>,
    refreshToken: Option<string>,
    isActive: bool)

  /** A user as `.select("-password -refreshToken")` returns it. */
  datatype PublicUser = PublicUser(
    id: Id,
    userName: string,
    email: string,
    fullName: string,
    gender: Gender,
    emailVerifiedAt: Option<int>,
    isActive: bool)

  function Sanitize(u: User): PublicUser
  {
    PublicUser(u.id, u.userName, u.email, u.fullName, u.gender, u.emailVerifiedAt, u.isActive)
  }

  /** The password hash and the stored refresh token are the only fields a
      client never sees: two users that differ only there look the same. */
  lemma SanitizeHidesSecrets(u: User, h: Bcrypt.Digest, t: Option<string>)
    ensures Sanitize(u.(password := h, refreshToken := t)) == Sanitize(u)
  {
  }

  /** What a controller passes to `new User({...})`. */
  datatype NewUser = NewUser(
    userName: string,
    email: string,
    fullName: Option<string>,
    password: string,
    gender: Gender)

  const USER_VALIDATION_ERROR: Failure := OtherFailure("ValidationError", "User validation failed")

  /** `new User(d)` and its first `save()`: the setters store userName
      trimmed and lower-cased, email and fullName trimmed; the required
      string fields must not be empty; the defaults leave the user
      unverified, active and without a refresh token; the pre-save hook
      hashes the password, which is new and therefore modified. */
  function Build(d: NewUser, id: Id, salt: int): (r: Result<User>)
    ensures r.Ok? <==>
              d.fullName.Some? && Trim(d.fullName.value) != ""
              && Trim(d.userName) != "" && Trim(d.email) != "" && d.password != ""
    ensures r.Err? ==> r.failure == USER_VALIDATION_ERROR
    ensures r.Ok? ==>
              var u := r.value;
              && u.id == id
              && u.userName == ToLower(Trim(d.userName))
              && u.email == Trim(d.email)
              && u.fullName == Trim(d.fullName.value)
              && u.gender == d.gender
              && Bcrypt.Compare(d.password, u.password)
              && u.emailVerifiedAt == None && u.isActive && u.refreshToken == None
  {
    var userName := ToLower(Trim(d.userName));
    var email := Trim(d.email);
    if d.fullName.None? || Trim(d.fullName.value) == "" || userName == ""
       || email == "" || d.password == ""
    then Err(USER_VALIDATION_ERROR)
    else
      Ok(User(id, userName, email, Trim(d.fullName.value), Bcrypt.Hash(d.password, salt),
              d.gender, None, None, true))
  }

  /** A later `save()`: the pre-save hook re-hashes only when a new plain
      password was assigned (with the salt drawn for it); any other save keeps
      the stored hash. */
  function Save(u: User, newPassword: Option<(string, int)>): (r: User)
    ensures newPassword.None? ==> r == u
    ensures newPassword.Some? ==>
              Bcrypt.Compare(newPassword.value.0, r.password) && r == u.(password := r.password)
  {
    match newPassword
    case None => u
    case Some((p, salt)) => u.(password := Bcrypt.Hash(p, salt))
  }

  /** `isPasswordMatched(p)`. */
  predicate IsPasswordMatched(u: User, p: string)
  {
    Bcrypt.Compare(p, u.password)
  }

  /** The password a user was built with matches, and no other does. */
  lemma BuiltPasswordMatches(d: NewUser, id: Id, salt: int, p: string)
    requires Build(d, id, salt).Ok?
    ensures IsPasswordMatched(Build(d, id, salt).value, p) <==> p == d.password
  {
  }

  /** The users collection, in natural (insertion) order. */
  type Store = seq<User>

  /** The unique indexes on `_id`, `userName` and `email` hold. */
  predicate UniqueKeys(s: Store)
  {
    forall i, j :: 0 <= i < j < |s| ==>
      s[i].id != s[j].id && s[i].userName != s[j].userName && s[i].email != s[j].email
  }

  function IndexById(s: Store, id: Id): (r: Option<nat>)
    ensures r.Some? ==> r.value < |s| && s[r.value].id == id
    ensures r.Some? ==> forall j :: 0 <= j < r.value ==> s[j].id != id
    ensures r.None? <==> forall j :: 0 <= j < |s| ==> s[j].id != id
  {
    FirstIndex(s, (u: User) => u.id == id)
  }

  /** `User.findById(id)`. */
  function FindById(s: Store, id: Id): (r: Option<User>)
    ensures r.Some? <==> exists j :: 0 <= j < |s| && s[j].id == id
    ensures r.Some? ==> r.value in s && r.value.id == id
  {
    match IndexById(s, id)
    case None => None
    case Some(i) => Some(s[i])
  }

  /** Under the unique index on `_id`, the record at a position is the one
      `findById` returns for its id. */
  lemma IndexOfUniqueId(s: Store, i: nat)
    requires UniqueKeys(s) && i < |s|
    ensures IndexById(s, s[i].id) == Some(i)
  {
  }

  /** Replacing records without changing any id leaves `findById` pointing at
      the same positions. */
  lemma {:induction false} IndexByIdStable(s: Store, t: Store, id: Id)
    requires |s| == |t|
    requires forall j :: 0 <= j < |s| ==> s[j].id == t[j].id
    ensures IndexById(s, id) == IndexById(t, id)
  {
    if |s| > 0 {
      IndexByIdStable(s[1..], t[1..], id);
      assert FirstIndex(s, (u: User) => u.id == id) == IndexById(s, id);
    }
  }

  /** Replacing one record by one with the same id, userName and email keeps
      the unique indexes satisfied. */
  lemma UpdatePreservesUniqueKeys(s: Store, i: nat, u: User)
    requires UniqueKeys(s) && i < |s|
    requires u.id == s[i].id && u.userName == s[i].userName && u.email == s[i].email
    ensures UniqueKeys(s[i := u])
  {
  }

  const DUPLICATE_KEY: Failure := OtherFailure("MongoServerError", "E11000 duplicate key error")

  /** Inserting a new user: the unique indexes on `_id`, `userName` and
      `email` reject a record that repeats any of them, and then nothing is
      written; otherwise the user is appended. */
  function Insert(s: Store, u: User): (r: Result<Store>)
    ensures r.Ok? <==> forall j :: 0 <= j < |s| ==> s[j].id != u.id && s[j].userName != u.userName && s[j].email != u.email
    ensures r.Ok? ==> r.value == s + [u]
    ensures r.Err? ==> r.failure == DUPLICATE_KEY
  {
    if exists j :: 0 <= j < |s| && (s[j].id == u.id || s[j].userName == u.userName || s[j].email == u.email)
    then Err(DUPLICATE_KEY)
    else Ok(s + [u])
  }

  /** An accepted insert keeps the unique indexes satisfied. */
  lemma InsertPreservesUniqueKeys(s: Store, u: User)
    requires UniqueKeys(s)
    requires Insert(s, u).Ok?
    ensures UniqueKeys(Insert(s, u).value)
  {
    var t := Insert(s, u).value;
    forall i, j | 0 <= i < j < |t|
      ensures t[i].id != t[j].id && t[i].userName != t[j].userName && t[i].email != t[j].email
    {
      if j == |s| {
        assert t[j] == u && t[i] == s[i];
      } else {
        assert t[i] == s[i] && t[j] == s[j];
      }
    }
  }
}

=== FILE: user_validation.dfy ===
/** The registration request validator: the four user-name patterns, the
    optional full name, email, password length and gender. */
module UserValidation {
  import opened Base
  import opened Text
  import opened Vine
  import UserModel
  import Constants

  predicate IsSeparator(c: char)
  {
    c == '_' || c == '-'
  }

  predicate IsUserNameChar(c: char)
  {
    ('a' <= c <= 'z') || ('0' <= c <= '9') || IsSeparator(c)
  }

  /** What an acceptable user name is, stated directly: 3 to 30 characters
      from a-z, 0-9, `_` and `-`, no separator at either end and no two
      separators side by side. */
  predicate GoodUserName(s: string)
  {
    && 3 <= |s| <= 30
    && (forall i :: 0 <= i < |s| ==> IsUserNameChar(s[i]))
    && !IsSeparator(s[0]) && !IsSeparator(s[|s| - 1])
    && (forall i :: 0 <= i < |s| - 1 ==> !(IsSeparator(s[i]) && IsSeparator(s[i + 1])))
  }

  // The four patterns of the validator, one predicate each.

  /** `^[a-z0-9_-]+$` */
  predicate MatchesAllowed(s: string)
  {
    |s| >= 1 && forall i :: 0 <= i < |s| ==> IsUserNameChar(s[i])
  }

  /** `^(?![_-])[a-z0-9_-]{3,30}(?<![_-])$` */
  predicate MatchesBoundaries(s: string)
  {
    && 3 <= |s| <= 30
    && (forall i :: 0 <= i < |s| ==> IsUserNameChar(s[i]))
    && !IsSeparator(s[0]) && !IsSeparator(s[|s| - 1])
  }

  /** `^(?!.*[_-]{2}).*$`: a single line with no two separators in a row. */
  predicate MatchesNoDoubleSeparator(s: string)
  {
    && (forall i :: 0 <= i < |s| ==> !IsLineTerminator(s[i]))
    && (forall i :: 0 <= i < |s| - 1 ==> !(IsSeparator(s[i]) && IsSeparator(s[i + 1])))
  }

  /** `^(?!.*@).*$`: a single line without `@`. */
  predicate MatchesNoAt(s: string)
  {
    (forall i :: 0 <= i < |s| ==> !IsLineTerminator(s[i]) && s[i] != '@')
  }

  /** The userName rule chain; the patterns run before `toLowerCase()`, so
      upper-case letters are rejected rather than folded. */
  function CheckUserName(v: Option<Value>): (r: Checked<string>)
    ensures r.Valid? ==> v.Some? && v.value.VStr? && r.value == v.value.s
    ensures r.Valid? <==> v.Some? && v.value.VStr? && GoodUserName(v.value.s)
    ensures r.Invalid? ==> |r.errors| == 1 && r.errors[0].field == "userName"
  {
    match AsString("userName", v)
    case Invalid(e) => Invalid(e)
    case Valid(s) =>
      if !MatchesAllowed(s) || !MatchesBoundaries(s) || !MatchesNoDoubleSeparator(s) || !MatchesNoAt(s)
      then Fail("userName", "regex")
      else
        ToLowerFixed(s);
        Valid(ToLower(s))
  }

  /** Letters, marks, white space, `'`, `.` and `-`. */
  predicate IsFullNameChar(c: char, lib: Lib)
  {
    lib.isLetterOrMark(c) || IsJsWhite(c) || c == '\'' || c == '.' || c == '-'
  }

  /** fullName: optional; trimmed, at most 100 UTF-16 code units, then
      `^[\p{L}\p{M}\s'.-]{1,100}$` in Unicode mode (code points). */
  function CheckFullName(v: Option<Value>, lib: Lib): (r: Checked<Option<string>>)
    ensures Missing(v) ==> r == Valid(None)
    ensures !Missing(v) && r.Valid? ==> r.value.Some?
    ensures r.Invalid? ==> |r.errors| == 1 && r.errors[0].field == "fullName"
    ensures r.Valid? && r.value.Some? ==>
              var t := r.value.value;
              && v.Some? && v.value.VStr? && t == Trim(v.value.s)
              && 1 <= |t| && JsLength(t) <= 100
              && forall i :: 0 <= i < |t| ==> IsFullNameChar(t[i], lib)
    ensures v.Some? && v.value.VStr? ==>
              var t := Trim(v.value.s);
              (r.Valid? <==> 1 <= |t| && JsLength(t) <= 100 && forall i :: 0 <= i < |t| ==> IsFullNameChar(t[i], lib))
  {
    if Missing(v) then Valid(None)
    else
      match TrimmedString("fullName", v, 0, 100)
      case Invalid(e) => Invalid(e)
      case Valid(t) =>
        if 1 <= |t| <= 100 && forall i :: 0 <= i < |t| ==> IsFullNameChar(t[i], lib)
        then Valid(Some(t))
        else Fail("fullName", "regex")
  }

  /** email: a string the email rule accepts, kept as given. */
  function CheckEmail(v: Option<Value>, lib: Lib): (r: Checked<string>)
    ensures r.Valid? <==> v.Some? && v.value.VStr? && lib.isEmail(v.value.s)
    ensures r.Valid? ==> r.value == v.value.s
    ensures r.Invalid? ==> |r.errors| == 1 && r.errors[0].field == "email"
  {
    match AsString("email", v)
    case Invalid(e) => Invalid(e)
    case Valid(s) => if lib.isEmail(s) then Valid(s) else Fail("email", "email")
  }

  /** password: 8 to 100 UTF-16 code units, not trimmed. */
  function CheckPassword(v: Option<Value>): (r: Checked<string>)
    ensures r.Valid? <==> v.Some? && v.value.VStr? && 8 <= JsLength(v.value.s) <= 100
    ensures r.Valid? ==> r.value == v.value.s
    ensures r.Invalid? ==> |r.errors| == 1 && r.errors[0].field == "password"
  {
    match AsString("password", v)
    case Invalid(e) => Invalid(e)
    case Valid(s) =>
      if JsLength(s) < 8 then Fail("password", "minLength")
      else if JsLength(s) > 100 then Fail("password", "maxLength")
      else Valid(s)
  }

  /** gender: one of male, female, other. */
  function CheckGender(v: Option<Value>): (r: Checked<UserModel.Gender>)
    ensures r.Valid? <==> v.Some? && v.value.VStr? && v.value.s in ["male", "female", "other"]
    ensures r.Valid? ==> UserModel.GenderName(r.value) == v.value.s
    ensures r.Invalid? ==> |r.errors| == 1 && r.errors[0].field == "gender"
  {
    match Enum("gender", v, ["male", "female", "other"])
    case Invalid(e) => Invalid(e)
    case Valid(s) =>
      match UserModel.GenderOf(s)
      case Some(g) => Valid(g)
      case None => Fail("gender", "enum")
  }

  /** The registration body as received. */
  datatype RegistrationBody = RegistrationBody(
    fullName: Option<Value>,
    userName: Option<Value>,
    email: Option<Value>,
    password: Option<Value>,
    gender: Option<Value>)

  /** The validator's output: unknown properties are dropped. */
  datatype Registration = Registration(
    fullName: Option<string>,
    userName: string,
    email: string,
    password: string,
    gender: UserModel.Gender)

  /** The whole object: every field is checked and the failures are reported
      together, in the schema's field order. */
  function ValidateRegistration(b: RegistrationBody, lib: Lib): (r: Checked<Registration>)
    ensures r.Valid? <==>
              && CheckFullName(b.fullName, lib).Valid? && CheckUserName(b.userName).Valid?
              && CheckEmail(b.email, lib).Valid? && CheckPassword(b.password).Valid?
              && CheckGender(b.gender).Valid?
    ensures r.Valid? ==>
              && GoodUserName(r.value.userName)
              && Some(VStr(r.value.userName)) == b.userName
              && Some(VStr(r.value.email)) == b.email && lib.isEmail(r.value.email)
              && Some(VStr(r.value.password)) == b.password
              && 8 <= JsLength(r.value.password) <= 100
    ensures r.Valid? ==> (r.value.fullName.None? <==> Missing(b.fullName))
    ensures r.Valid? && !Missing(b.fullName) ==>
              b.fullName.value.VStr? && r.value.fullName == Some(Trim(b.fullName.value.s))
    ensures r.Valid? ==> b.gender.Some? && b.gender.value.VStr? && UserModel.GenderName(r.value.gender) == b.gender.value.s
    ensures r.Invalid? ==> |r.errors| >= 1
  {
    var fn := CheckFullName(b.fullName, lib);
    var un := CheckUserName(b.userName);
    var em := CheckEmail(b.email, lib);
    var pw := CheckPassword(b.password);
    var g := CheckGender(b.gender);
    if fn.Valid? && un.Valid? && em.Valid? && pw.Valid? && g.Valid? then
      Valid(Registration(fn.value, un.value, em.value, pw.value, g.value))
    else
      Invalid(Errors(fn) + Errors(un) + Errors(em) + Errors(pw) + Errors(g))
  }

  /** The four patterns together accept exactly the good user names. */
  lemma PatternsAgreeWithGoodUserName(s: string)
    ensures (MatchesAllowed(s) && MatchesBoundaries(s) && MatchesNoDoubleSeparator(s) && MatchesNoAt(s))
            <==> GoodUserName(s)
  {
    if GoodUserName(s) {
      assert forall i :: 0 <= i < |s| ==> !IsLineTerminator(s[i]) && s[i] != '@' by {
        forall i | 0 <= i < |s| ensures !IsLineTerminator(s[i]) && s[i] != '@' {
          assert IsUserNameChar(s[i]);
        }
      }
    }
  }

  /** The `@` pattern never rejects what the allowed-characters pattern
      accepted: an accepted name contains no `@` by the first rule alone. */
  lemma NoAtRuleIsRedundant(s: string)
    requires MatchesAllowed(s)
    ensures MatchesNoAt(s)
  {
    forall i | 0 <= i < |s| ensures !IsLineTerminator(s[i]) && s[i] != '@' {
      assert IsUserNameChar(s[i]);
    }
  }

  /** The validator can never accept "me": that reserved name is shorter
      than three characters. */
  lemma MeIsNeverAccepted(s: string)
    requires GoodUserName(s)
    ensures s != "me"
  {
  }

  /** Every reserved name other than "me" passes the validator, so the
      reserved-name check is what turns it away. */
  lemma OtherReservedNamesPassValidator()
    ensures forall i :: 0 <= i < |Constants.RESERVED_USERNAMES| && Constants.RESERVED_USERNAMES[i] != "me" ==>
              GoodUserName(Constants.RESERVED_USERNAMES[i])
  {
    var names := Constants.RESERVED_USERNAMES;
    forall i | 0 <= i < |names| && names[i] != "me" ensures GoodUserName(names[i]) {
      LowerWordIsGood(names[i]);
    }
  }

  /** A word of 3 to 30 lower-case letters is an acceptable user name. */
  lemma LowerWordIsGood(s: string)
    requires 3 <= |s| <= 30 && forall i :: 0 <= i < |s| ==> 'a' <= s[i] <= 'z'
    ensures GoodUserName(s)
  {
  }

  /** The schema's setters leave an accepted name as it is: it has no white
      space to trim and no upper-case letter to lower. */
  lemma GoodUserNameIsNormal(n: string)
    requires GoodUserName(n)
    ensures Trim(n) == n && ToLower(n) == n
  {
    assert IsUserNameChar(n[0]) && IsUserNameChar(n[|n| - 1]);
    TrimFixed(n);
    forall i | 0 <= i < |n| ensures !IsUpperAscii(n[i]) {
      assert IsUserNameChar(n[i]);
    }
    ToLowerFixed(n);
  }
}

=== FILE: verification.dfy ===
/** The one-time-code challenge record: its fields, required checks and
    defaults, when it counts as live, and the expiry index that reaps it. */
module Verification {
  import opened Base
  import Bcrypt
  import UserModel

  datatype Purpose = Register | ResetPassword
  datatype Channel = Email

  /** `enum: ["register", "reset_password"]`. */
  function PurposeOf(s: string): (r: Option<Purpose>)
    ensures r.Some? <==> s == "register" || s == "reset_password"
    ensures r == Some(Register) <==> s == "register"
  {
    if s == "register" then Some(Register)
    else if s == "reset_password" then Some(ResetPassword)
    else None
  }

  datatype Challenge = Challenge(
    userId: UserModel.Id,
    channel: Channel,
    purpose: Purpose,
    codeHash: Bcrypt.Digest,
    attempts: int,
    maxAttempts: int,
    resentCount: int,
    expiresAt: int,
    consumedAt: Option<int>)

  /** What a caller passes to `VerificationOtp.create({...})`; a field left
      `undefined` is `None`. Properties the schema does not declare are
      dropped by strict mode and have no place here. */
  datatype ChallengeDraft = ChallengeDraft(
    userId: Option<UserModel.Id>,
    channel: Option<string>,
    purpose: Option<string>,
    codeHash: Option<Bcrypt.Digest>,
    attempts: Option<int>,
    maxAttempts: Option<int>,
    resentCount: Option<int>,
    expiresAt: Option<int>)

  const CHALLENGE_VALIDATION_ERROR: Failure := OtherFailure("ValidationError", "VerificationOtp validation failed")

  function OrDefault(v: Option<int>, d: int): int
  {
    if v.Some? then v.value else d
  }

  /** Creating a challenge: userId, purpose, codeHash and expiresAt are
      required, channel and purpose must be in their enums; attempts,
      maxAttempts and resentCount default to 0, 3 and 0, channel to email;
      a new challenge is never consumed. */
  function Create(d: ChallengeDraft): (r: Result<Challenge>)
    ensures r.Ok? <==>
              && d.userId.Some? && d.codeHash.Some? && d.expiresAt.Some?
              && d.purpose.Some? && PurposeOf(d.purpose.value).Some?
              && (d.channel.None? || d.channel.value == "email")
    ensures r.Err? ==> r.failure == CHALLENGE_VALIDATION_ERROR
    ensures r.Ok? ==>
              var c := r.value;
              && Some(c.userId) == d.userId && Some(c.codeHash) == d.codeHash
              && Some(c.expiresAt) == d.expiresAt && PurposeOf(d.purpose.value) == Some(c.purpose)
              && (d.attempts.None? ==> c.attempts == 0)
              && (d.maxAttempts.None? ==> c.maxAttempts == 3)
              && (d.resentCount.None? ==> c.resentCount == 0)
              && (d.attempts.Some? ==> c.attempts == d.attempts.value)
              && (d.maxAttempts.Some? ==> c.maxAttempts == d.maxAttempts.value)
              && (d.resentCount.Some? ==> c.resentCount == d.resentCount.value)
              && c.consumedAt.None?
  {
    if d.userId.None? || d.codeHash.None? || d.expiresAt.None? || d.purpose.None?
       || PurposeOf(d.purpose.value).None? || (d.channel.Some? && d.channel.value != "email")
    then Err(CHALLENGE_VALIDATION_ERROR)
    else
      Ok(Challenge(d.userId.value, Email, PurposeOf(d.purpose.value).value, d.codeHash.value,
                   OrDefault(d.attempts, 0), OrDefault(d.maxAttempts, 3), OrDefault(d.resentCount, 0),
                   d.expiresAt.value, None))
  }

  /** The expiry index (`expireAfterSeconds: 0`) may delete a challenge once
      the clock reaches its `expiresAt`. */
  predicate Reapable(c: Challenge, now: int)
  {
    c.expiresAt <= now
  }

  /** A challenge that can still be answered: not consumed and not expired. */
  predicate Active(c: Challenge, now: int)
  {
    c.consumedAt.None? && now < c.expiresAt
  }

  /** The challenges of one user and purpose that are live. The index on
      (userId, purpose) over unconsumed challenges is not unique, so there
      may be several. */
  function ActiveFor(cs: seq<Challenge>, userId: UserModel.Id, purpose: Purpose, now: int): (r: seq<Challenge>)
    ensures forall c :: c in r <==> c in cs && c.userId == userId && c.purpose == purpose && Active(c, now)
  {
    Filter(cs, (c: Challenge) => c.userId == userId && c.purpose == purpose && Active(c, now))
  }

  /** Appending a challenge adds it to the live ones of its user and
      purpose exactly when it is live itself. */
  lemma ActiveForAppend(cs: seq<Challenge>, c: Challenge, userId: UserModel.Id, purpose: Purpose, now: int)
    ensures ActiveFor(cs + [c], userId, purpose, now)
            == ActiveFor(cs, userId, purpose, now)
               + (if c.userId == userId && c.purpose == purpose && Active(c, now) then [c] else [])
  {
    FilterAppend(cs, [c], (c: Challenge) => c.userId == userId && c.purpose == purpose && Active(c, now));
  }

  /** One pass of the expiry reaper: every reapable challenge goes, every
      other one stays. */
  function Reap(cs: seq<Challenge>, now: int): (r: seq<Challenge>)
    ensures |r| <= |cs|
    ensures forall c :: c in r <==> c in cs && !Reapable(c, now)
  {
    Filter(cs, (c: Challenge) => !Reapable(c, now))
  }

  /** The reaper never removes a live challenge, and never a challenge that
      is live at a later time either. */
  lemma ReapKeepsActive(cs: seq<Challenge>, now: int, later: int, c: Challenge)
    requires now <= later
    requires c in cs && Active(c, later)
    ensures c in Reap(cs, now)
  {
  }

  /** A challenge stays live at most until its expiry, whatever is done with
      it: at any time on or after `expiresAt` it is not live. */
  lemma ExpiredIsNotActive(c: Challenge, now: int)
    requires c.expiresAt <= now
    ensures !Active(c, now) && Reapable(c, now)
  {
  }
}

=== FILE: vine.dfy ===
/** The field rules of the validation library as the validators use them.
    Each rule reports the first failing check of its field ("bail" mode);
    a missing field is one that is absent or `null`. Email syntax, the
    Unicode letter and mark classes and date parsing belong to the library
    and stay parameters, gathered in `Lib`. */
module Vine {
  import opened Base
  import opened Text

  /** `parseNumber` is JavaScript's `Number(s)` on a string, with `None`
      for NaN and the infinities, which `vine.number()` rejects. */
  datatype Lib = Lib(
    isEmail: string -> bool,
    isLetterOrMark: char -> bool,
    parseDate: string -> Option<int>,
    parseNumber: string -> Option<real>)

  /** The outcome of validating one field or a whole object. */
  datatype Checked<T> = Valid(value: T) | Invalid(errors: seq<FieldError>)

  function Errors<T>(c: Checked<T>): seq<FieldError>
  {
    if c.Invalid? then c.errors else []
  }

  function Fail<T>(field: string, rule: string): (r: Checked<T>)
    ensures r.Invalid? && r.errors == [FieldError(field, rule)]
  {
    Invalid([FieldError(field, rule)])
  }

  /** Absent or `null`: what `optional()` lets through and a required field
      rejects. */
  predicate Missing(v: Option<Value>)
  {
    v.None? || v.value.VNull?
  }

  /** `vine.string()` on a present field. */
  function AsString(field: string, v: Option<Value>): (r: Checked<string>)
    ensures r.Valid? <==> v.Some? && v.value.VStr?
    ensures r.Valid? ==> r.value == v.value.s
    ensures r.Invalid? ==> |r.errors| == 1 && r.errors[0].field == field
  {
    if Missing(v) then Fail(field, "required")
    else if v.value.VStr? then Valid(v.value.s)
    else Fail(field, "string")
  }

  /** `vine.enum(choices)`: the value must be one of the given strings. */
  function Enum(field: string, v: Option<Value>, choices: seq<string>): (r: Checked<string>)
    ensures r.Valid? <==> v.Some? && v.value.VStr? && v.value.s in choices
    ensures r.Valid? ==> r.value == v.value.s
    ensures r.Invalid? ==> |r.errors| == 1 && r.errors[0].field == field
  {
    if Missing(v) then Fail(field, "required")
    else if v.value.VStr? && v.value.s in choices then Valid(v.value.s)
    else Fail(field, "enum")
  }

  /** `vine.number()`: a JSON number as it is; otherwise the value goes
      through `Number(value)`, so `true` and `false` become 1 and 0 and a
      string is read as JavaScript reads it ("2.5", " 10", "1e1"); a result
      that is NaN or infinite is rejected. */
  function AsNumber(field: string, v: Option<Value>, lib: Lib): (r: Checked<real>)
    ensures r.Valid? <==>
              v.Some? && (v.value.VNum? || v.value.VBool? || (v.value.VStr? && lib.parseNumber(v.value.s).Some?))
    ensures r.Valid? && v.value.VNum? ==> r.value == v.value.n
    ensures r.Valid? && v.value.VBool? ==> r.value == (if v.value.b then 1.0 else 0.0)
    ensures r.Valid? && v.value.VStr? ==> r.value == lib.parseNumber(v.value.s).value
    ensures r.Invalid? ==> |r.errors| == 1 && r.errors[0].field == field
  {
    if Missing(v) then Fail(field, "required")
    else match v.value
      case VNum(n) => Valid(n)
      case VBool(b) => Valid(if b then 1.0 else 0.0)
      case VStr(s) =>
        if lib.parseNumber(s).Some? then Valid(lib.parseNumber(s).value) else Fail(field, "number")
      case _ => Fail(field, "number")
  }

  /** `vine.boolean()`: `true`/`false`, `1`/`0` and their string forms, and "on". */
  function AsBoolean(field: string, v: Option<Value>): (r: Checked<bool>)
    ensures r.Valid? && r.value ==>
              v == Some(VBool(true)) || v == Some(VNum(1.0)) || v == Some(VStr("1"))
              || v == Some(VStr("true")) || v == Some(VStr("on"))
    ensures r.Valid? && !r.value ==>
              v == Some(VBool(false)) || v == Some(VNum(0.0)) || v == Some(VStr("0"))
              || v == Some(VStr("false"))
    ensures v.Some? && v.value.VBool? ==> r == Valid(v.value.b)
    ensures r.Invalid? ==> |r.errors| == 1 && r.errors[0].field == field
  {
    if Missing(v) then Fail(field, "required")
    else match v.value
      case VBool(b) => Valid(b)
      case VNum(n) =>
        if n == 1.0 then Valid(true) else if n == 0.0 then Valid(false) else Fail(field, "boolean")
      case VStr(s) =>
        if s == "1" || s == "true" || s == "on" then Valid(true)
        else if s == "0" || s == "false" then Valid(false)
        else Fail(field, "boolean")
      case _ => Fail(field, "boolean")
  }

  /** `vine.date(...)`: a string the library's date parser accepts. */
  function AsDate(field: string, v: Option<Value>, lib: Lib): (r: Checked<int>)
    ensures r.Valid? <==> v.Some? && v.value.VStr? && lib.parseDate(v.value.s).Some?
    ensures r.Valid? ==> Some(r.value) == lib.parseDate(v.value.s)
    ensures r.Invalid? ==> |r.errors| == 1 && r.errors[0].field == field
  {
    if Missing(v) then Fail(field, "required")
    else if v.value.VStr? && lib.parseDate(v.value.s).Some? then Valid(lib.parseDate(v.value.s).value)
    else Fail(field, if v.value.VStr? then "date" else "string")
  }

  /** `.trim().minLength(lo).maxLength(hi)` after `vine.string()`, lengths in
      UTF-16 code units; `lo == 0` means no `minLength` rule. */
  function TrimmedString(field: string, v: Option<Value>, lo: nat, hi: nat): (r: Checked<string>)
    ensures r.Valid? <==>
              v.Some? && v.value.VStr? && lo <= JsLength(Trim(v.value.s)) <= hi
    ensures r.Valid? ==> r.value == Trim(v.value.s)
    ensures r.Invalid? ==> |r.errors| == 1 && r.errors[0].field == field
  {
    match AsString(field, v)
    case Invalid(e) => Invalid(e)
    case Valid(s) =>
      var t := Trim(s);
      if JsLength(t) < lo then Fail(field, "minLength")
      else if JsLength(t) > hi then Fail(field, "maxLength")
      else Valid(t)
  }

  /** The output `out` of an optional field: absent when the field is
      missing, otherwise the value its rule `c` accepted. */
  predicate Given<T(==)>(v: Option<Value>, c: Checked<T>, out: Option<T>)
  {
    if Missing(v) then out.None? else c.Valid? && out == Some(c.value)
  }

  /** `optional()` around a rule: a missing field is accepted and left out
      of the output; a present one must pass the rule. */
  function Optional<T(==)>(v: Option<Value>, c: Checked<T>): (r: Checked<Option<T>>)
    ensures Missing(v) ==> r == Valid(None)
    ensures !Missing(v) ==> (r.Valid? <==> c.Valid?)
    ensures !Missing(v) && c.Valid? ==> r == Valid(Some(c.value))
    ensures !Missing(v) && c.Invalid? ==> r.errors == c.errors
    ensures r.Valid? ==> Given(v, c, r.value)
  {
    if Missing(v) then Valid(None)
    else match c
      case Valid(x) => Valid(Some(x))
      case Invalid(e) => Invalid(e)
  }

  /** A field of an update payload that `optional().nullable()` allows to be
      left out, set to `null`, or set to a value. */
  datatype Patch<T> = Keep | Clear | Set(value: T)

  /** The output `out` of an optional, nullable field: kept when absent,
      cleared when `null`, otherwise set to the value its rule `c` accepted. */
  predicate GivenPatch<T(==)>(v: Option<Value>, c: Checked<T>, out: Patch<T>)
  {
    if v.None? then out == Keep
    else if v.value.VNull? then out == Clear
    else c.Valid? && out == Set(c.value)
  }

  /** `optional().nullable()` around a rule. */
  function OptionalNullable<T(==)>(v: Option<Value>, c: Checked<T>): (r: Checked<Patch<T>>)
    ensures v.None? ==> r == Valid(Keep)
    ensures v == Some(VNull) ==> r == Valid(Clear)
    ensures !Missing(v) ==> (r.Valid? <==> c.Valid?)
    ensures !Missing(v) && c.Valid? ==> r == Valid(Set(c.value))
    ensures r.Valid? ==> GivenPatch(v, c, r.value)
  {
    if v.None? then Valid(Keep)
    else if v.value.VNull? then Valid(Clear)
    else match c
      case Valid(x) => Valid(Set(x))
      case Invalid(e) => Invalid(e)
  }
}
